=== FILE: README.md ===
# inventory crawler core, modelled in Dafny

The inventory crawler fills per-site product catalogs (`db/<site>.json`) from fashion web
shops. Each scraper drives a browser over one or more root pages, reads product tiles and
writes the concatenation of what it found. Three repair and indexing passes then work over
the stored catalogs:

- `fixDb` normalises URLs and recomputes ids.
- `fixIds` recomputes ids only.
- The cropping pass asks an image service for processed images, in batches of 20.
- `generate_embeddings.py` stores image embeddings in a vector collection, in batches of 32.

This project models that core as pure Dafny functions:

- **Records and shared helpers.** The product record (`Catalog.Product`), the `fixUrl`
  normalisation (`Urls`), the `?page=n` builder, and the site loop that skips unreadable
  db files.
- **Repair passes.** `fixDb` (`FixDb`), `fixIds` (`FixIds`), the cropping pass (`Crop`,
  with `Batching`) and the embedding indexer (`Embeddings`).
- **Scroll-until-stable scrapers.** balenciaga (`Balenciaga`), driesvannoten
  (`DriesVanNoten`) and zara (`Zara`). Their counters are each proved equal to one
  reference detector (`Stabilize`): the first window of K consecutive "no change" samples.
- **Paginating scrapers.** amiparis (`AmiParis`), canali (`Canali`), cos (`Cos`, with its
  next-page rule in `CosUrls`) and jilsander's "View More" loop (`JilSander`).

What the browser shows is an input to the model:

- product counts, heights, scroll positions;
- the tiles on a page;
- whether a page loaded or threw.

The following are also parameters, with no model of their own:

- the content hash;
- SHA-256;
- `new URL(...)`;
- image fetching and embedding;
- whether the indexer's per-site `run` call returns or raises.

A crawl that has no iteration cap returns `Pending` when the supplied observations run out
before the loop would stop. It returns `Done` when it stops, and `Failed` when an error
escapes it. Where the code has a bug, the model keeps the code as written in one member and
the evidently intended behaviour in another. A `correct` flag selects between them where
both are used; see "Findings".

## Model

| member | source | states |
|---|---|---|
| Urls.FixUrlText | src/fixdb.js:8-18 | `//x` becomes `https://x`, a root path gets the base URL, anything else is unchanged; the `//` case wins over `/` |
| Urls.FixUrl | src/fixdb.js:8-18 | `null` stays `null`; otherwise the text rule |
| Urls.FixUrlTextIdempotent | src/fixdb.js:8-18 | normalising twice equals normalising once, given a base URL that does not start with `/` |
| Urls.FixUrlIdempotent | src/fixdb.js:8-18 | the null-guarded rule is idempotent too |
| Urls.FixUrlTextLeavesNoRootPath | src/fixdb.js:12-16 | a normalised URL starts with `/` only when the base is empty |
| Urls.FixUrlTextForms | src/fixdb.js:12-16 | `/p` and `base/p`, and `//h/p` and `https://h/p`, normalise to the same text |
| Urls.PageUrl | scrapers/amiparis.com.js:15 | the page URL extends the base by `&` (base has a `?`) or `?`, then `page=` and digits that parse back to `n` |
| Urls.PageUrlInjective | scrapers/amiparis.com.js:15 | distinct page numbers give distinct URLs |
| Strings.ContainsIff | scrapers/paginate/cos.com.js:99 | `includes` holds exactly when some index carries an occurrence |
| Strings.FirstToken | scrapers/scroll/jilsander.com.js:45 | `split(' ')[0]` is the longest space-free prefix, ended by a space or the end |
| Strings.Lower | py-scripts/generate_embeddings.py:95 | `lower()` folds every ASCII capital and keeps the length |
| Strings.ParseShowNat | scrapers/paginate/cos.com.js:97-101 | parsing the printed page number gives the number back |
| Strings.DigitRun | scrapers/paginate/cos.com.js:94 | `\d+` matches the maximal digit run: all digits, then a non-digit or the end |
| Catalog.OrNull | scrapers/amiparis.com.js:49 | the or-else-`null` fallback keeps truthiness and never invents a value |
| Catalog.SlashPath | scrapers/amiparis.com.js:50-51 | a truthy link becomes rooted (`/` added only when missing); a falsy one becomes `null` |
| Catalog.SlashPrefixStable | scrapers/paginate/canali.com.js:16-17 | rooting is idempotent and keeps the scraped text as a suffix |
| Catalog.CurrencyOf | scrapers/scroll/balenciaga.com.js:24 | `USD` exactly for `$`, otherwise `EUR` |
| Catalog.PriceChars | scrapers/scroll/zara.com.js:35 | the cleaned price keeps only digits and dots, and leaves such a text unchanged |
| Catalog.PriceCharsAppend | scrapers/scroll/zara.com.js:35 | the cleanup distributes over concatenation and is idempotent |
| Catalog.Somes | scrapers/scroll/zara.com.js:9-11 | `filter(p => p !== null)` keeps every non-null and only those |
| Catalog.SomesAppend | scrapers/scroll/zara.com.js:9-11 | the filter distributes over concatenation, so order is kept |
| Catalog.SomesExtremes | scrapers/scroll/zara.com.js:9-11 | with no failure nothing is dropped; with all failing nothing is kept |
| Catalog.FlattenAppend | scrapers/amiparis.com.js:69 | repeated `concat` over `a + b` is that over `a`, then over `b` |
| Catalog.RunRoots | scrapers/amiparis.com.js:92-96 | a run finishes exactly when every root does, fails exactly when the first unfinished root failed, and returns the roots' products in root order |
| Catalog.ForEachReadableSite | src/fixdb.js:25-38 | a site without a db file or with an unreadable one contributes nothing; any other contributes one step |
| Catalog.ForEachReadableSiteAppend | src/fixdb.js:25-38 | a skipped site does not stop the loop: the pass over `a + b` is the pass over `a`, then `b` |
| FixDb.FixItem | src/fixdb.js:42-52 | link and imageUrl are normalised, the id is the hash of the normalised link, image and sku, and every other field is kept |
| FixDb.FixAll | src/fixdb.js:42-52 | same length and order, each record rewritten on its own |
| FixDb.FixItemIdempotent | src/fixdb.js:42-52 | a second repair changes nothing |
| FixDb.FixAllIdempotent | src/fixdb.js:42-52 | the same for a whole catalog |
| FixDb.SameIdForEquivalentForms | src/fixdb.js:43-45 | a relative and an already-normalised record get the same id |
| FixDb.Run | src/fixdb.js:20-64 | one write per readable site, of exactly the rewritten list |
| FixDb.RunAppend | src/fixdb.js:33-38 | a failed read skips only that site |
| FixIds.FixItem | src/fixids.js:29-32 | the id is the hash of the stored link, image and sku; nothing else changes |
| FixIds.FixAll | src/fixids.js:29-32 | same length and order, only ids change, and records agreeing on link, image and sku get equal ids |
| FixIds.Run | src/fixids.js:8-44 | one write per readable site |
| FixIds.RunAppend | src/fixids.js:20-25 | a failed read skips only that site |
| FixIds.AgreesWithFixDbAfterwards | src/fixids.js:29-32 | after `fixDb`, `fixIds` assigns the same ids |
| Batching.ChunksShape | src/crop.js:27-29 | slice `k` is `[20k, min(20k+20, n))` and there are `ceil(n/20)` slices |
| Batching.ChunkSizes | src/crop.js:27-29 | every slice but the last is full and none is empty |
| Batching.ChunkCountCeil | py-scripts/generate_embeddings.py:66-77 | the number of slices is `(n + size - 1) / size` in integer division |
| Batching.ChunksCover | src/crop.js:27-29 | the slices cover the products exactly once, in order |
| Crop.Apply | src/crop.js:31-57 | a product without an image, one cached at batch start, or one whose request failed or had no `imgUrl` leaves the map alone; otherwise its normalised URL maps to the answer; no other key changes |
| Crop.ApplyFrom | src/crop.js:30-60 | the keys only grow, an untouched key keeps its value, and every changed entry was written by some product of the batch |
| Crop.ApplyBatch | src/crop.js:30-60 | the same for a whole batch, and entries cached at batch start are never overwritten |
| Crop.ApplyBatches | src/crop.js:28-62 | one saved snapshot per batch: the first is batch 0 applied to the starting map, and the last is the final map; cached entries kept |
| Crop.ApplyBatchesSnapshots | src/crop.js:28-62 | snapshot `j` is snapshot `j - 1` with batch `j` applied: each batch starts from the map the one before it left |
| Crop.ProcessSite | src/crop.js:23-62 | one site: cached entries kept, the last snapshot is the map it leaves, and a site with no products saves nothing and leaves the map alone |
| Crop.ProcessImages | src/crop.js:16-76 | cached entries survive, the last save is the final map, and the pass completes exactly when every site names a db file and it loads; a site that does not ends the pass there, with the map unchanged and nothing more saved |
| Crop.ProcessImagesIsRunSites | src/crop.js:16-76 | the pass is the generic site loop `RunSites`, with each site's batches as its effect and "has a db file and loads" as its test |
| Crop.RunSitesIsFold | src/crop.js:16-76 | that loop, up to the first site that fails its test, applies the sites before it one after another and saves their snapshots in order; it completes exactly when no site fails |
| Crop.ProcessImagesAppliesSitesUpToFirstFailure | src/crop.js:16-76 | with site `f` the first that has no db file or does not load, the final map is sites `i … f - 1` processed in order from the starting map, the saves are their snapshots in site order, and the pass completes exactly when there is no such site |
| Crop.Batches | src/crop.js:27-29 | the `i += 20` loop builds exactly the `Chunks` slices, which concatenate back to the products |
| Embeddings.ItemHashDependsOnLinkOnly | py-scripts/generate_embeddings.py:33-34 | the id depends on the normalised link alone; relative and absolute links agree |
| Embeddings.LoadedImages | py-scripts/generate_embeddings.py:50-52 | no more loaded images than items |
| Embeddings.ProcessItemsAsWritten | py-scripts/generate_embeddings.py:56-62 | as written, the stored items are the first `len(embeddings)` items, whichever images failed, with the loaded images' embeddings in order and each stored item's own id |
| Embeddings.ProcessItemsAsWrittenMisaligns | py-scripts/generate_embeddings.py:57-59 | with the first of two images failing, the first item is stored with the second item's embedding |
| Embeddings.ProcessItems | py-scripts/generate_embeddings.py:56-62 | intended: a single item is stored exactly when its image loads |
| Embeddings.ProcessItemsPairsOwnImage | py-scripts/generate_embeddings.py:56-62 | intended: every stored entry is an input item with the embedding of its own image and its own id |
| Embeddings.ProcessItemsAppend | py-scripts/generate_embeddings.py:56-62 | processing distributes over concatenation: nothing lost, order kept |
| Embeddings.ToAdd | py-scripts/generate_embeddings.py:60-61 | embeddings, metadatas and ids have one entry per stored item, aligned |
| Embeddings.RunBatches | py-scripts/generate_embeddings.py:66-77 | the `while i*32 < len(data)` loop yields `ceil(n/32)` slices and reports `min(32(i+1), n)` after slice `i` |
| Embeddings.ProcessItemsEveryImageLoads | py-scripts/generate_embeddings.py:56-62 | intended: with every image loading, item k is stored k-th, with its own image's embedding and id |
| Embeddings.AsWrittenIsIntendedWhenEveryImageLoads | py-scripts/generate_embeddings.py:56-62 | with every image loading, the `collection.add` arguments as written equal the intended ones |
| Embeddings.RunAsWritten | py-scripts/generate_embeddings.py:64-77 | as written: one `collection.add` per batch of 32, and batch k stores its first `len(embeddings)` items, one per loaded image of that batch |
| Embeddings.RunAsWrittenIsIntendedWhenEveryImageLoads | py-scripts/generate_embeddings.py:64-77 | with every image of the data loading, each batch's `collection.add` as written is the intended one |
| Embeddings.RunStoresEveryLoadedItem | py-scripts/generate_embeddings.py:64-77 | intended: over all batches, exactly the items whose image loads are stored, in order |
| Embeddings.ProcessSites | py-scripts/generate_embeddings.py:79-91 | at most one `run` per site; every call but the last returned, and the pass raises exactly when the last call made raised, which ends the loop |
| Embeddings.ProcessSitesCallsReadableSites | py-scripts/generate_embeddings.py:79-91 | the calls are those of the readable sites in site order, with each site's name, URL and data: all of them when no call raised, and up to the raising one otherwise |
| Embeddings.ProcessSitesAppend | py-scripts/generate_embeddings.py:79-91 | an unreadable db file skips only its own site, while a raising `run` ends the loop: the later sites run only when every earlier call returned |
| Embeddings.ProcessSingleSite | py-scripts/generate_embeddings.py:93-98 | only the first site whose name matches, ignoring case, is processed, as a one-site pass that may raise; no call when nothing matches |
| Stabilize.DetectIsFirstWindow | scrapers/driesvannoten.com.js:116-125 | the reference counter stops at `e` exactly when `e` ends the first run of K stale samples, and never stops when there is none |
| Stabilize.EqualsPrevious | scrapers/driesvannoten.com.js:106-116 | a sample is stale exactly when it equals the one before, the first compared with 0 |
| Balenciaga.ChosenSlide | scrapers/scroll/balenciaga.com.js:12-15 | the second slide when there are at least three, else the first, else none |
| Balenciaga.ImageUrl | scrapers/scroll/balenciaga.com.js:39 | an `http` URL is kept, `//x` gets `https:`, anything else gets the shop origin |
| Balenciaga.ImageUrlAbsolute | scrapers/scroll/balenciaga.com.js:39 | the image URL always starts with `http`, so the rule and `fixUrl` leave it unchanged |
| Balenciaga.Gender | scrapers/scroll/balenciaga.com.js:31-34 | `men` or `women` exactly when the top category says so, otherwise `null` |
| Balenciaga.Extract | scrapers/scroll/balenciaga.com.js:6-49 | a record exactly when the tile reads, has a link and a chosen slide; the link is rooted and the image absolute; the price is the matched amount, with `USD` for `$` and `EUR` for any other symbol, both `null` without a match; sku is `data-pid`, gender follows `topCategory` |
| Balenciaga.ScrollLoopIsDetector | scrapers/scroll/balenciaga.com.js:86-109 | the loop stops at the sample ending the first run of three counts that do not exceed the best so far, and fails at the first error before that |
| Balenciaga.GrowingCountNeverSettles | scrapers/scroll/balenciaga.com.js:90-109 | a strictly growing count never stops the loop: it has no cap |
| Balenciaga.Index | scrapers/scroll/balenciaga.com.js:83-128 | `index` returns the extracted tiles exactly when the scroll settles, and fails on a navigation or scroll error |
| Balenciaga.Try | scrapers/scroll/balenciaga.com.js:132-149 | one attempt returns exactly when `index` finishes and its `close` resolves; it rejects out of `processUrl` when `newPage` rejects or the `catch`'s unguarded `close` throws |
| Balenciaga.ProcessUrl | scrapers/scroll/balenciaga.com.js:130-151 | an attempt that returns after only retried attempts gives its products, and one that hangs there leaves it pending; three retried attempts give `[]`; it fails exactly when an attempt rejects before that |
| Balenciaga.ProcessUrlFailsOnlyThroughPages | scrapers/scroll/balenciaga.com.js:130-151 | with pages that open and close cleanly, `processUrl` never rejects |
| Balenciaga.CloseFaultDiscardsProducts | scrapers/scroll/balenciaga.com.js:137-143 | a `close` that throws after a successful `index` throws its products away, and the next attempt decides |
| Balenciaga.Run | scrapers/scroll/balenciaga.com.js:153-185 | it reaches its write exactly when every root's `processUrl` resolves, and then holds the products of each root in root order; the first root whose `processUrl` rejects ends the run in the `catch`, with nothing written |
| Balenciaga.RunFailsOnlyThroughPages | scrapers/scroll/balenciaga.com.js:153-185 | with pages that open and close cleanly, the run never ends in its `catch` |
| DriesVanNoten.HeightLoopIsDetector | scrapers/driesvannoten.com.js:103-128 | scrolling stops at the tick ending the first run of five unchanged heights, and never otherwise |
| DriesVanNoten.ChosenImage | scrapers/driesvannoten.com.js:21 | `data-src`, else `src`, else the first `data-srcset` token, each only when non-empty |
| DriesVanNoten.StripOriginOfAbsolute | scrapers/driesvannoten.com.js:48 | stripping `https://host` keeps exactly the path |
| DriesVanNoten.ReplaceJpg | scrapers/driesvannoten.com.js:48 | without a `_<digits>.jpg` the URL is unchanged; otherwise the first match becomes `_0.jpg`, and the text before and after it is kept |
| DriesVanNoten.ReplaceJpgKeepsHead | scrapers/driesvannoten.com.js:48 | nothing before the first `_` changes |
| DriesVanNoten.ImageUrlAsWritten | scrapers/driesvannoten.com.js:48 | as written: `//x` gets `https:`, a rooted path stays, anything else is stripped of scheme and host and given a `/` |
| DriesVanNoten.AbsoluteImageLosesHost | scrapers/driesvannoten.com.js:48 | as written, `https://host/path` becomes the protocol-relative `/` + path: the host is dropped and the first path segment takes its place |
| DriesVanNoten.AbsoluteImageExample | scrapers/driesvannoten.com.js:48 | as written, `https://d.com/a/b.jpg` is stored as `//a/b.jpg`, which the later `fixUrl` turns into `https://a/b.jpg` |
| DriesVanNoten.ImageUrl | scrapers/driesvannoten.com.js:48 | intended: agrees with the code on rooted URLs, and does not double the `/` of a stripped one |
| DriesVanNoten.AbsoluteImageKeepsPath | scrapers/driesvannoten.com.js:48 | intended: `https://host/path` becomes the rooted path, resolved against the site URL |
| DriesVanNoten.ImageUrlOfAbsolute | scrapers/driesvannoten.com.js:48 | intended: `https://host/path` loses exactly its scheme and host before the `.jpg` rewrite |
| DriesVanNoten.ImageUrlRootedOrAbsolute | scrapers/driesvannoten.com.js:48 | intended: every image URL is rooted or `https:` |
| DriesVanNoten.Extract | scrapers/driesvannoten.com.js:6-58 | a record for every tile that reads |
| DriesVanNoten.ExtractAllKeepsEveryCard | scrapers/driesvannoten.com.js:88-97 | every card that reads is kept |
| DriesVanNoten.Index | scrapers/driesvannoten.com.js:60-101 | products exactly when the heights settle and the images load; still scrolling while they do not settle |
| DriesVanNoten.Run | scrapers/driesvannoten.com.js:137-165 | finishes when every root does; the first error ends the run before the write |
| DriesVanNoten.RunBoundedByCards | scrapers/driesvannoten.com.js:137-147 | at most one product per card seen |
| Zara.ScrollToBottom | scrapers/scroll/zara.com.js:54-70 | the loop stops only on a position equal to the previous one (the first compared with 0), and fails only on an error |
| Zara.ScrollToBottomIsFirstRepeat | scrapers/scroll/zara.com.js:54-70 | it stops at exactly the first repeated position, or fails at the first error before that |
| Zara.MovingPageNeverSettles | scrapers/scroll/zara.com.js:58-69 | a page that keeps moving never stops the loop |
| Zara.ExtractProduct | scrapers/scroll/zara.com.js:17-52 | a record exactly when every read succeeds; id is the hash of the link, currency `USD`, gender the caller's |
| Zara.SameLinkSameId | scrapers/scroll/zara.com.js:28 | two tiles with the same link get the same id |
| Zara.CollectProducts | scrapers/scroll/zara.com.js:3-15 | with the caller's `extractProductFn`: products exactly when the scroll settles and no extractor call rejects; failure exactly when the scroll faults or, once it settles, some call rejects; the products are the non-null results in tile order, and every tile's non-null record is among them |
| Zara.CollectedAreTheCompleteTiles | scrapers/scroll/zara.com.js:9-11 | with this file's `extractProduct` as the extractor, a settled scroll gives exactly the complete tiles' records, in order |
| AmiParis.FirstSku | scrapers/amiparis.com.js:55 | the first variant's sku when it is non-empty, otherwise `null` |
| AmiParis.ExtractCard | scrapers/amiparis.com.js:25-61 | a card fails exactly when it has a product without variants; otherwise rooted link and image, the price parsed from the price text exactly when there is one, `USD`, and, exactly for a truthy product type, that type as the gender |
| AmiParis.Index | scrapers/amiparis.com.js:6-79 | `index` never fails: errors end the crawl quietly; a page without products ends it with nothing more |
| AmiParis.IndexStartsWithPage | scrapers/amiparis.com.js:6-79 | a finished crawl starts with the current page's products |
| AmiParis.IndexStopsAtFirstEmptyPage | scrapers/amiparis.com.js:11-76 | with page `m` the first without products, the result is pages `n` to `m - 1` in order |
| AmiParis.IndexRunsOnWhilePagesHaveProducts | scrapers/amiparis.com.js:11-76 | while every page has products the crawl goes on |
| AmiParis.RequestedPagesDistinct | scrapers/amiparis.com.js:15 | no page URL is requested under two numbers |
| AmiParis.Run | scrapers/amiparis.com.js:81-117 | never fails; finishes exactly when every root's `index` does; the products of each root in root order |
| Canali.ExtractCard | scrapers/paginate/canali.com.js:6-23 | never fails; rooted link and image, the price parsed from the price text exactly when there is one, `USD`, no sku or gender |
| Canali.ExtractAll | scrapers/paginate/canali.com.js:51-54 | one record per card, in order |
| Canali.PageUrl | scrapers/paginate/canali.com.js:34-37 | page 1 is the root URL; later pages add `page=n` |
| Canali.FirstPageUrlDistinct | scrapers/paginate/canali.com.js:34-37 | page 1's URL differs from every later page's |
| Canali.NextPage | scrapers/paginate/canali.com.js:41-75 | the loop ends exactly on a failed reload, the no-products text or an empty list; a good reload on page 1 repeats it, anywhere else skips ahead |
| Canali.IndexStartsWithPass | scrapers/paginate/canali.com.js:41-75 | a finished crawl starts with the products the current pass added |
| Canali.RequestedPagesIncrease | scrapers/paginate/canali.com.js:30-76 | page numbers never go down and only page 1 is ever requested twice |
| Canali.IndexIsAddedBeforeFirstStop | scrapers/paginate/canali.com.js:30-76 | with pass `m` the first that ends the loop, the result is the product lists of passes before it, in order |
| Canali.FirstPageRetriedForever | scrapers/paginate/canali.com.js:63-70 | repeated errors with good reloads on page 1 keep the loop on page 1 for ever |
| Canali.Run | scrapers/paginate/canali.com.js:81-116 | never fails; finishes exactly when every root's `index` does; the products of each root in root order |
| Canali.ListingAsWritten | scrapers/paginate/canali.com.js:51-54 | as written, a pass that would list products throws into the `catch` instead; other passes are unchanged |
| Canali.PassesAsWritten | scrapers/paginate/canali.com.js:51-54 | every pass of a root, read as written |
| Canali.AsWrittenCollectsNothing | scrapers/paginate/canali.com.js:30-76 | without a listing pass, a finished crawl has no products |
| Canali.AsWrittenRootCollectsNothing | scrapers/paginate/canali.com.js:51-54 | as written, no root ever contributes a product |
| Canali.AsWrittenNeverLeavesFirstPage | scrapers/paginate/canali.com.js:51-70 | as written, a page 1 that lists products is reloaded for ever; with the extractor intact its products are collected and page 2 is next |
| CosUrls.FindPage | scrapers/paginate/cos.com.js:94 | the leftmost `page=<digit>` at or after `i`, and none before it |
| CosUrls.NextNumber | scrapers/paginate/cos.com.js:94-98 | at least 1, and 1 when there is no `page=` number |
| CosUrls.NextPageUrlAsWritten | scrapers/paginate/cos.com.js:99-101 | as written: rewrite only when the URL contains `?page=`, append otherwise |
| CosUrls.ReplacePageReads | scrapers/paginate/cos.com.js:100 | the rewritten URL has its first match in the same place, and that match now reads `n` |
| CosUrls.AppendedPageReads | scrapers/paginate/cos.com.js:101 | appending `page=n` to a URL with no match makes it the first match, reading `n` |
| CosUrls.AppendKeepsFirstMatch | scrapers/paginate/cos.com.js:101 | appending after an existing number keeps the first match and its number |
| CosUrls.AsWrittenSticks | scrapers/paginate/cos.com.js:94-101 | as written, once the number is not introduced by `?`, every later step requests the same next page |
| CosUrls.QueryRootSticksAtPageTwo | scrapers/paginate/cos.com.js:94-101 | as written, from root `c?q` every step after the first asks for page 2 again |
| CosUrls.NextPageUrl | scrapers/paginate/cos.com.js:94-101 | intended: rewrite whenever there is a page number |
| CosUrls.NextPageUrlAdvances | scrapers/paginate/cos.com.js:94-101 | intended: every step raises the page number by exactly one |
| CosUrls.NthUrlsDistinct | scrapers/paginate/cos.com.js:94-102 | intended: no URL is requested twice |
| Cos.ImageOf | scrapers/paginate/cos.com.js:29-37 | an image counts exactly when its chain is truthy, mentions `DESCRIPTIVESTILLLIFE` and matches; its URL starts with the fixed prefix followed by the source |
| Cos.ImageOfIsAbsolute | scrapers/paginate/cos.com.js:34 | every built image URL starts with `https:`, so `fixUrl` leaves it alone |
| Cos.FirstImage | scrapers/paginate/cos.com.js:40 | the image of the first `img` that counts; `null` when none does |
| Cos.CosGender | scrapers/paginate/cos.com.js:23 | `men` exactly when the path has `/men/`, else `women` exactly for `/women/`, else `null` |
| Cos.Extract | scrapers/paginate/cos.com.js:6-56 | a throwing read leaves that field and every later one `null`; a title read failure gives the all-null record; once the images are read the image is the first that counts, and once the article code is read the sku is its text; a price comes from any price text read, and `USD` only when that text starts with `$` |
| Cos.PriceThrowKeepsEarlierFields | scrapers/paginate/cos.com.js:44-53 | a failing price read costs only price and currency |
| Cos.Kept | scrapers/paginate/cos.com.js:74-79 | only records with a truthy title are kept |
| Cos.KeptAreTheTitled | scrapers/paginate/cos.com.js:74-79 | every titled tile's record is kept and every kept record comes from a titled tile |
| Cos.KeptAppend | scrapers/paginate/cos.com.js:74-79 | keeping distributes over concatenation |
| Cos.Crawl | scrapers/paginate/cos.com.js:58-108 | a page error fails the crawl; the page with the `End of List` button is included and ends it |
| Cos.CrawlStopsAtEndOfList | scrapers/paginate/cos.com.js:62-105 | with page `m` the first showing the button, the result is the titled products of pages up to and including `m` |
| Cos.CrawlFailsOnFault | scrapers/paginate/cos.com.js:62-105 | an error before the button fails the whole crawl |
| Cos.Run | scrapers/paginate/cos.com.js:110-145 | finishes when every root does, fails at the first failing root, and then writes nothing |
| JilSander.SrcsetImage | scrapers/scroll/jilsander.com.js:44-45 | the first space-separated token of a truthy `data-srcset`, else `null` |
| JilSander.ExtractTile | scrapers/scroll/jilsander.com.js:41-53 | currency `USD` exactly when the price text contains `$`; gender and id `null`; sku is the tile id |
| JilSander.ExtractPage | scrapers/scroll/jilsander.com.js:39-55 | the `$$eval` fails exactly when some tile lacks an element it dereferences; otherwise there is one record per tile |
| JilSander.ExtractPageRecords | scrapers/scroll/jilsander.com.js:39-55 | record `i` of a successful `$$eval` is the record of tile `i` |
| JilSander.ExtractPageAppend | scrapers/scroll/jilsander.com.js:39-55 | a grown page gives the old records followed by the new ones |
| JilSander.Loop | scrapers/scroll/jilsander.com.js:37-72 | a failing pass fails the loop; a pass without an enabled button ends it with that pass's records |
| JilSander.LoopKeepsEveryPass | scrapers/scroll/jilsander.com.js:37-72 | with pass `m` the first without the button, the result is every pass's records up to `m`, as many as their tiles together |
| JilSander.ViewMoreRepeatsEarlierTiles | scrapers/scroll/jilsander.com.js:57 | no de-duplication: tiles still on the page after "View More" are recorded again |
| JilSander.Resolve | scrapers/scroll/jilsander.com.js:75-79 | same length; every link resolved; an image resolved exactly when truthy, else `null`; all other fields kept |
| JilSander.ResolveAppend | scrapers/scroll/jilsander.com.js:76-79 | resolution is per record |
| JilSander.Index | scrapers/scroll/jilsander.com.js:31-90 | `index` finishes or fails exactly as its loop does; its products are the loop's records resolved against the root's origin |
| JilSander.IndexResolvesEveryPass | scrapers/scroll/jilsander.com.js:31-90 | with pass `m` the first without the button, the loop returns every pass's records up to `m`, in order, and `index` gives them resolved against the root's origin |
| JilSander.Run | scrapers/scroll/jilsander.com.js:92-128 | finishes when every root does, fails at the first failing root, and then writes nothing |

## Left out

- Browser automation is not modelled: puppeteer and Playwright navigation, `evaluate`, DOM
  queries, `setInterval` timers and `waitFor*` timeouts. What they observe is a parameter:
  counts, heights, positions, tiles, button states, and errors as `Fault` or `Failed`.
- Network I/O is not modelled: the cropping service and image downloads are parameters.
  Which requests run concurrently under `Promise.all` or `asyncio.gather` is not modelled.
- File I/O is not modelled. A "write" is the list that would be written; the `fs.access`
  and `'[]'` pre-write is not modelled.
- `hashFn` and SHA-256 are parameters, not modelled.
- `new URL(...).pathname`, `.href` and `.origin` are parameters, not modelled. A `new URL`
  that throws is not modelled either.
- `parseFloat` is not modelled: a price is the cleaned text (`Price`).
- Regular expressions are hand-written only where the model needs them: `page=\d+`,
  `_\d+.jpg` and the origin strip. The price and resolve-chain matches of balenciaga,
  driesvannoten and cos are inputs. That includes driesvannoten's mis-encoded `[â‚¬$]` class.
- `String.prototype.trim` is not modelled: the read text is taken as trimmed.
- A missing JSON key and `null` are both `None`. So `fixDb` reading an absent `link` as
  `undefined` is not modelled. Neither is Python raising `KeyError` on a missing `'link'`
  or `'dbFile'`. `'imageUrl' in item` is taken to hold.
- Strings.Lower: folds ASCII letters only, because Python's full Unicode `lower()` is outside this model.
- The zara scraper has no `run`. The model covers `collectProducts`, `extractProduct` and
  `scrollToBottom`. `extractProduct` is neither exported nor passed anywhere in the file;
  `collectProducts` takes the extractor as a parameter, and `Zara.OwnExtractor` plugs
  `extractProduct` in for `CollectedAreTheCompleteTiles`. `waitForLoadState` is modelled only through the `Fault` samples.
- Canali.Index: assumes `extractProductInfo` arrives intact in the page. As written it is
  passed to `page.evaluate` as an argument, and a function does not survive serialisation
  (see "Findings"); `Canali.ListingAsWritten` models that reading. How puppeteer serialises
  arguments is not otherwise part of this model.
- For cos, `page.url()` is taken to be the URL last navigated to; redirects are not
  modelled.
- The first next page of a cos root without `page=` is `page=1`, so page 1 is requested
  twice. The model keeps this, as written, in both the as-written and the corrected rule.
- jilsander's unused top-level `extractProductInfo` (lines 6-29) is not modelled. Its
  `console.log` of the first product is not modelled either.
- The loops with no cap have no termination claim: the balenciaga and driesvannoten
  scrolls, zara's scroll, canali's page-1 retry, the amiparis, cos and jilsander loops.
  They are modelled over finite observation sequences, or with a `limit` argument beyond
  which the result is `Pending`.
- Only the code is modelled. An iteration cap, a timeout that lets a scroll finish, and a
  merge with the previously stored catalog do not exist in these files. Each run writes
  only that run's concatenation.
- The remaining files of the repository are not part of this model: jacquemus, lezkizzo,
  `src/driver.js`, `src/center.js`, `src/utils.js` and `py-scripts/query.py`.
- Embeddings.RunStoresEveryLoadedItem: states the intended per-batch rule, not the code's.
  As written each batch stores its first `len(embeddings)` items. `Embeddings.RunAsWritten`
  states that, and `RunAsWrittenIsIntendedWhenEveryImageLoads` says the two agree when no
  image fails (see "Findings").
- Embeddings.ProcessSites: a site entry with no `dbFile` key at all raises `KeyError` at
  generate_embeddings.py:84, outside the `try`, and so ends the loop. The model's `Site` does
  not tell a missing key from `null`, and skips both as an unreadable db file.
- Cos.ImageOf: states the prefix, the place of the source group and the length, not the
  exact place of the origin and type groups.
- AmiParis.ExtractCard: states only that a sku needs the product JSON, not that it is the
  first variant's. `AmiParis.FirstSku` states that part.
- DriesVanNoten.Extract: states only that every tile that reads gives a record. The field
  rules are stated by the members it calls (`ChosenImage`, `ImageUrl`, `ImageUrlAsWritten`).

## Findings

| source | as written | input that shows it | evidently intended | confidence | as-written member | corrected member |
|---|---|---|---|---|---|---|
| py-scripts/generate_embeddings.py:57-59 | embeddings of the images that loaded are zipped by position with all the items | two items; the first one's image fails, the second one's loads | each item whose image loaded is stored with its own image's embedding; the others are skipped | high, not executed | Embeddings.ProcessItemsAsWrittenMisaligns | Embeddings.ProcessItemsPairsOwnImage |
| scrapers/paginate/cos.com.js:94-101 | the page number is rewritten only when the URL contains `?page=`; otherwise `&page=N+1` is appended again | root `c?q`: `c?q&page=1`, then `c?q&page=1&page=2`, then `…&page=2&page=2` | rewrite the first `page=` wherever it stands, so the number advances by one each step | medium, not executed | CosUrls.QueryRootSticksAtPageTwo | CosUrls.NextPageUrlAdvances |
| scrapers/driesvannoten.com.js:48 | an absolute image URL is stripped of scheme and host and then given another `/` | `https://d.com/a/b.jpg` becomes `//a/b.jpg`, which `fixUrl` turns into `https://a/b.jpg` | the rooted path `/a/b.jpg`, resolved against the site URL | high, not executed | DriesVanNoten.AbsoluteImageExample | DriesVanNoten.AbsoluteImageKeepsPath |
| scrapers/paginate/canali.com.js:51-54 | the extractor is passed to `page.evaluate` as an argument, which arrives as `undefined`, so `map` throws on every listing page | any root whose page 1 lists products, with reloads that work | the extractor runs in the page and each listing page's products are collected | medium, not executed | Canali.AsWrittenNeverLeavesFirstPage | Canali.IndexIsAddedBeforeFirstStop |

=== FILE: amiparis.dfy ===
/**
 The amiparis.com scraper (scrapers/amiparis.com.js): request `?page=1`, `?page=2`, … of each
 root URL until a page has no product cards, yields no product, or fails to load, and
 concatenate what the pages gave.
 */
module AmiParis {
  import opened Optional
  import opened Catalog
  import Urls

  /**
   The `product` object of a card's embedded JSON. `variants` is `None` when the key is
   missing; each variant is its `sku` (`None` for a null variant or a missing or empty sku).
   */
  datatype ProductJson = ProductJson(variants: Option<seq<Option<string>>>, productType: Option<string>)

  /**
   What one `.c-card-product` showed. `product` is `None` when the card has no JSON script,
   the script does not parse (`productInfo` stays `{}`), or it has no `product` key.
   */
  datatype Card = Card(
    href: Option<string>,
    title: Option<string>,
    priceText: Option<string>,
    dataSrc: Option<string>,
    product: Option<ProductJson>)

  /** `productInfo.product.variants` is read unguarded: a product without variants throws. */
  predicate Throws(c: Card) {
    c.product.Some? && c.product.value.variants.None?
  }

  /** `variants[0]?.sku || null`. */
  function FirstSku(variants: seq<Option<string>>): (r: Option<string>)
    ensures r.Some? ==> |variants| > 0 && r == variants[0] && r.value != ""
    ensures |variants| > 0 && Truthy(variants[0]) ==> r == variants[0]
  {
    if |variants| == 0 then None else OrNull(variants[0])
  }

  /** The per-card mapping inside `page.evaluate`; `None` for a card whose mapping throws. */
  function ExtractCard(c: Card): (r: Option<Product>)
    ensures r.None? <==> Throws(c)
    ensures r.Some? ==> var p := r.value;
              && p.id.None? && p.title == OrNull(c.title)
              && p.link == SlashPath(c.href) && p.imageUrl == SlashPath(c.dataSrc)
              && (p.price.Some? <==> c.priceText.Some?)
              && (p.price.Some? ==> p.price.value == Price(PriceChars(c.priceText.value)))
              && p.currency == Some("USD")
              && (p.sku.Some? ==> c.product.Some?)
              && (p.gender.Some? <==> c.product.Some? && Truthy(c.product.value.productType))
              && (p.gender.Some? ==> p.gender == c.product.value.productType)
  {
    if Throws(c) then None
    else
      var price := if c.priceText.Some? then Some(Price(PriceChars(c.priceText.value))) else None;
      var sku := if c.product.Some? then FirstSku(c.product.value.variants.value) else None;
      var gender := if c.product.Some? then OrNull(c.product.value.productType) else None;
      Some(Product(None, OrNull(c.title), SlashPath(c.href), SlashPath(c.dataSrc), price, Some("USD"), sku, gender))
  }

  /** What one page request gave: an error (navigation or evaluation), no cards, or the cards. */
  datatype PageObs = NavFault | NoCards | Cards(cards: seq<Card>)

  /** The products of one page: the cards whose mapping did not throw, in card order. */
  function PageProducts(o: PageObs): (r: seq<Product>)
    ensures o.Cards? ==> |r| <= |o.cards|
    ensures !o.Cards? ==> r == []
  {
    if o.Cards? then Somes(seq(|o.cards|, i requires 0 <= i < |o.cards| => ExtractCard(o.cards[i]))) else []
  }

  /** The products of page `n` of a root. */
  function Page(baseUrl: string, site: string -> PageObs, n: nat): seq<Product> {
    PageProducts(site(Urls.PageUrl(baseUrl, n)))
  }

  /** The loop ends on page `n`: `products === null || products.length === 0`, or the `catch`. */
  predicate Stops(baseUrl: string, site: string -> PageObs, n: nat) {
    Page(baseUrl, site, n) == []
  }

  /**
   `index` from page `n`: the page at `PageUrl(baseUrl, n)` is what `site` shows for that
   URL. The loop has no page cap; `limit` is how far the model looks, `Pending` beyond it.
   */
  function Index(baseUrl: string, site: string -> PageObs, n: nat, limit: nat): (r: Outcome<seq<Product>>)
    ensures !r.Failed?
    ensures n <= limit && Stops(baseUrl, site, n) ==> r == Done([])
    decreases limit + 1 - n
  {
    if n > limit then Pending
    else
      var ps := Page(baseUrl, site, n);
      if ps == [] then Done([])
      else
        var rest := Index(baseUrl, site, n + 1, limit);
        if rest.Done? then Done(ps + rest.value) else Pending
  }

  /** A finished crawl starts with the products of the current page. */
  lemma IndexStartsWithPage(baseUrl: string, site: string -> PageObs, n: nat, limit: nat)
    requires Index(baseUrl, site, n, limit).Done?
    ensures n <= limit && Page(baseUrl, site, n) <= Index(baseUrl, site, n, limit).value
  {
    if n <= limit && !Stops(baseUrl, site, n) {
      var rest := Index(baseUrl, site, n + 1, limit);
      assert Index(baseUrl, site, n, limit).value == Page(baseUrl, site, n) + rest.value;
    }
  }

  /** The products of pages `n`, `n + 1`, …, `m - 1`, concatenated. */
  function PagesFrom(baseUrl: string, site: string -> PageObs, n: nat, m: nat): (r: seq<seq<Product>>)
    requires n <= m
    ensures |r| == m - n
    ensures forall k :: 0 <= k < m - n ==> r[k] == Page(baseUrl, site, n + k)
  {
    seq(m - n, k requires 0 <= k < m - n => Page(baseUrl, site, n + k))
  }

  /**
   When `m` is the first page from `n` on that stops the loop, `index` returns exactly the
   products of pages `n` to `m - 1`, in page order, and nothing of page `m` or later.
   */
  lemma {:induction false} IndexStopsAtFirstEmptyPage(baseUrl: string, site: string -> PageObs, n: nat, m: nat, limit: nat)
    requires n <= m <= limit
    requires forall k :: n <= k < m ==> !Stops(baseUrl, site, k)
    requires Stops(baseUrl, site, m)
    ensures Index(baseUrl, site, n, limit) == Done(Flatten(PagesFrom(baseUrl, site, n, m)))
    decreases m - n, 1
  {
    if n < m {
      IndexGoesOn(baseUrl, site, n, m, limit);
    } else {
      assert Page(baseUrl, site, n) == [];
      assert Flatten(PagesFrom(baseUrl, site, n, m)) == [];
    }
  }

  /** The inductive step: a page with products before the first empty one comes first. */
  lemma {:induction false} IndexGoesOn(baseUrl: string, site: string -> PageObs, n: nat, m: nat, limit: nat)
    requires n < m <= limit
    requires forall k :: n <= k < m ==> !Stops(baseUrl, site, k)
    requires Stops(baseUrl, site, m)
    ensures Index(baseUrl, site, n, limit) == Done(Flatten(PagesFrom(baseUrl, site, n, m)))
    decreases m - n, 0
  {
    IndexStopsAtFirstEmptyPage(baseUrl, site, n + 1, m, limit);
    assert !Stops(baseUrl, site, n);
    FlattenPagesFront(baseUrl, site, n, m);
  }

  lemma FlattenPagesFront(baseUrl: string, site: string -> PageObs, n: nat, m: nat)
    requires n < m
    ensures Flatten(PagesFrom(baseUrl, site, n, m)) == Page(baseUrl, site, n) + Flatten(PagesFrom(baseUrl, site, n + 1, m))
  {
    var pages := PagesFrom(baseUrl, site, n, m);
    assert pages[1..] == PagesFrom(baseUrl, site, n + 1, m);
  }

  /** While every page up to the limit has products, the loop is still going. */
  lemma {:induction false} IndexRunsOnWhilePagesHaveProducts(baseUrl: string, site: string -> PageObs, n: nat, limit: nat)
    requires forall k :: n <= k <= limit ==> !Stops(baseUrl, site, k)
    ensures Index(baseUrl, site, n, limit) == Pending
    decreases limit + 1 - n
  {
    if n <= limit {
      assert !Stops(baseUrl, site, n);
      IndexRunsOnWhilePagesHaveProducts(baseUrl, site, n + 1, limit);
    }
  }

  /** The URLs of pages `1 … m`; no page of one root is requested twice. */
  lemma RequestedPagesDistinct(baseUrl: string, j: nat, k: nat)
    requires j != k
    ensures Urls.PageUrl(baseUrl, j) != Urls.PageUrl(baseUrl, k)
  {
    if Urls.PageUrl(baseUrl, j) == Urls.PageUrl(baseUrl, k) {
      Urls.PageUrlInjective(baseUrl, j, k);
    }
  }

  /** The outcome of `index` for each root, in root order. */
  function Outcomes(roots: seq<string>, site: string -> PageObs, limit: nat): (r: seq<Outcome<seq<Product>>>)
    ensures |r| == |roots|
    ensures forall i :: 0 <= i < |roots| ==> r[i] == Index(roots[i], site, 1, limit)
  {
    seq(|roots|, i requires 0 <= i < |roots| => Index(roots[i], site, 1, limit))
  }

  /** `run`: `index` per root from page 1, concatenated; `index` catches its own errors. */
  function Run(roots: seq<string>, site: string -> PageObs, limit: nat): (r: Outcome<seq<Product>>)
    ensures !r.Failed?
    ensures r.Done? <==> forall i :: 0 <= i < |roots| ==> Index(roots[i], site, 1, limit).Done?
    ensures r.Done? ==> r.value == Flatten(DoneValues(Outcomes(roots, site, limit)))
  {
    RunRoots(Outcomes(roots, site, limit))
  }
}

=== FILE: balenciaga.dfy ===
/**
 The balenciaga.com scraper (scrapers/scroll/balenciaga.com.js): scroll until the product
 count has not exceeded its running maximum for three samples in a row, extract every
 product tile, retry a failed page up to three times, and concatenate the roots' results.
 */
module Balenciaga {
  import opened Optional
  import opened Catalog
  import opened Stabilize
  import Urls

  const Origin := "https://www.balenciaga.com"
  const MaxSameCountIterations: nat := 3
  const MaxRetries: nat := 3

  /** What one product tile showed; reads that throw are folded into the tile's absence. */
  datatype Tile = Tile(
    title: string,
    link: Option<string>,
    slides: seq<Option<string>>,
    price: Option<PriceMatch>,
    sku: Option<string>,
    topCategory: Option<string>)

  /** `imageUrls.length >= 3 ? imageUrls[1] : imageUrls[0]`; `None` when that is `undefined` or `null`. */
  function ChosenSlide(slides: seq<Option<string>>): (r: Option<string>)
    ensures |slides| >= 3 ==> r == slides[1]
    ensures 0 < |slides| < 3 ==> r == slides[0]
    ensures |slides| == 0 ==> r == None
  {
    if |slides| >= 3 then slides[1] else if |slides| > 0 then slides[0] else None
  }

  /** Absolute URLs stay, `//x` gets `https:`, anything else gets the site origin prepended. */
  function ImageUrl(u: string): (r: string)
    ensures "http" <= u ==> r == u
    ensures !("http" <= u) && "//" <= u ==> r == "https:" + u
    ensures !("http" <= u) && !("//" <= u) ==> r == Origin + u
  {
    if "http" <= u then u else if "//" <= u then "https:" + u else Origin + u
  }

  /** The image URL is always absolute, so the later `fixUrl` repair pass leaves it alone. */
  lemma ImageUrlAbsolute(u: string, base: string)
    ensures "http" <= ImageUrl(u)
    ensures ImageUrl(ImageUrl(u)) == ImageUrl(u)
    ensures Urls.FixUrlText(base, ImageUrl(u)) == ImageUrl(u)
  {
    var r := ImageUrl(u);
    if !("http" <= u) && "//" <= u {
      assert r[..4] == "http";
      assert r[0] == 'h';
      assert !("/" <= r) && !("//" <= r);
    } else if !("http" <= u) {
      assert r[..4] == Origin[..4];
      assert r[0] == 'h';
      assert !("/" <= r) && !("//" <= r);
    } else {
      assert u[0] == 'h';
    }
  }

  function Gender(topCategory: Option<string>): (r: Option<string>)
    ensures r == Some("men") <==> topCategory == Some("men")
    ensures r == Some("women") <==> topCategory == Some("women")
    ensures r.None? <==> topCategory != Some("men") && topCategory != Some("women")
  {
    if topCategory == Some("men") then Some("men")
    else if topCategory == Some("women") then Some("women")
    else None
  }

  /**
   `extractProductInfo`: `null` when the tile could not be read, when the link is `null`
   (`link.startsWith` throws), or when the chosen slide is missing.
   */
  function Extract(tile: Option<Tile>): (r: Option<Product>)
    ensures r.Some? <==> tile.Some? && tile.value.link.Some? && ChosenSlide(tile.value.slides).Some?
    ensures r.Some? ==> var p := r.value;
              && p.link == Some(SlashPrefix(tile.value.link.value))
              && p.imageUrl == Some(ImageUrl(ChosenSlide(tile.value.slides).value))
              && (p.currency == Some("USD") <==> tile.value.price.Some? && tile.value.price.value.symbol == '$')
              && (p.currency.None? <==> tile.value.price.None?)
              && (p.currency == Some("EUR") <==> tile.value.price.Some? && tile.value.price.value.symbol != '$')
              && (p.price.None? <==> tile.value.price.None?)
              && (p.price.Some? ==> p.price.value.text == tile.value.price.value.amount)
              && p.sku == tile.value.sku
              && p.gender == Gender(tile.value.topCategory)
              && p.title == Some(tile.value.title) && p.id.None?
  {
    match tile
    case None => None
    case Some(t) =>
      if t.link.None? || ChosenSlide(t.slides).None? then None
      else
        var price := if t.price.Some? then Some(Price(t.price.value.amount)) else None;
        var currency := if t.price.Some? then Some(CurrencyOf(t.price.value)) else None;
        Some(Product(None, Some(t.title), Some(SlashPrefix(t.link.value)),
                     Some(ImageUrl(ChosenSlide(t.slides).value)), price, currency, t.sku, Gender(t.topCategory)))
  }

  /** One product-count sample of the scroll loop, or an error thrown while scrolling or counting. */
  datatype Sample = Count(n: nat) | Fault

  /** The `while (true)` loop of `index` from sample `i`, with its two counters. */
  function ScrollLoop(samples: seq<Sample>, i: nat, lastProductCount: nat, sameCountIterations: nat): (r: Scroll)
    requires i <= |samples|
    decreases |samples| - i
  {
    if i == |samples| then Unsettled
    else match samples[i]
      case Fault => Faulted(i)
      case Count(c) =>
        if c > lastProductCount then ScrollLoop(samples, i + 1, c, 0)
        else if sameCountIterations + 1 >= MaxSameCountIterations then Settled(i)
        else ScrollLoop(samples, i + 1, lastProductCount, sameCountIterations + 1)
  }

  /** The largest of 0 and the given counts: the value `lastProductCount` holds. */
  function RunningMax(counts: seq<nat>): (r: nat)
    ensures forall j :: 0 <= j < |counts| ==> counts[j] <= r
    ensures r == 0 || r in counts
  {
    if |counts| == 0 then 0
    else
      var m := RunningMax(counts[..|counts| - 1]);
      assert counts[..|counts| - 1] + [counts[|counts| - 1]] == counts;
      if counts[|counts| - 1] > m then counts[|counts| - 1] else m
  }

  /** A sample is stale when it does not exceed every earlier count. */
  function StaleFlags(counts: seq<nat>): (stale: seq<bool>)
    ensures |stale| == |counts|
    ensures forall j :: 0 <= j < |counts| ==> (stale[j] <==> counts[j] <= RunningMax(counts[..j]))
  {
    seq(|counts|, j requires 0 <= j < |counts| => counts[j] <= RunningMax(counts[..j]))
  }

  /** The counts before the first fault. */
  function CountsBeforeFault(samples: seq<Sample>): (counts: seq<nat>)
    ensures |counts| <= |samples|
    ensures forall j :: 0 <= j < |counts| ==> samples[j] == Count(counts[j])
    ensures |counts| < |samples| ==> samples[|counts|].Fault?
  {
    if |samples| == 0 || samples[0].Fault? then []
    else [samples[0].n] + CountsBeforeFault(samples[1..])
  }

  /** Extending the counts by one raises the running maximum to the new count, or leaves it. */
  lemma RunningMaxStep(counts: seq<nat>, i: nat)
    requires i < |counts|
    ensures RunningMax(counts[..i + 1]) == if counts[i] > RunningMax(counts[..i]) then counts[i] else RunningMax(counts[..i])
  {
    assert counts[..i + 1][..i] == counts[..i];
  }

  /** The loop from sample `i` ends as the detector run from index `i` with the same counter says. */
  lemma {:induction false} ScrollLoopFollowsDetector(samples: seq<Sample>, counts: seq<nat>, stale: seq<bool>, i: nat, same: nat)
    requires |counts| <= |samples|
    requires forall j :: 0 <= j < |counts| ==> samples[j] == Count(counts[j])
    requires |counts| < |samples| ==> samples[|counts|].Fault?
    requires stale == StaleFlags(counts)
    requires i <= |counts|
    requires same < MaxSameCountIterations
    ensures var d := Detect(stale, MaxSameCountIterations, i, same);
            ScrollLoop(samples, i, RunningMax(counts[..i]), same) ==
              if d.Some? then Settled(d.value)
              else if |counts| < |samples| then Faulted(|counts|)
              else Unsettled
    decreases |samples| - i, 1
  {
    if i < |counts| {
      ScrollStepFollowsDetector(samples, counts, stale, i, same);
    }
  }

  /** The inductive step: sample `i` is a count, and the loop and the detector take the same branch on it. */
  lemma {:induction false} ScrollStepFollowsDetector(samples: seq<Sample>, counts: seq<nat>, stale: seq<bool>, i: nat, same: nat)
    requires |counts| <= |samples|
    requires forall j :: 0 <= j < |counts| ==> samples[j] == Count(counts[j])
    requires |counts| < |samples| ==> samples[|counts|].Fault?
    requires stale == StaleFlags(counts)
    requires i < |counts|
    requires same < MaxSameCountIterations
    ensures var d := Detect(stale, MaxSameCountIterations, i, same);
            ScrollLoop(samples, i, RunningMax(counts[..i]), same) ==
              if d.Some? then Settled(d.value)
              else if |counts| < |samples| then Faulted(|counts|)
              else Unsettled
    decreases |samples| - i, 0
  {
    var c := counts[i];
    RunningMaxStep(counts, i);
    assert stale[i] <==> c <= RunningMax(counts[..i]);
    if c > RunningMax(counts[..i]) {
      ScrollLoopFollowsDetector(samples, counts, stale, i + 1, 0);
    } else if same + 1 < MaxSameCountIterations {
      ScrollLoopFollowsDetector(samples, counts, stale, i + 1, same + 1);
    }
  }

  /**
   The scroll loop stops at sample `k` exactly when `k` ends the first run of three
   consecutive samples none of which exceeds the largest count seen before it (and no
   error came first); it reports an error at the first fault otherwise, and keeps
   scrolling while neither has happened.
   */
  lemma ScrollLoopIsDetector(samples: seq<Sample>)
    ensures var counts := CountsBeforeFault(samples);
            var stale := StaleFlags(counts);
            && (forall k :: 0 <= k < |counts| ==>
                  (ScrollLoop(samples, 0, 0, 0) == Settled(k) <==>
                   WindowEndsAt(stale, MaxSameCountIterations, k) && NoWindowBefore(stale, MaxSameCountIterations, k)))
            && (ScrollLoop(samples, 0, 0, 0).Faulted? <==>
                   |counts| < |samples| && NoWindowBefore(stale, MaxSameCountIterations, |counts|))
  {
    var counts := CountsBeforeFault(samples);
    assert counts[..0] == [];
    ScrollLoopFollowsDetector(samples, counts, StaleFlags(counts), 0, 0);
    DetectIsFirstWindow(StaleFlags(counts), MaxSameCountIterations);
  }

  /** A strictly growing product count never settles: the loop has no iteration cap. */
  lemma GrowingCountNeverSettles(samples: seq<Sample>)
    requires forall j :: 0 <= j < |samples| ==> samples[j].Count?
    requires forall j :: 0 < j < |samples| ==> samples[j].n > samples[j - 1].n
    ensures ScrollLoop(samples, 0, 0, 0) == Unsettled
  {
    GrowingFrom(samples, 0, 0, 0);
  }

  lemma {:induction false} GrowingFrom(samples: seq<Sample>, i: nat, last: nat, same: nat)
    requires forall j :: 0 <= j < |samples| ==> samples[j].Count?
    requires forall j :: 0 < j < |samples| ==> samples[j].n > samples[j - 1].n
    requires i <= |samples|
    requires (i == 0 && last == 0 && same == 0) || (0 < i && last == samples[i - 1].n && same <= 1)
    ensures ScrollLoop(samples, i, last, same) == Unsettled
    decreases |samples| - i
  {
    if i < |samples| {
      var c := samples[i].n;
      if c > last {
        GrowingFrom(samples, i + 1, c, 0);
      } else {
        GrowingFrom(samples, i + 1, last, same + 1);
      }
    }
  }

  /** What `index` saw at a root page: a navigation error, or the scroll samples and the tiles. */
  datatype Visit = NavFault | Loaded(samples: seq<Sample>, tiles: seq<Option<Tile>>)

  /** Every tile extracted; failures dropped, element order kept. */
  function ExtractAll(tiles: seq<Option<Tile>>): (r: seq<Product>)
    ensures |r| <= |tiles|
  {
    Somes(seq(|tiles|, i requires 0 <= i < |tiles| => Extract(tiles[i])))
  }

  /** `index`: scroll until settled, then extract. An error while navigating or scrolling throws. */
  function Index(v: Visit): (r: Outcome<seq<Product>>)
    ensures r.Done? <==> v.Loaded? && ScrollLoop(v.samples, 0, 0, 0).Settled?
    ensures r.Done? ==> r.value == ExtractAll(v.tiles)
    ensures r.Failed? <==> v.NavFault? || ScrollLoop(v.samples, 0, 0, 0).Faulted?
  {
    match v
    case NavFault => Failed
    case Loaded(samples, tiles) =>
      match ScrollLoop(samples, 0, 0, 0)
      case Settled(_) => Done(ExtractAll(tiles))
      case Faulted(_) => Failed
      case Unsettled => Pending
  }

  /**
   One attempt of `processUrl`. `browser.newPage()` runs before the `try`, so `NoPage` (it
   rejected) leaves `processUrl`. Otherwise `index` saw `visit`, and `closeInTry` and
   `closeInCatch` say whether the `page.close()` after a successful `index` and the one in
   the `catch` resolve.
   */
  datatype Attempt = NoPage | Opened(visit: Visit, closeInTry: bool, closeInCatch: bool)

  /** How one pass of the `while` body ends. */
  datatype Step = Returned(products: seq<Product>) | Retried | Rejected | Hung

  /**
   One pass of the retry loop. A throwing `index`, or a throwing `close` after a successful
   one, lands in the `catch`; the `close` there is unguarded, so when it throws too the
   error leaves `processUrl`, and otherwise the attempt counts as a failure.
   */
  function Try(a: Attempt): (r: Step)
    ensures r.Returned? <==> a.Opened? && Index(a.visit).Done? && a.closeInTry
    ensures r.Returned? ==> r.products == Index(a.visit).value
    ensures r.Hung? <==> a.Opened? && Index(a.visit).Pending?
    ensures r.Rejected? <==> a.NoPage? || (a.Opened? && !a.closeInCatch &&
                                           (Index(a.visit).Failed? || (Index(a.visit).Done? && !a.closeInTry)))
  {
    match a
    case NoPage => Rejected
    case Opened(visit, closeInTry, closeInCatch) =>
      match Index(visit)
      case Pending => Hung
      case Done(ps) => if closeInTry then Returned(ps) else if closeInCatch then Retried else Rejected
      case Failed => if closeInCatch then Retried else Rejected
  }

  /** Attempts `k` to `j - 1` all ended in the `catch` and asked for another try. */
  predicate RetriedFrom(attempts: seq<Attempt>, k: nat, j: nat)
    requires j <= |attempts|
  {
    forall i :: k <= i < j ==> Try(attempts[i]).Retried?
  }

  /**
   `processUrl` from attempt `k`: the first attempt that returns wins; after the third
   retried attempt, `[]`. It rejects exactly when an attempt rejects before that.
   */
  function ProcessUrl(attempts: seq<Attempt>, k: nat): (r: Outcome<seq<Product>>)
    requires k < MaxRetries
    ensures r.Failed? <==> exists j :: k <= j < MaxRetries && j < |attempts| &&
                                       Try(attempts[j]).Rejected? && RetriedFrom(attempts, k, j)
    ensures forall j :: (k <= j < MaxRetries && j < |attempts| && RetriedFrom(attempts, k, j) &&
                         Try(attempts[j]).Returned?) ==> r == Done(Try(attempts[j]).products)
    ensures r.Done? && r.value != [] ==>
              exists j :: k <= j < MaxRetries && j < |attempts| &&
                          Try(attempts[j]) == Returned(r.value) && RetriedFrom(attempts, k, j)
    ensures forall j :: (k <= j < MaxRetries && j < |attempts| && RetriedFrom(attempts, k, j) &&
                         Try(attempts[j]).Hung?) ==> r.Pending?
    ensures |attempts| >= MaxRetries && RetriedFrom(attempts, k, MaxRetries) ==> r == Done([])
    decreases MaxRetries - k
  {
    if k >= |attempts| then Pending
    else match Try(attempts[k])
      case Returned(ps) => Done(ps)
      case Hung => Pending
      case Rejected => Failed
      case Retried => if k + 1 >= MaxRetries then Done([]) else ProcessUrl(attempts, k + 1)
  }

  /** The page opens and both of its `close` calls resolve. */
  predicate PageBehaves(a: Attempt) {
    a.Opened? && a.closeInTry && a.closeInCatch
  }

  /** When every page opens and closes cleanly, `processUrl` never rejects. */
  lemma {:induction false} ProcessUrlFailsOnlyThroughPages(attempts: seq<Attempt>, k: nat)
    requires k < MaxRetries
    requires forall i :: 0 <= i < |attempts| ==> PageBehaves(attempts[i])
    ensures !ProcessUrl(attempts, k).Failed?
    decreases MaxRetries - k
  {
    if k < |attempts| && Try(attempts[k]).Retried? && k + 1 < MaxRetries {
      ProcessUrlFailsOnlyThroughPages(attempts, k + 1);
    }
  }

  /**
   A `page.close()` that throws after a successful `index` throws away that attempt's
   products: when the `catch`'s own `close` resolves, the result is that of the next attempt.
   */
  lemma CloseFaultDiscardsProducts(attempts: seq<Attempt>, k: nat)
    requires k + 1 < MaxRetries && k < |attempts|
    requires attempts[k].Opened? && Index(attempts[k].visit).Done?
    requires !attempts[k].closeInTry && attempts[k].closeInCatch
    ensures ProcessUrl(attempts, k) == ProcessUrl(attempts, k + 1)
  {
  }

  /**
   `run`: `processUrl` per root inside one `try`, results concatenated in root order. A
   rejection of `processUrl` is caught by that `try`, and nothing is written (`Failed`).
   */
  function Run(attempts: seq<seq<Attempt>>): (r: Outcome<seq<Product>>)
    ensures r.Done? <==> forall i :: 0 <= i < |attempts| ==> ProcessUrl(attempts[i], 0).Done?
    ensures r.Failed? <==> exists i :: 0 <= i < |attempts| && ProcessUrl(attempts[i], 0).Failed? &&
                                       forall j :: 0 <= j < i ==> ProcessUrl(attempts[j], 0).Done?
    ensures r.Done? ==> r.value == Flatten(DoneValues(seq(|attempts|, i requires 0 <= i < |attempts| => ProcessUrl(attempts[i], 0))))
  {
    var outs := seq(|attempts|, i requires 0 <= i < |attempts| => ProcessUrl(attempts[i], 0));
    FirstFailureOfRoots(attempts, outs);
    assert forall i :: 0 <= i < |attempts| ==> outs[i] == ProcessUrl(attempts[i], 0);
    RunRoots(outs)
  }

  /** The first failing root, read off the outcomes or off `processUrl` directly. */
  lemma FirstFailureOfRoots(attempts: seq<seq<Attempt>>, outs: seq<Outcome<seq<Product>>>)
    requires outs == seq(|attempts|, i requires 0 <= i < |attempts| => ProcessUrl(attempts[i], 0))
    ensures (exists i :: 0 <= i < |outs| && outs[i].Failed? && forall j :: 0 <= j < i ==> outs[j].Done?)
        <==> (exists i :: 0 <= i < |attempts| && ProcessUrl(attempts[i], 0).Failed? &&
                          forall j :: 0 <= j < i ==> ProcessUrl(attempts[j], 0).Done?)
  {
    if i :| 0 <= i < |outs| && outs[i].Failed? && forall j :: 0 <= j < i ==> outs[j].Done? {
      assert ProcessUrl(attempts[i], 0).Failed?;
      assert forall j :: 0 <= j < i ==> ProcessUrl(attempts[j], 0) == outs[j];
    }
    if i :| 0 <= i < |attempts| && ProcessUrl(attempts[i], 0).Failed? && forall j :: 0 <= j < i ==> ProcessUrl(attempts[j], 0).Done? {
      assert outs[i].Failed?;
      assert forall j :: 0 <= j < i ==> ProcessUrl(attempts[j], 0) == outs[j];
    }
  }

  /** With pages that open and close cleanly, `run` always reaches its write or stays pending. */
  lemma RunFailsOnlyThroughPages(attempts: seq<seq<Attempt>>)
    requires forall i, j :: 0 <= i < |attempts| && 0 <= j < |attempts[i]| ==> PageBehaves(attempts[i][j])
    ensures !Run(attempts).Failed?
  {
    forall i | 0 <= i < |attempts|
      ensures !ProcessUrl(attempts[i], 0).Failed?
    {
      ProcessUrlFailsOnlyThroughPages(attempts[i], 0);
    }
  }
}

=== FILE: batching.dfy ===
/** Fixed-size batching, as src/crop.js (20) and py-scripts/generate_embeddings.py (32) slice their inputs. */
module Batching {
  import opened Catalog

  function Min(a: int, b: int): int {
    if a <= b then a else b
  }

  /** Consecutive slices of `size` elements, the last one possibly shorter. */
  function Chunks<T>(xs: seq<T>, size: nat): (r: seq<seq<T>>)
    requires size > 0
    ensures |r| == 0 <==> |xs| == 0
    decreases |xs|
  {
    if |xs| == 0 then []
    else if |xs| <= size then [xs]
    else [xs[..size]] + Chunks(xs[size..], size)
  }

  lemma MulSucc(k: int, size: int)
    ensures (k + 1) * size == k * size + size
  {
  }

  /**
   Slice `k` is `xs[k*size .. min((k+1)*size, |xs|)]`, exactly what JavaScript's `slice` and
   Python's slicing return past the end, and the number of slices is the least `c` with
   `c * size >= |xs|`, i.e. `ceil(|xs| / size)`.
   */
  lemma {:induction false} ChunksShape<T>(xs: seq<T>, size: nat)
    requires size > 0
    ensures |Chunks(xs, size)| * size >= |xs|
    ensures |Chunks(xs, size)| == 0 || (|Chunks(xs, size)| - 1) * size < |xs|
    ensures forall k :: 0 <= k < |Chunks(xs, size)| ==> k * size < |xs| && Chunks(xs, size)[k] == SliceAt(xs, k, size)
  {
    ChunkCount(xs, size);
    forall k | 0 <= k < |Chunks(xs, size)|
      ensures k * size < |xs| && Chunks(xs, size)[k] == SliceAt(xs, k, size)
    {
      ChunkAt(xs, size, k);
    }
  }

  /** The number of slices is `ceil(|xs| / size)`, written with integer division. */
  lemma {:induction false} ChunkCountCeil<T>(xs: seq<T>, size: nat)
    requires size > 0
    ensures |Chunks(xs, size)| == (|xs| + size - 1) / size
  {
    ChunkCount(xs, size);
    CeilDiv(|Chunks(xs, size)|, |xs|, size);
  }

  /** The least `c` with `c * size >= n` is `(n + size - 1) / size`. */
  lemma {:induction false} CeilDiv(c: nat, n: nat, size: nat)
    requires size > 0 && c * size >= n && (c == 0 || (c - 1) * size < n)
    ensures c == (n + size - 1) / size
  {
    var q, r := (n + size - 1) / size, (n + size - 1) % size;
    assert n + size - 1 == q * size + r && 0 <= r < size;
    MulSucc(q - 1, size);
    LtMul(q - 1, c, size);
    if c > 0 {
      LtMul(c - 1, q, size);
    }
  }

  /** Multiplying by a positive `size` keeps strict order, read backwards. */
  lemma LtMul(a: int, b: int, size: int)
    requires size > 0 && a * size < b * size
    ensures a < b
  {
    assert (b - a) * size == b * size - a * size;
  }

  /** `xs.slice(k * size, k * size + size)`: clamped at the end, empty past it. */
  function SliceAt<T>(xs: seq<T>, k: nat, size: nat): seq<T> {
    if k * size <= |xs| then xs[k * size .. Min(k * size + size, |xs|)] else []
  }

  /** There are `ceil(|xs| / size)` slices. */
  lemma {:induction false} ChunkCount<T>(xs: seq<T>, size: nat)
    requires size > 0
    ensures |Chunks(xs, size)| * size >= |xs|
    ensures |Chunks(xs, size)| == 0 || (|Chunks(xs, size)| - 1) * size < |xs|
    decreases |xs|
  {
    if |xs| > size {
      var rest := Chunks(xs[size..], size);
      ChunkCount(xs[size..], size);
      assert |Chunks(xs, size)| == |rest| + 1;
      MulSucc(|rest|, size);
      MulSucc(|rest| - 1, size);
    }
  }

  /** Slice `k`, by induction on `k`. */
  lemma {:induction false} ChunkAt<T>(xs: seq<T>, size: nat, k: nat)
    requires size > 0 && k < |Chunks(xs, size)|
    ensures k * size < |xs|
    ensures Chunks(xs, size)[k] == SliceAt(xs, k, size)
    decreases k, 1
  {
    if k > 0 {
      ChunkAtStep(xs, size, k);
    } else {
      MulSucc(0, size);
    }
  }

  /** The inductive step: slice `k` of `xs` is slice `k - 1` of the chunks after the first. */
  lemma {:induction false} ChunkAtStep<T>(xs: seq<T>, size: nat, k: nat)
    requires size > 0 && 0 < k < |Chunks(xs, size)|
    ensures k * size < |xs|
    ensures Chunks(xs, size)[k] == SliceAt(xs, k, size)
    decreases k, 0
  {
    assert |xs| > size;
    var rest := Chunks(xs[size..], size);
    assert Chunks(xs, size) == [xs[..size]] + rest;
    ChunkAt(xs[size..], size, k - 1);
    ChunkBounds(k, size, |xs|);
    var a, b := (k - 1) * size, Min(k * size, |xs| - size);
    assert Chunks(xs, size)[k] == rest[k - 1] == xs[size..][a..b];
    SliceShift(xs, size, a, b);
  }

  /** The index arithmetic of one recursive step: slice `k - 1` of the tail is slice `k` of the whole. */
  lemma ChunkBounds(k: nat, size: nat, n: nat)
    requires 1 <= k && 0 < size < n
    ensures size + (k - 1) * size == k * size
    ensures (k - 1) * size <= k * size
    ensures size + Min(k * size, n - size) == Min(k * size + size, n)
  {
    MulSucc(k - 1, size);
    MulSucc(k, size);
  }

  lemma SliceShift<T>(xs: seq<T>, size: nat, a: nat, b: nat)
    requires size <= |xs| && a <= b <= |xs| - size
    ensures xs[size..][a..b] == xs[size + a .. size + b]
  {
  }

  /** Every slice but the last is full, and no slice is empty. */
  lemma ChunkSizes<T>(xs: seq<T>, size: nat)
    requires size > 0
    ensures forall k :: 0 <= k < |Chunks(xs, size)| ==> 0 < |Chunks(xs, size)[k]| <= size
    ensures forall k :: 0 <= k < |Chunks(xs, size)| - 1 ==> |Chunks(xs, size)[k]| == size
  {
    var r := Chunks(xs, size);
    ChunksShape(xs, size);
    forall k | 0 <= k < |r|
      ensures 0 < |r[k]| <= size
      ensures k < |r| - 1 ==> |r[k]| == size
    {
      MulSucc(k, size);
      assert k * size <= (|r| - 1) * size by {
        MulLeq(k, |r| - 1, size);
      }
      if k < |r| - 1 {
        MulLeq(k + 1, |r| - 1, size);
      }
    }
  }

  lemma MulLeq(a: nat, b: nat, size: nat)
    requires a <= b
    ensures a * size <= b * size
  {
  }

  /** The slices cover the input exactly once, in order. */
  lemma {:induction false} ChunksCover<T>(xs: seq<T>, size: nat)
    requires size > 0
    ensures Flatten(Chunks(xs, size)) == xs
    decreases |xs|
  {
    if |xs| > size {
      ChunksCover(xs[size..], size);
      assert Chunks(xs, size) == [xs[..size]] + Chunks(xs[size..], size);
      assert xs == xs[..size] + xs[size..];
    }
  }
}

=== FILE: canali.dfy ===
/**
 The canali.com scraper (scrapers/paginate/canali.com.js): page 1 is the root URL itself,
 page n > 1 adds `page=n`; the loop stops on the "No products were found" text, on an
 empty product list, or when a reload after an error fails. A successful reload moves on
 to the next page, except on page 1, which is tried again.
 */
module Canali {
  import opened Optional
  import opened Catalog
  import Urls

  /** What one `article.vtex-product-summary-2-x-element` showed; missing elements read as `None`. */
  datatype Card = Card(href: Option<string>, title: Option<string>, priceText: Option<string>, src: Option<string>)

  /** `extractProductInfo`: cannot fail; sku and gender are always null, currency always `USD`. */
  function ExtractCard(c: Card): (r: Product)
    ensures r.title == OrNull(c.title)
    ensures r.link == SlashPath(c.href) && r.imageUrl == SlashPath(c.src)
    ensures r.price.Some? <==> c.priceText.Some?
    ensures r.price.Some? ==> r.price.value == Price(PriceChars(c.priceText.value))
    ensures r.currency == Some("USD") && r.sku.None? && r.gender.None? && r.id.None?
  {
    var price := if c.priceText.Some? then Some(Price(PriceChars(c.priceText.value))) else None;
    Product(None, OrNull(c.title), SlashPath(c.href), SlashPath(c.src), price, Some("USD"), None, None)
  }

  function ExtractAll(cards: seq<Card>): (r: seq<Product>)
    ensures |r| == |cards|
    ensures forall i :: 0 <= i < |cards| ==> r[i] == ExtractCard(cards[i])
  {
    seq(|cards|, i requires 0 <= i < |cards| => ExtractCard(cards[i]))
  }

  /** The URL of page `n`: the root itself for page 1. */
  function PageUrl(baseUrl: string, n: nat): (r: string)
    ensures n <= 1 ==> r == baseUrl
    ensures n > 1 ==> r == Urls.PageUrl(baseUrl, n)
  {
    if n > 1 then Urls.PageUrl(baseUrl, n) else baseUrl
  }

  /** Page 1 is never confused with a later page. */
  lemma FirstPageUrlDistinct(baseUrl: string, n: nat)
    requires n > 1
    ensures PageUrl(baseUrl, n) != PageUrl(baseUrl, 1)
  {
    assert |Urls.PageUrl(baseUrl, n)| > |baseUrl|;
  }

  /**
   What one pass of the loop saw: an error (navigation or evaluation) followed by a reload
   that worked or not, the "No products were found" text, or the product list.
   */
  datatype Obs = Error(reloaded: bool) | NoProductsText | Listed(cards: seq<Card>)

  /** The loop ends on this pass. */
  predicate Stops(o: Obs) {
    o == Error(false) || o.NoProductsText? || (o.Listed? && o.cards == [])
  }

  /** The page the next pass requests, or `None` when the loop ends. */
  function NextPage(o: Obs, page: nat): (r: Option<nat>)
    requires page >= 1
    ensures r.None? <==> Stops(o)
    ensures r.Some? ==> r.value >= page
    ensures r == Some(page) <==> o == Error(true) && page == 1
    ensures o == Error(true) && page > 1 ==> r == Some(page + 1)
    ensures o.Listed? && o.cards != [] ==> r == Some(page + 1)
  {
    if Stops(o) then None
    else if o.Error? && page == 1 then Some(1)
    else Some(page + 1)
  }

  /** The products one pass adds. */
  function Added(o: Obs): (r: seq<Product>)
    ensures !o.Listed? ==> r == []
  {
    if o.Listed? then ExtractAll(o.cards) else []
  }

  /**
   `index` from pass `i` on page `page`: pass `i` shows `obs[i]`. Errors never escape;
   the loop has no cap (page 1 can be retried for ever), so `Pending` when `obs` runs out.
   */
  function Index(obs: seq<Obs>, i: nat, page: nat): (r: Outcome<seq<Product>>)
    requires i <= |obs| && page >= 1
    ensures !r.Failed?
    ensures i < |obs| && Stops(obs[i]) ==> r == Done([])
    decreases |obs| - i
  {
    if i == |obs| then Pending
    else match NextPage(obs[i], page)
      case None => Done([])
      case Some(next) =>
        var rest := Index(obs, i + 1, next);
        if rest.Done? then Done(Added(obs[i]) + rest.value) else Pending
  }

  /** A finished crawl starts with what the current pass added. */
  lemma IndexStartsWithPass(obs: seq<Obs>, i: nat, page: nat)
    requires i <= |obs| && page >= 1
    requires Index(obs, i, page).Done?
    ensures i < |obs| && Added(obs[i]) <= Index(obs, i, page).value
  {
    if i < |obs| && NextPage(obs[i], page).Some? {
      var rest := Index(obs, i + 1, NextPage(obs[i], page).value);
      assert Index(obs, i, page).value == Added(obs[i]) + rest.value;
    }
  }

  /** The page number of every pass from `i` on, as long as the loop runs. */
  function Requested(obs: seq<Obs>, i: nat, page: nat): (r: seq<nat>)
    requires i <= |obs| && page >= 1
    ensures |r| <= |obs| - i
    ensures i < |obs| ==> |r| > 0 && r[0] == page
    ensures forall j :: 0 <= j < |r| ==> r[j] >= page
    decreases |obs| - i
  {
    if i == |obs| then []
    else match NextPage(obs[i], page)
      case None => [page]
      case Some(next) => [page] + Requested(obs, i + 1, next)
  }

  /** Non-decreasing, and no value other than 1 repeats. */
  predicate Climbs(r: seq<nat>) {
    forall j, k :: 0 <= j < k < |r| ==> r[j] <= r[k] && (r[j] == r[k] ==> r[j] == 1)
  }

  /**
   The page index never goes down, and only page 1 is ever requested twice: any other page
   is requested at most once, so a page skipped after an error is never revisited.
   */
  lemma {:induction false} RequestedPagesIncrease(obs: seq<Obs>, i: nat, page: nat)
    requires i <= |obs| && page >= 1
    ensures Climbs(Requested(obs, i, page))
    decreases |obs| - i
  {
    if i < |obs| && NextPage(obs[i], page).Some? {
      var next := NextPage(obs[i], page).value;
      RequestedPagesIncrease(obs, i + 1, next);
      var r := Requested(obs, i, page);
      var tail := Requested(obs, i + 1, next);
      assert r == [page] + tail;
      forall j, k | 0 <= j < k < |r|
        ensures r[j] <= r[k] && (r[j] == r[k] ==> r[j] == 1)
      {
        assert r[k] == tail[k - 1];
        if j == 0 {
          assert tail[k - 1] >= next >= page;
          assert next == page ==> page == 1;
        } else {
          assert r[j] == tail[j - 1];
          assert tail[j - 1] <= tail[k - 1] && (tail[j - 1] == tail[k - 1] ==> tail[j - 1] == 1);
        }
      }
    }
  }

  /** One pass that does not end the loop adds its products in front of the rest. */
  lemma IndexStep(obs: seq<Obs>, i: nat, page: nat)
    requires i < |obs| && page >= 1 && !Stops(obs[i])
    ensures var rest := Index(obs, i + 1, NextPage(obs[i], page).value);
            Index(obs, i, page) == if rest.Done? then Done(Added(obs[i]) + rest.value) else rest
  {
  }

  /** The products of passes `i … m - 1`. */
  function AddedFrom(obs: seq<Obs>, i: nat, m: nat): (r: seq<seq<Product>>)
    requires i <= m <= |obs|
    ensures |r| == m - i
  {
    seq(m - i, k requires 0 <= k < m - i => Added(obs[i + k]))
  }

  /**
   When pass `m` is the first from `i` on that ends the loop, `index` returns the products
   of the product lists of passes `i … m - 1` in order: errors followed by a good reload
   add nothing, and the final pass adds nothing either.
   */
  lemma {:induction false} IndexIsAddedBeforeFirstStop(obs: seq<Obs>, i: nat, m: nat, page: nat)
    requires i <= m < |obs| && page >= 1
    requires forall k :: i <= k < m ==> !Stops(obs[k])
    requires Stops(obs[m])
    ensures Index(obs, i, page) == Done(Flatten(AddedFrom(obs, i, m)))
    decreases m - i, 1
  {
    if i < m {
      IndexGoesOn(obs, i, m, page);
    } else {
      IndexAtStop(obs, i, page);
    }
  }

  /** The inductive step: a pass before the first stop puts its products in front of the rest. */
  lemma {:induction false} IndexGoesOn(obs: seq<Obs>, i: nat, m: nat, page: nat)
    requires i < m < |obs| && page >= 1
    requires forall k :: i <= k < m ==> !Stops(obs[k])
    requires Stops(obs[m])
    ensures Index(obs, i, page) == Done(Flatten(AddedFrom(obs, i, m)))
    decreases m - i, 0
  {
    assert !Stops(obs[i]);
    var next := NextPage(obs[i], page).value;
    IndexIsAddedBeforeFirstStop(obs, i + 1, m, next);
    IndexAddsFront(obs, i, m, page);
  }

  /** A pass that ends the loop adds nothing and requests nothing further. */
  lemma IndexAtStop(obs: seq<Obs>, i: nat, page: nat)
    requires i < |obs| && page >= 1 && Stops(obs[i])
    ensures Index(obs, i, page) == Done(Flatten(AddedFrom(obs, i, i)))
  {
    assert NextPage(obs[i], page).None?;
    assert |AddedFrom(obs, i, i)| == 0;
  }

  /** One step of the induction: a pass that does not end the loop puts its products in front. */
  lemma IndexAddsFront(obs: seq<Obs>, i: nat, m: nat, page: nat)
    requires i < m < |obs| && page >= 1 && !Stops(obs[i])
    requires Index(obs, i + 1, NextPage(obs[i], page).value) == Done(Flatten(AddedFrom(obs, i + 1, m)))
    ensures Index(obs, i, page) == Done(Flatten(AddedFrom(obs, i, m)))
  {
    IndexStep(obs, i, page);
    AddedFromFront(obs, i, m);
  }

  /** Splitting off the first pass: its products come first. */
  lemma AddedFromFront(obs: seq<Obs>, i: nat, m: nat)
    requires i < m <= |obs|
    ensures Flatten(AddedFrom(obs, i, m)) == Added(obs[i]) + Flatten(AddedFrom(obs, i + 1, m))
  {
    var xs, ys := AddedFrom(obs, i, m), AddedFrom(obs, i + 1, m);
    forall k | 0 <= k < |ys|
      ensures xs[1..][k] == ys[k]
    {
      assert xs[k + 1] == Added(obs[i + 1 + k]) == ys[k];
    }
    assert xs[1..] == ys;
    assert xs[0] == Added(obs[i]);
    assert Flatten(xs) == xs[0] + Flatten(xs[1..]);
  }

  /** An error on page 1 followed by good reloads, over and over, keeps the loop on page 1 with nothing collected. */
  lemma {:induction false} FirstPageRetriedForever(obs: seq<Obs>, i: nat)
    requires i <= |obs|
    requires forall k :: i <= k < |obs| ==> obs[k] == Error(true)
    ensures Index(obs, i, 1) == Pending
    ensures forall j :: 0 <= j < |Requested(obs, i, 1)| ==> Requested(obs, i, 1)[j] == 1
    decreases |obs| - i
  {
    if i < |obs| {
      FirstPageRetriedForever(obs, i + 1);
    }
  }

  // ---------------------------------------------------------------- the extractor argument as written

  /**
   Lines 51-54 as written: `extractProductInfo` is handed to `page.evaluate` as an argument,
   and arguments travel to the page serialised, which a function does not survive. The
   page then calls `map(undefined)`, which throws whenever it is reached, so a pass that
   would have listed products lands in the `catch` instead, followed by its reload.
   */
  function ListingAsWritten(o: Obs, reloaded: bool): (r: Obs)
    ensures !o.Listed? ==> r == o
    ensures o.Listed? ==> r == Error(reloaded)
  {
    if o.Listed? then Error(reloaded) else o
  }

  /** Every pass of one root, as the code as written sees it, with every reload ending as `reloaded`. */
  function PassesAsWritten(obs: seq<Obs>, reloaded: bool): (r: seq<Obs>)
    ensures |r| == |obs|
    ensures forall k :: 0 <= k < |obs| ==> r[k] == ListingAsWritten(obs[k], reloaded)
  {
    seq(|obs|, k requires 0 <= k < |obs| => ListingAsWritten(obs[k], reloaded))
  }

  /** Without a listing pass, `index` never collects anything. */
  lemma {:induction false} AsWrittenCollectsNothing(obs: seq<Obs>, i: nat, page: nat)
    requires i <= |obs| && page >= 1
    requires forall k :: i <= k < |obs| ==> !obs[k].Listed?
    ensures Index(obs, i, page).Done? ==> Index(obs, i, page).value == []
    decreases |obs| - i
  {
    if i < |obs| && NextPage(obs[i], page).Some? {
      AsWrittenCollectsNothing(obs, i + 1, NextPage(obs[i], page).value);
    }
  }

  /** As written, no root ever contributes a product. */
  lemma AsWrittenRootCollectsNothing(obs: seq<Obs>, reloaded: bool)
    ensures var r := Index(PassesAsWritten(obs, reloaded), 0, 1);
            r.Done? ==> r.value == []
  {
    AsWrittenCollectsNothing(PassesAsWritten(obs, reloaded), 0, 1);
  }

  /**
   As written, a root whose page 1 lists products on every pass, with reloads that work,
   keeps reloading page 1 for ever; with the extractor intact the first pass's products
   are collected and page 2 is requested next.
   */
  lemma {:induction false} AsWrittenNeverLeavesFirstPage(obs: seq<Obs>)
    requires forall k :: 0 <= k < |obs| ==> obs[k].Listed? && obs[k].cards != []
    ensures Index(PassesAsWritten(obs, true), 0, 1) == Pending
    ensures |obs| > 0 ==> NextPage(obs[0], 1) == Some(2)
    ensures |obs| > 0 && Index(obs, 0, 1).Done? ==> ExtractAll(obs[0].cards) <= Index(obs, 0, 1).value
  {
    FirstPageRetriedForever(PassesAsWritten(obs, true), 0);
    if |obs| > 0 && Index(obs, 0, 1).Done? {
      IndexStartsWithPass(obs, 0, 1);
    }
  }

  /** The outcome of `index` for each root from page 1, in root order. */
  function Outcomes(obs: seq<seq<Obs>>): (r: seq<Outcome<seq<Product>>>)
    ensures |r| == |obs|
    ensures forall i :: 0 <= i < |obs| ==> r[i] == Index(obs[i], 0, 1)
  {
    seq(|obs|, i requires 0 <= i < |obs| => Index(obs[i], 0, 1))
  }

  /**
   `run`: `index` per root, concatenated in root order; `index` catches its own errors,
   so the run finishes exactly when every root's crawl does.
   */
  function Run(obs: seq<seq<Obs>>): (r: Outcome<seq<Product>>)
    ensures !r.Failed?
    ensures r.Done? <==> forall i :: 0 <= i < |obs| ==> Index(obs[i], 0, 1).Done?
    ensures r.Done? ==> r.value == Flatten(DoneValues(Outcomes(obs)))
  {
    var outs := Outcomes(obs);
    assert forall i :: 0 <= i < |obs| ==> !outs[i].Failed?;
    RunRoots(outs)
  }
}

=== FILE: catalog.dfy ===
/**
 The product record every scraper writes, the site entries of the site index, and the
 small sequence combinators all the scrapers share: dropping failed extractions,
 concatenating per-page and per-root results, and the skip-and-continue loop over sites.
 */
module Catalog {
  import opened Optional
  import opened Strings

  /** A price as the page showed it; turning it into a number (`parseFloat`) is not modelled. */
  datatype Price = Price(text: string)

  /** What a currency regex such as `/(\$|€)\s*(\d+(?:\.\d{2})?)/` captured: the symbol and the amount. */
  datatype PriceMatch = PriceMatch(symbol: char, amount: string)

  /** One catalog entry. Every field may be `null`; `id` is derived, never scraped (zara excepted). */
  datatype Product = Product(
    id: Option<string>,
    title: Option<string>,
    link: Option<string>,
    imageUrl: Option<string>,
    price: Option<Price>,
    currency: Option<string>,
    sku: Option<string>,
    gender: Option<string>)

  /** The record with every field `null`. */
  const Blank := Product(None, None, None, None, None, None, None, None)

  /**
   The content hash `hashFn` of src/utils.js, which takes a variable number of possibly-null
   strings. Its definition is not part of this model: it is a parameter wherever it is used.
   */
  type HashFn = seq<Option<string>> -> string

  /** JavaScript truthiness of a string-or-null: `null` and `""` are falsy. */
  predicate Truthy(v: Option<string>) {
    v.Some? && v.value != ""
  }

  /** `v || null`. */
  function OrNull(v: Option<string>): (r: Option<string>)
    ensures Truthy(r) <==> Truthy(v)
    ensures r.Some? ==> r == v
  {
    if Truthy(v) then v else None
  }

  /** `s.startsWith('/') ? s : `/${s}``. */
  function SlashPrefix(s: string): (r: string)
    ensures "/" <= r
    ensures r == s || r == "/" + s
    ensures "/" <= s <==> r == s
  {
    if "/" <= s then s else "/" + s
  }

  /** `v ? (v.startsWith('/') ? v : `/${v}`) : null`, the link/imageUrl rule of several scrapers. */
  function SlashPath(v: Option<string>): (r: Option<string>)
    ensures r.Some? <==> Truthy(v)
    ensures r.Some? ==> "/" <= r.value && (r.value == v.value || r.value == "/" + v.value)
  {
    if Truthy(v) then Some(SlashPrefix(v.value)) else None
  }

  /** Prefixing is idempotent, and the scraped text is always recoverable as a suffix. */
  lemma SlashPrefixStable(s: string)
    ensures SlashPrefix(SlashPrefix(s)) == SlashPrefix(s)
    ensures SlashPrefix(s)[|SlashPrefix(s)| - |s|..] == s
  {
  }

  /** `match[1] === '$' ? 'USD' : 'EUR'`. */
  function CurrencyOf(m: PriceMatch): (r: string)
    ensures r == "USD" <==> m.symbol == '$'
    ensures r == "USD" || r == "EUR"
  {
    if m.symbol == '$' then "USD" else "EUR"
  }

  /** `text.replace(/[^0-9.]/g, '')`, the price cleanup before `parseFloat`: the digits and dots of the text, in order. */
  function PriceChars(s: string): (r: string)
    ensures |r| <= |s|
    ensures forall j :: 0 <= j < |r| ==> IsDigit(r[j]) || r[j] == '.'
    ensures (forall j :: 0 <= j < |s| ==> IsDigit(s[j]) || s[j] == '.') ==> r == s
  {
    if |s| == 0 then ""
    else (if IsDigit(s[0]) || s[0] == '.' then [s[0]] else []) + PriceChars(s[1..])
  }

  /** Filtering is idempotent, and it distributes over concatenation. */
  lemma {:induction false} PriceCharsAppend(a: string, b: string)
    ensures PriceChars(a + b) == PriceChars(a) + PriceChars(b)
    ensures PriceChars(PriceChars(a)) == PriceChars(a)
    decreases |a|
  {
    if |a| > 0 {
      assert (a + b)[1..] == a[1..] + b;
      PriceCharsAppend(a[1..], b);
    } else {
      assert a + b == b;
    }
  }

  /** `.filter(p => p !== null)`: the successful extractions, in element order. */
  function Somes<T>(xs: seq<Option<T>>): (r: seq<T>)
    ensures |r| <= |xs|
    ensures forall i :: 0 <= i < |r| ==> Some(r[i]) in xs
    ensures forall i :: 0 <= i < |xs| && xs[i].Some? ==> xs[i].value in r
  {
    if |xs| == 0 then []
    else (if xs[0].Some? then [xs[0].value] else []) + Somes(xs[1..])
  }

  /** Filtering distributes over concatenation, so order is kept and failures vanish locally. */
  lemma {:induction false} SomesAppend<T>(xs: seq<Option<T>>, ys: seq<Option<T>>)
    ensures Somes(xs + ys) == Somes(xs) + Somes(ys)
    decreases |xs|
  {
    if |xs| == 0 {
      assert xs + ys == ys;
    } else {
      assert (xs + ys)[1..] == xs[1..] + ys;
      SomesAppend(xs[1..], ys);
    }
  }

  /** With no failures nothing is dropped; with every extraction failing nothing is kept. */
  lemma {:induction false} SomesExtremes<T>(xs: seq<Option<T>>)
    ensures (forall i :: 0 <= i < |xs| ==> xs[i].Some?) ==> |Somes(xs)| == |xs|
    ensures (forall i :: 0 <= i < |xs| ==> xs[i].None?) ==> Somes(xs) == []
    decreases |xs|
  {
    if |xs| > 0 {
      SomesExtremes(xs[1..]);
    }
  }

  /** With no failures the filter keeps every value, one for one. */
  lemma {:induction false} SomesOfPresent<T>(xs: seq<Option<T>>)
    requires forall i :: 0 <= i < |xs| ==> xs[i].Some?
    ensures |Somes(xs)| == |xs|
    ensures forall i :: 0 <= i < |xs| ==> Somes(xs)[i] == xs[i].value
    decreases |xs|
  {
    if |xs| > 0 {
      SomesOfPresent(xs[1..]);
      forall i | 0 < i < |xs|
        ensures Somes(xs)[i] == xs[i].value
      {
        assert Somes(xs)[i] == Somes(xs[1..])[i - 1];
        assert xs[1..][i - 1] == xs[i];
      }
    }
  }

  /** `xs.map(f)`. */
  function MapSeq<A, B>(f: A -> B, xs: seq<A>): (r: seq<B>)
    ensures |r| == |xs|
    ensures forall i :: 0 <= i < |xs| ==> r[i] == f(xs[i])
  {
    if |xs| == 0 then [] else [f(xs[0])] + MapSeq(f, xs[1..])
  }

  lemma {:induction false} MapSeqAppend<A, B>(f: A -> B, xs: seq<A>, ys: seq<A>)
    ensures MapSeq(f, xs + ys) == MapSeq(f, xs) + MapSeq(f, ys)
    decreases |xs|
  {
    if |xs| == 0 {
      assert xs + ys == ys;
    } else {
      assert (xs + ys)[1..] == xs[1..] + ys;
      MapSeqAppend(f, xs[1..], ys);
    }
  }

  /** `xs.map(f).find(v => v !== null) || null`: the first value `f` gives that is not `null`. */
  function FirstSome<A, B>(f: A -> Option<B>, xs: seq<A>): (r: Option<B>)
    ensures r.Some? <==> exists i :: 0 <= i < |xs| && f(xs[i]).Some?
    ensures r.Some? ==> exists i :: 0 <= i < |xs| && r == f(xs[i]) && forall j :: 0 <= j < i ==> f(xs[j]).None?
  {
    if |xs| == 0 then None
    else if f(xs[0]).Some? then f(xs[0])
    else
      var r := FirstSome(f, xs[1..]);
      assert forall i :: 1 <= i < |xs| ==> xs[1..][i - 1] == xs[i];
      r
  }

  /** Total length of a sequence of sequences. */
  function SumLengths<T>(xss: seq<seq<T>>): nat {
    if |xss| == 0 then 0 else |xss[0]| + SumLengths(xss[1..])
  }

  /** Pointwise no longer means no longer in total. */
  lemma {:induction false} SumLengthsMono<T, U>(a: seq<seq<T>>, b: seq<seq<U>>)
    requires |a| == |b|
    requires forall i :: 0 <= i < |a| ==> |a[i]| <= |b[i]|
    ensures SumLengths(a) <= SumLengths(b)
  {
    if |a| > 0 {
      SumLengthsMono(a[1..], b[1..]);
    }
  }

  /** `allProducts = allProducts.concat(products)` over a whole loop. */
  function Flatten<T>(xss: seq<seq<T>>): (r: seq<T>)
    ensures |r| == SumLengths(xss)
    ensures |xss| == 1 ==> r == xss[0]
  {
    if |xss| == 0 then [] else xss[0] + Flatten(xss[1..])
  }

  lemma {:induction false} FlattenAppend<T>(a: seq<seq<T>>, b: seq<seq<T>>)
    ensures Flatten(a + b) == Flatten(a) + Flatten(b)
    decreases |a|
  {
    if |a| == 0 {
      assert a + b == b;
    } else {
      assert (a + b)[1..] == a[1..] + b;
      FlattenAppend(a[1..], b);
    }
  }

  /**
   How a crawl of one root page ended: with a result, with an error the caller sees, or
   not yet, because the observations ran out while the loop would still go on (the loops
   without an iteration cap are modelled this way rather than with a termination claim).
   */
  datatype Outcome<T> = Done(value: T) | Failed | Pending

  /** The values of the finished crawls, `[]` standing in for the others. */
  function DoneValues<T>(outs: seq<Outcome<seq<T>>>): (r: seq<seq<T>>)
    ensures |r| == |outs|
    ensures forall i :: 0 <= i < |outs| && outs[i].Done? ==> r[i] == outs[i].value
  {
    seq(|outs|, i requires 0 <= i < |outs| => if outs[i].Done? then outs[i].value else [])
  }

  /**
   The `run` of a scraper: root pages one after the other, results concatenated in root
   order; the first root whose crawl throws ends the run with nothing written.
   */
  function RunRoots<T>(outs: seq<Outcome<seq<T>>>): (r: Outcome<seq<T>>)
    ensures r.Done? <==> forall i :: 0 <= i < |outs| ==> outs[i].Done?
    ensures r.Failed? <==> exists i :: 0 <= i < |outs| && outs[i].Failed? && forall j :: 0 <= j < i ==> outs[j].Done?
    ensures r.Done? ==> r.value == Flatten(DoneValues(outs))
  {
    if |outs| == 0 then Done([])
    else
      var rest := RunRoots(outs[1..]);
      assert DoneValues(outs) == DoneValues(outs[..1]) + DoneValues(outs[1..]);
      assert forall i :: 1 <= i < |outs| ==> outs[1..][i - 1] == outs[i];
      match outs[0]
      case Done(v) =>
        (match rest
         case Done(w) => Done(v + w)
         case Failed => Failed
         case Pending => Pending)
      case Failed => Failed
      case Pending => Pending
  }

  /** An entry of the site index (`sites/index.json`). */
  datatype Site = Site(name: string, url: string, dbFile: Option<string>)

  /** A site the repair scripts leave alone: no `dbFile`, or a db file that cannot be read and parsed. */
  predicate Skipped(site: Site, read: string -> Option<seq<Product>>) {
    !Truthy(site.dbFile) || read(site.dbFile.value).None?
  }

  /**
   The site loop of the repair scripts: `if (!site.dbFile) continue;`, then a read inside
   its own `try` whose failure skips to the next site. `read` is the file system as the
   scripts see it: the parsed contents of each db file, or `None` when reading or parsing fails.
   */
  function ForEachReadableSite<R>(sites: seq<Site>, read: string -> Option<seq<Product>>,
                                  step: (Site, string, seq<Product>) -> R): (r: seq<R>)
    ensures |r| <= |sites|
    ensures |sites| == 1 && Skipped(sites[0], read) ==> r == []
    ensures |sites| == 1 && !Skipped(sites[0], read) ==>
              r == [step(sites[0], sites[0].dbFile.value, read(sites[0].dbFile.value).value)]
  {
    if |sites| == 0 then []
    else
      var s := sites[0];
      var here := if Skipped(s, read) then [] else [step(s, s.dbFile.value, read(s.dbFile.value).value)];
      here + ForEachReadableSite(sites[1..], read, step)
  }

  /** A skipped site does not stop the loop: the pass over `a + b` is the pass over `a` then over `b`. */
  lemma {:induction false} ForEachReadableSiteAppend<R>(a: seq<Site>, b: seq<Site>,
                                                       read: string -> Option<seq<Product>>,
                                                       step: (Site, string, seq<Product>) -> R)
    ensures ForEachReadableSite(a + b, read, step)
         == ForEachReadableSite(a, read, step) + ForEachReadableSite(b, read, step)
    decreases |a|
  {
    if |a| == 0 {
      assert a + b == b;
    } else {
      assert (a + b)[1..] == a[1..] + b;
      ForEachReadableSiteAppend(a[1..], b, read, step);
    }
  }
}

=== FILE: cos.dfy ===
/**
 The cos.com scraper (scrapers/paginate/cos.com.js): take the products of the current page,
 stop on the page that shows an "End of List" button, otherwise go to the next page's URL
 (module CosUrls) and repeat.
 */
module Cos {
  import opened Optional
  import opened Strings
  import opened Catalog
  import opened CosUrls
  import Urls

  // ---------------------------------------------------------------- product tiles

  /** A DOM read that either gave a value or threw. */
  datatype Read<T> = Threw | Got(value: T)

  /** The three groups of `/source\[(.*?)\],origin\[(.*?)\],type\[(.*?)\]/` (the match itself is an input). */
  datatype ChainGroups = ChainGroups(source: string, origin: string, kind: string)

  /** An `<img>`: its `data-resolvechain` attribute and, when the regex matches it, the groups. */
  datatype Img = Img(chain: Option<string>, groups: Option<ChainGroups>)

  const ImagePrefix := "https:" + "//lp.cosstores.com/app001prod?set=source["
  const ImageSuffix := "]&call=url[file:/product/main]"

  /**
   Lines 29-37: an image only counts when its chain is truthy, mentions `DESCRIPTIVESTILLLIFE`
   and matches; the URL then names the source right after the fixed prefix, and the three
   groups are all that vary in it.
   */
  function ImageOf(img: Img): (r: Option<string>)
    ensures r.Some? <==> Truthy(img.chain) && Contains(img.chain.value, "DESCRIPTIVESTILLLIFE") && img.groups.Some?
    ensures r.Some? ==> ImagePrefix <= r.value
    ensures r.Some? ==> |r.value| == |ImagePrefix| + |img.groups.value.source| + |img.groups.value.origin|
                                     + |img.groups.value.kind| + 16 + |ImageSuffix|
    ensures r.Some? ==> r.value[|ImagePrefix|..|ImagePrefix| + |img.groups.value.source|] == img.groups.value.source
  {
    if Truthy(img.chain) && Contains(img.chain.value, "DESCRIPTIVESTILLLIFE") && img.groups.Some? then
      var g := img.groups.value;
      var u := ImagePrefix + g.source + "],origin[" + g.origin + "],type[" + g.kind + ImageSuffix;
      assert u[..|ImagePrefix|] == ImagePrefix;
      assert u[|ImagePrefix|..|ImagePrefix| + |g.source|] == g.source;
      Some(u)
    else None
  }

  /** Every built image URL is absolute, so the repair scripts' `fixUrl` leaves it as it is. */
  lemma ImageOfIsAbsolute(img: Img, base: string)
    requires ImageOf(img).Some?
    ensures "https:" <= ImageOf(img).value
    ensures Urls.FixUrlText(base, ImageOf(img).value) == ImageOf(img).value
  {
    var u := ImageOf(img).value;
    assert ImagePrefix[..6] == "https:";
    assert u[..|ImagePrefix|] == ImagePrefix;
    assert u[..6] == u[..|ImagePrefix|][..6];
    Urls.FixUrlTextKeepsHttps(base, u);
  }

  /** `images.find(url => url !== null) || null`: the first image that counts. */
  function FirstImage(imgs: seq<Img>): (r: Option<string>)
    ensures r.Some? <==> exists i :: 0 <= i < |imgs| && ImageOf(imgs[i]).Some?
    ensures r.Some? ==> exists i :: 0 <= i < |imgs| && r == ImageOf(imgs[i]) &&
                                    forall j :: 0 <= j < i ==> ImageOf(imgs[j]).None?
  {
    FirstSome(ImageOf, imgs)
  }

  /** Line 23: `/men/` wins over `/women/`; neither gives `null`. */
  function CosGender(link: string): (r: Option<string>)
    ensures r == Some("men") <==> Contains(link, "/men/")
    ensures r == Some("women") <==> !Contains(link, "/men/") && Contains(link, "/women/")
    ensures r.None? <==> !Contains(link, "/men/") && !Contains(link, "/women/")
  {
    if Contains(link, "/men/") then Some("men") else if Contains(link, "/women/") then Some("women") else None
  }

  /**
   The reads `extractProductInfo` makes of one `.o-product`, in program order. `price` is
   `Got(None)` when there is no `.m-product-price span`, `Got(Some(text))` when its text
   was read.
   */
  datatype Tile = Tile(
    title: Read<string>,
    href: Read<Option<string>>,
    images: Read<seq<Img>>,
    sku: Read<string>,
    price: Read<Option<string>>)

  /** How many of the five reads succeeded before the first one that threw. */
  function Reached(t: Tile): (n: nat)
    ensures n <= 5
    ensures n >= 1 <==> t.title.Got?
    ensures n >= 5 <==> t.title.Got? && t.href.Got? && t.images.Got? && t.sku.Got? && t.price.Got?
  {
    if t.title.Threw? then 0
    else if t.href.Threw? then 1
    else if t.images.Threw? then 2
    else if t.sku.Threw? then 3
    else if t.price.Threw? then 4
    else 5
  }

  /**
   `extractProductInfo`: the fields are assigned one after the other inside a single `try`,
   so a read that throws leaves it and every later field `null`; the record is returned
   anyway. `pathname` stands for `new URL(link, 'https://www.cos.com').pathname`. There is no
   `id` field.
   */
  function Extract(t: Tile, pathname: string -> string): (r: Product)
    ensures t.title.Threw? ==> r == Blank
    ensures r.id.None?
    ensures r.title.Some? <==> t.title.Got?
    ensures r.title.Some? ==> r.title.value == t.title.value
    ensures r.link.Some? <==> Reached(t) >= 2 && Truthy(t.href.value)
    ensures r.link.Some? ==> r.link.value == pathname(t.href.value.value) && r.gender == CosGender(r.link.value)
    ensures r.link.None? ==> r.gender.None?
    ensures Reached(t) >= 3 ==> r.imageUrl == FirstImage(t.images.value)
    ensures Reached(t) < 3 ==> r.imageUrl.None?
    ensures r.sku.Some? <==> Reached(t) >= 4
    ensures r.sku.Some? ==> r.sku.value == t.sku.value
    ensures r.price.Some? <==> Reached(t) == 5 && t.price.value.Some?
    ensures r.price.Some? ==> r.price.value == Price(PriceChars(t.price.value.value))
    ensures r.currency.Some? <==> r.price.Some? && "$" <= t.price.value.value
    ensures r.currency.Some? ==> r.currency.value == "USD"
  {
    var n := Reached(t);
    var title := if n >= 1 then Some(t.title.value) else None;
    var link := if n >= 2 && Truthy(t.href.value) then Some(pathname(t.href.value.value)) else None;
    var gender := if link.Some? then CosGender(link.value) else None;
    var image := if n >= 3 then FirstImage(t.images.value) else None;
    var sku := if n >= 4 then Some(t.sku.value) else None;
    var text := if n == 5 then t.price.value else None;
    var price := if text.Some? then Some(Price(PriceChars(text.value))) else None;
    var currency := if text.Some? && "$" <= text.value then Some("USD") else None;
    Product(None, title, link, image, price, currency, sku, gender)
  }

  /**
   A price read that throws costs the price and the currency and nothing else: the record is
   the one the same tile gives without a price element.
   */
  lemma PriceThrowKeepsEarlierFields(t: Tile, pathname: string -> string)
    requires t.price.Threw?
    ensures Extract(t, pathname) == Extract(t.(price := Got(None)), pathname)
  {
    var u := t.(price := Got(None));
    assert Reached(u) == 5 <==> Reached(t) == 4;
    assert Reached(u) < 4 ==> Reached(u) == Reached(t);
  }

  /** `if (product.title)`. */
  predicate Titled(t: Tile) {
    t.title.Got? && t.title.value != ""
  }

  /** The products a page adds: the extracted records with a truthy title, in tile order. */
  function Kept(tiles: seq<Tile>, pathname: string -> string): (r: seq<Product>)
    ensures |r| <= |tiles|
    ensures forall i :: 0 <= i < |r| ==> Truthy(r[i].title)
  {
    if |tiles| == 0 then []
    else (if Titled(tiles[0]) then [Extract(tiles[0], pathname)] else []) + Kept(tiles[1..], pathname)
  }

  /**
   Exactly the titled tiles are kept: each one's record is in the result and every record
   in the result comes from a titled tile.
   */
  lemma {:induction false} KeptAreTheTitled(tiles: seq<Tile>, pathname: string -> string)
    ensures forall i :: 0 <= i < |tiles| && Titled(tiles[i]) ==> Extract(tiles[i], pathname) in Kept(tiles, pathname)
    ensures forall p :: p in Kept(tiles, pathname) ==>
              exists i :: 0 <= i < |tiles| && Titled(tiles[i]) && p == Extract(tiles[i], pathname)
    decreases |tiles|
  {
    if |tiles| > 0 {
      KeptAreTheTitled(tiles[1..], pathname);
      assert forall i :: 1 <= i < |tiles| ==> tiles[1..][i - 1] == tiles[i];
    }
  }

  lemma {:induction false} KeptAppend(a: seq<Tile>, b: seq<Tile>, pathname: string -> string)
    ensures Kept(a + b, pathname) == Kept(a, pathname) + Kept(b, pathname)
    decreases |a|
  {
    if |a| == 0 {
      assert a + b == b;
    } else {
      assert (a + b)[1..] == a[1..] + b;
      KeptAppend(a[1..], b, pathname);
    }
  }

  // ---------------------------------------------------------------- pagination

  /**
   What one page showed: an error (`page.goto` or `waitForSelector('.o-product')` threw) or
   its tiles and whether a button mentioning `End of List` is present.
   */
  datatype CosPage = Fault | Listed(tiles: seq<Tile>, endOfList: bool)

  /** The URL the crawl is on after `k` page turns; `correct` selects the corrected next-page rule. */
  function Visit(root: string, correct: bool, k: nat): string {
    if correct then NthUrl(root, k) else NthUrlAsWritten(root, k)
  }

  /** What the crawl of `root` sees after `k` page turns, given what `site` shows for each URL. */
  function Observed(root: string, site: string -> CosPage, correct: bool): (pages: nat -> CosPage)
    ensures forall k: nat :: pages(k) == site(Visit(root, correct, k))
  {
    (k: nat) => site(Visit(root, correct, k))
  }

  /** The products page turn `k` adds. */
  function PageProducts(pages: nat -> CosPage, pathname: string -> string, k: nat): (r: seq<Product>)
    ensures pages(k).Fault? ==> r == []
    ensures pages(k).Listed? ==> r == Kept(pages(k).tiles, pathname)
  {
    match pages(k)
    case Fault => []
    case Listed(tiles, _) => Kept(tiles, pathname)
  }

  /** The loop goes on past page turn `k`: the page loaded and shows no `End of List` button. */
  predicate Continues(pages: nat -> CosPage, k: nat) {
    pages(k).Listed? && !pages(k).endOfList
  }

  /**
   `index` from page turn `k` on (`page.url()` is taken to be the URL last navigated to).
   The page with the button is included before the loop breaks; an error propagates. The
   loop has no cap: `limit` is how far the model looks, `Pending` beyond it.
   */
  function Crawl(pages: nat -> CosPage, pathname: string -> string, k: nat, limit: nat): (r: Outcome<seq<Product>>)
    ensures pages(k).Fault? && k <= limit ==> r.Failed?
    ensures pages(k).Listed? && pages(k).endOfList && k <= limit ==> r == Done(Kept(pages(k).tiles, pathname))
    decreases limit + 1 - k
  {
    if k > limit then Pending
    else match pages(k)
      case Fault => Failed
      case Listed(tiles, endOfList) =>
        if endOfList then Done(Kept(tiles, pathname))
        else match Crawl(pages, pathname, k + 1, limit)
          case Done(rest) => Done(Kept(tiles, pathname) + rest)
          case Failed => Failed
          case Pending => Pending
  }

  /** The products of page turns `k`, …, `m - 1`. */
  function PagesFrom(pages: nat -> CosPage, pathname: string -> string, k: nat, m: nat): (r: seq<seq<Product>>)
    requires k <= m
    ensures |r| == m - k
    ensures forall j :: 0 <= j < m - k ==> r[j] == PageProducts(pages, pathname, k + j)
  {
    seq(m - k, j requires 0 <= j < m - k => PageProducts(pages, pathname, k + j))
  }

  /**
   When page turn `m` is the first from `k` on with the `End of List` button and none before
   it failed, the crawl returns the titled products of pages `k` to `m`, in page order.
   */
  lemma {:induction false} CrawlStopsAtEndOfList(pages: nat -> CosPage, pathname: string -> string, k: nat, m: nat, limit: nat)
    requires k <= m <= limit
    requires forall j :: k <= j < m ==> Continues(pages, j)
    requires pages(m).Listed? && pages(m).endOfList
    ensures Crawl(pages, pathname, k, limit) == Done(Flatten(PagesFrom(pages, pathname, k, m + 1)))
    decreases m - k
  {
    if k < m {
      CrawlStopsAtEndOfList(pages, pathname, k + 1, m, limit);
      CrawlContinues(pages, pathname, k, limit);
      FlattenPagesFront(pages, pathname, k, m + 1);
    } else {
      FlattenOnePage(pages, pathname, k);
    }
  }

  lemma FlattenOnePage(pages: nat -> CosPage, pathname: string -> string, k: nat)
    ensures Flatten(PagesFrom(pages, pathname, k, k + 1)) == PageProducts(pages, pathname, k)
  {
    assert |PagesFrom(pages, pathname, k, k + 1)| == 1;
  }

  /** A page turn that goes on puts its products in front of whatever the rest of the crawl returns. */
  lemma CrawlContinues(pages: nat -> CosPage, pathname: string -> string, k: nat, limit: nat)
    requires k < limit && Continues(pages, k)
    requires Crawl(pages, pathname, k + 1, limit).Done?
    ensures Crawl(pages, pathname, k, limit)
            == Done(PageProducts(pages, pathname, k) + Crawl(pages, pathname, k + 1, limit).value)
  {
  }

  lemma FlattenPagesFront(pages: nat -> CosPage, pathname: string -> string, k: nat, m: nat)
    requires k < m
    ensures Flatten(PagesFrom(pages, pathname, k, m))
            == PageProducts(pages, pathname, k) + Flatten(PagesFrom(pages, pathname, k + 1, m))
  {
    var ps := PagesFrom(pages, pathname, k, m);
    assert ps[1..] == PagesFrom(pages, pathname, k + 1, m);
  }

  /** A page that fails before any `End of List` button makes the whole crawl fail. */
  lemma {:induction false} CrawlFailsOnFault(pages: nat -> CosPage, pathname: string -> string, k: nat, m: nat, limit: nat)
    requires k <= m <= limit
    requires forall j :: k <= j < m ==> Continues(pages, j)
    requires pages(m).Fault?
    ensures Crawl(pages, pathname, k, limit).Failed?
    decreases m - k
  {
    if k < m {
      CrawlFailsOnFault(pages, pathname, k + 1, m, limit);
      assert Continues(pages, k);
    }
  }

  /** The outcome of `index` for each root, in root order. */
  function Outcomes(roots: seq<string>, site: string -> CosPage, pathname: string -> string,
                    correct: bool, limit: nat): (r: seq<Outcome<seq<Product>>>)
    ensures |r| == |roots|
    ensures forall i :: 0 <= i < |roots| ==> r[i] == Crawl(Observed(roots[i], site, correct), pathname, 0, limit)
  {
    seq(|roots|, i requires 0 <= i < |roots| => Crawl(Observed(roots[i], site, correct), pathname, 0, limit))
  }

  /**
   `run`: roots one after the other; an error in any `index` reaches the outer `catch`, so
   the run ends there and writes nothing.
   */
  function Run(roots: seq<string>, site: string -> CosPage, pathname: string -> string,
               correct: bool, limit: nat): (r: Outcome<seq<Product>>)
    ensures r.Done? <==> forall i :: 0 <= i < |roots| ==> Outcomes(roots, site, pathname, correct, limit)[i].Done?
    ensures r.Failed? <==> exists i :: 0 <= i < |roots| && Outcomes(roots, site, pathname, correct, limit)[i].Failed? &&
                                      forall j :: 0 <= j < i ==> Outcomes(roots, site, pathname, correct, limit)[j].Done?
    ensures r.Done? ==> r.value == Flatten(DoneValues(Outcomes(roots, site, pathname, correct, limit)))
  {
    RunRoots(Outcomes(roots, site, pathname, correct, limit))
  }
}

=== FILE: cos_urls.dfy ===
/**
 The next-page rule of the cos.com scraper (scrapers/paginate/cos.com.js, lines 93-101):
 read the number after the first `page=` of the current URL and either rewrite it or append
 a `page=` parameter.
 */
module CosUrls {
  import opened Optional
  import opened Strings
  import Urls

  // ---------------------------------------------------------------- page URLs

  /** `page=` followed by at least one digit starts at index `p`: where `/page=(\d+)/` can match. */
  predicate PageAt(u: string, p: nat) {
    p + 5 < |u| && u[p] == 'p' && u[p + 1] == 'a' && u[p + 2] == 'g' && u[p + 3] == 'e' && u[p + 4] == '='
    && IsDigit(u[p + 5])
  }

  /** The leftmost match of `/page=(\d+)/` at or after `i`. */
  function FindPage(u: string, i: nat): (r: Option<nat>)
    ensures r.Some? ==> i <= r.value && PageAt(u, r.value)
    ensures forall q :: i <= q && (r.None? || q < r.value) ==> !PageAt(u, q)
    decreases |u| - i
  {
    if i >= |u| then None
    else if PageAt(u, i) then Some(i)
    else FindPage(u, i + 1)
  }

  /** The leftmost match is the match with none before it. */
  lemma FindPageIs(u: string, p: nat)
    requires PageAt(u, p)
    requires forall q :: 0 <= q < p ==> !PageAt(u, q)
    ensures FindPage(u, 0) == Some(p)
  {
  }

  /** The number after the first `page=`; 0 when there is none. */
  function PageNumber(u: string): (n: nat)
  {
    match FindPage(u, 0)
    case None => 0
    case Some(p) => ParseDigits(u[p + 5..p + 5 + DigitRun(u, p + 5)])
  }

  /** `currentPageMatch ? parseInt(currentPageMatch[1]) + 1 : 1`. */
  function NextNumber(u: string): (n: nat)
    ensures n >= 1
    ensures FindPage(u, 0).None? ==> n == 1
  {
    PageNumber(u) + 1
  }

  /** `u.replace(/page=\d+/, 'page=' + n)`: only the first match is rewritten. */
  function ReplacePage(u: string, n: nat): (r: string)
    ensures FindPage(u, 0).None? ==> r == u
  {
    match FindPage(u, 0)
    case None => u
    case Some(p) => u[..p] + "page=" + ShowNat(n) + u[p + 5 + DigitRun(u, p + 5)..]
  }

  /** Lines 93-101 as written: rewrite when the URL contains `?page=`, append otherwise. */
  function NextPageUrlAsWritten(u: string): (r: string)
    ensures Contains(u, "?page=") ==> r == ReplacePage(u, NextNumber(u))
    ensures !Contains(u, "?page=") ==> r == Urls.PageUrl(u, NextNumber(u))
  {
    if Contains(u, "?page=") then ReplacePage(u, NextNumber(u)) else Urls.PageUrl(u, NextNumber(u))
  }

  /** The evident intent: rewrite whenever the URL has a page number, wherever it sits. */
  function NextPageUrl(u: string): (r: string)
    ensures FindPage(u, 0).Some? ==> r == ReplacePage(u, NextNumber(u))
    ensures FindPage(u, 0).None? ==> r == Urls.PageUrl(u, 1)
  {
    if FindPage(u, 0).Some? then ReplacePage(u, NextNumber(u)) else Urls.PageUrl(u, 1)
  }

  /** Rewriting the first page number leaves it the first, and it now reads `n`. */
  lemma ReplacePageReads(u: string, n: nat)
    requires FindPage(u, 0).Some?
    ensures FindPage(ReplacePage(u, n), 0) == FindPage(u, 0)
    ensures PageNumber(ReplacePage(u, n)) == n
  {
    var p := FindPage(u, 0).value;
    var d := DigitRun(u, p + 5);
    var ds := ShowNat(n);
    var r := ReplacePage(u, n);
    assert r == u[..p] + "page=" + ds + u[p + 5 + d..];
    ReplacedReads(u, p, d, ds, r);
    assert ParseDigits(ds) == n by {
      ParseShowNat(n);
    }
  }

  /** The rewritten URL reads the digits written into it. */
  lemma {:induction false} ReplacedReads(u: string, p: nat, d: nat, ds: string, r: string)
    requires FindPage(u, 0) == Some(p) && d == DigitRun(u, p + 5)
    requires |ds| > 0 && AllDigits(ds)
    requires r == u[..p] + "page=" + ds + u[p + 5 + d..]
    ensures FindPage(r, 0) == Some(p)
    ensures PageNumber(r) == ParseDigits(ds)
  {
    ReplacedFirst(u, p, d, ds, r);
    PageNumberIs(r, p, |ds|, ds);
  }

  /** The rewritten URL has its first match at the same place, followed by exactly the new digits. */
  lemma ReplacedFirst(u: string, p: nat, d: nat, ds: string, r: string)
    requires FindPage(u, 0) == Some(p) && d == DigitRun(u, p + 5)
    requires |ds| > 0 && AllDigits(ds)
    requires r == u[..p] + "page=" + ds + u[p + 5 + d..]
    ensures FindPage(r, 0) == Some(p)
    ensures DigitRun(r, p + 5) == |ds| && r[p + 5..p + 5 + |ds|] == ds
  {
    ReplaceShape(u, p, d, ds, r);
    ReplacedRun(u, p, d, ds, r);
    ReplacedNoEarlier(u, p, r);
    forall j | p <= j < p + 5
      ensures r[j] == u[j]
    {
      assert r[j] == r[..p + 5][j];
    }
    assert r[p + 5] == ds[0];
    assert PageAt(r, p);
    FindPageIs(r, p);
  }

  lemma ReplaceShape(u: string, p: nat, d: nat, ds: string, r: string)
    requires OccursAt(u, "page=", p) && p + 5 + d <= |u|
    requires r == u[..p] + "page=" + ds + u[p + 5 + d..]
    ensures |r| == |u| - d + |ds|
    ensures r[..p + 5] == u[..p + 5]
    ensures r[p + 5..p + 5 + |ds|] == ds
    ensures r[p + 5 + |ds|..] == u[p + 5 + d..]
  {
    assert u[..p + 5] == u[..p] + u[p..p + 5];
  }

  lemma ReplacedRun(u: string, p: nat, d: nat, ds: string, r: string)
    requires p + 5 + d <= |u| && d == DigitRun(u, p + 5)
    requires AllDigits(ds)
    requires |r| == |u| - d + |ds|
    requires r[p + 5..p + 5 + |ds|] == ds && r[p + 5 + |ds|..] == u[p + 5 + d..]
    ensures DigitRun(r, p + 5) == |ds|
  {
    forall j | p + 5 <= j < p + 5 + |ds|
      ensures IsDigit(r[j])
    {
      assert r[j] == r[p + 5..p + 5 + |ds|][j - p - 5];
    }
    if p + 5 + |ds| < |r| {
      assert r[p + 5 + |ds|] == r[p + 5 + |ds|..][0] == u[p + 5 + d];
    }
    DigitRunUnique(r, p + 5, |ds|);
  }

  lemma ReplacedNoEarlier(u: string, p: nat, r: string)
    requires FindPage(u, 0) == Some(p)
    requires p + 5 <= |r| && p + 5 <= |u| && r[..p + 5] == u[..p + 5]
    ensures forall q :: 0 <= q < p ==> !PageAt(r, q)
  {
    forall q | 0 <= q < p
      ensures !PageAt(r, q)
    {
      assert !PageAt(u, q);
      SamePrefixSamePageAt(u, r, q, p + 5);
    }
  }

  /** Whether a match starts at `q` depends only on the six characters from `q`. */
  lemma SamePrefixSamePageAt(u: string, r: string, q: nat, k: nat)
    requires q + 6 <= k <= |u| && k <= |r| && r[..k] == u[..k]
    ensures PageAt(r, q) <==> PageAt(u, q)
  {
    forall j | q <= j <= q + 5
      ensures r[j] == u[j]
    {
      assert r[j] == r[..k][j];
    }
  }

  /** Whether a digit run starts at `i` depends on the character at `i` alone. */
  lemma DigitRunHead(s: string, i: nat)
    requires i <= |s|
    ensures DigitRun(s, i) > 0 <==> i < |s| && IsDigit(s[i])
  {
  }

  /** No match can start before or across a separator that is neither a digit nor part of `page=`. */
  lemma NoMatchBeforeSeam(u: string, sep: char, rest: string)
    requires FindPage(u, 0).None?
    requires !IsDigit(sep) && sep !in "page="
    ensures forall q :: 0 <= q < |u| + 1 ==> !PageAt(u + [sep] + rest, q)
  {
    var r := u + [sep] + rest;
    assert r[..|u|] == u;
    assert r[|u|] == sep;
    forall q | 0 <= q < |u| + 1
      ensures !PageAt(r, q)
    {
      if q + 6 <= |u| {
        assert !PageAt(u, q);
        SamePrefixSamePageAt(u, r, q, |u|);
      } else if q + 5 == |u| {
        DigitRunHead(r, q + 5);
      } else if q + 5 <= |r| {
        assert r[q..q + 5][|u| - q] == sep;
        assert "page="[|u| - q] in "page=";
      }
    }
  }

  /** `u + sep + "page=" + ds` with no earlier match reads `ds`. */
  lemma {:induction false} AppendReads(u: string, sep: char, ds: string)
    requires FindPage(u, 0).None?
    requires !IsDigit(sep) && sep !in "page="
    requires |ds| > 0 && AllDigits(ds)
    ensures FindPage(u + [sep] + "page=" + ds, 0) == Some(|u| + 1)
    ensures PageNumber(u + [sep] + "page=" + ds) == ParseDigits(ds)
  {
    var r := u + [sep] + "page=" + ds;
    var p := |u| + 1;
    assert r == u + [sep] + ("page=" + ds);
    NoMatchBeforeSeam(u, sep, "page=" + ds);
    assert r[p..p + 5] == "page=";
    assert r[p + 5..] == ds;
    TailRun(r, p + 5, ds);
    PageAtSpelled(r, p);
    FindPageIs(r, p);
    PageNumberIs(r, p, |ds|, ds);
  }

  /** A string that ends in a run of digits: the run is maximal and spells those digits. */
  lemma TailRun(r: string, i: nat, ds: string)
    requires i <= |r| && r[i..] == ds && AllDigits(ds)
    ensures i + |ds| == |r|
    ensures DigitRun(r, i) == |ds| && r[i..i + |ds|] == ds
  {
    forall j | i <= j < |r|
      ensures IsDigit(r[j])
    {
      assert r[j] == ds[j - i];
    }
    DigitRunUnique(r, i, |ds|);
  }

  /** `page=` spelled out at `p` and a digit after it is a match. */
  lemma PageAtSpelled(r: string, p: nat)
    requires p + 5 < |r| && r[p..p + 5] == "page=" && IsDigit(r[p + 5])
    ensures PageAt(r, p)
  {
    assert r[p] == r[p..p + 5][0];
    assert r[p + 1] == r[p..p + 5][1];
    assert r[p + 2] == r[p..p + 5][2];
    assert r[p + 3] == r[p..p + 5][3];
    assert r[p + 4] == r[p..p + 5][4];
  }

  /** The page number is the number whose digits follow the first match. */
  lemma PageNumberIs(u: string, p: nat, d: nat, digits: string)
    requires FindPage(u, 0) == Some(p) && DigitRun(u, p + 5) == d
    requires p + 5 + d <= |u| && u[p + 5..p + 5 + d] == digits && AllDigits(digits)
    ensures PageNumber(u) == ParseDigits(digits)
  {
  }

  /** Appending `page=n` to a URL without a page number makes that the first, and it reads `n`. */
  lemma {:induction false} AppendedPageReads(u: string, n: nat)
    requires FindPage(u, 0).None?
    ensures FindPage(Urls.PageUrl(u, n), 0) == Some(|u| + 1)
    ensures PageNumber(Urls.PageUrl(u, n)) == n
  {
    var r := Urls.PageUrl(u, n);
    var sep := if Contains(u, "?") then '&' else '?';
    PageUrlSpelled(u, n, sep);
    SeparatorStartsNoMatch(sep);
    AppendReads(u, sep, ShowNat(n));
    ParseShowNat(n);
    assert r == u + [sep] + "page=" + ShowNat(n);
  }

  /** Neither query separator is a digit or a letter of `page=`. */
  lemma SeparatorStartsNoMatch(sep: char)
    requires sep == '&' || sep == '?'
    ensures !IsDigit(sep) && sep !in "page="
  {
  }

  /** The appended text is the separator, `page=` and the decimal digits of `n`. */
  lemma PageUrlSpelled(u: string, n: nat, sep: char)
    requires sep == if Contains(u, "?") then '&' else '?'
    ensures Urls.PageUrl(u, n) == u + [sep] + "page=" + ShowNat(n)
  {
  }

  /** Appending text that starts with a non-digit keeps the first match and its number. */
  lemma AppendKeepsFirstMatch(u: string, tail: string)
    requires FindPage(u, 0).Some?
    requires |tail| > 0 && !IsDigit(tail[0])
    ensures FindPage(u + tail, 0) == FindPage(u, 0)
    ensures PageNumber(u + tail) == PageNumber(u)
  {
    var r := u + tail;
    var p := FindPage(u, 0).value;
    var d := DigitRun(u, p + 5);
    assert r[..|u|] == u;
    forall q | 0 <= q <= p
      ensures PageAt(r, q) <==> PageAt(u, q)
    {
      SamePrefixSamePageAt(u, r, q, |u|);
    }
    FindPageIs(r, p);
    AppendKeepsRun(u, tail, p, d);
    SameMatchSameNumber(u, r, p, d);
  }

  /** The digit run after a match inside `u` ends where it ended in `u` once `tail` is appended. */
  lemma AppendKeepsRun(u: string, tail: string, p: nat, d: nat)
    requires p + 5 <= |u| && d == DigitRun(u, p + 5)
    requires |tail| > 0 && !IsDigit(tail[0])
    ensures DigitRun(u + tail, p + 5) == d
    ensures (u + tail)[p + 5..p + 5 + d] == u[p + 5..p + 5 + d]
  {
    var r := u + tail;
    assert r[p + 5..p + 5 + d] == u[p + 5..p + 5 + d];
    forall j | p + 5 <= j < p + 5 + d
      ensures IsDigit(r[j])
    {
      assert r[j] == u[j];
    }
    assert !IsDigit(r[p + 5 + d]) by {
      if p + 5 + d < |u| {
        assert r[p + 5 + d] == u[p + 5 + d];
      } else {
        assert r[p + 5 + d] == tail[0];
      }
    }
    DigitRunUnique(r, p + 5, d);
  }

  lemma {:induction false} SameMatchSameNumber(u: string, r: string, p: nat, d: nat)
    requires FindPage(u, 0) == Some(p) && FindPage(r, 0) == Some(p)
    requires d == DigitRun(r, p + 5) == DigitRun(u, p + 5)
    requires p + 5 + d <= |r| && p + 5 + d <= |u| && r[p + 5..p + 5 + d] == u[p + 5..p + 5 + d]
    ensures PageNumber(r) == PageNumber(u)
  {
    var digits := u[p + 5..p + 5 + d];
    PageNumberIs(u, p, d, digits);
    PageNumberIs(r, p, d, digits);
  }

  /**
   With the corrected rule every step raises the page number by exactly one, wherever the
   `page=` parameter sits in the URL.
   */
  lemma NextPageUrlAdvances(u: string)
    ensures PageNumber(NextPageUrl(u)) == PageNumber(u) + 1
  {
    if FindPage(u, 0).Some? {
      ReplacePageReads(u, NextNumber(u));
    } else {
      AppendedPageReads(u, 1);
    }
  }

  /** The URL after `k` steps of the corrected rule. */
  function NthUrl(u: string, k: nat): (r: string)
    ensures PageNumber(r) == PageNumber(u) + k
  {
    if k == 0 then u
    else
      var prev := NthUrl(u, k - 1);
      NextPageUrlAdvances(prev);
      NextPageUrl(prev)
  }

  /** So the corrected crawl never requests the same URL twice. */
  lemma NthUrlsDistinct(u: string, j: nat, k: nat)
    requires j != k
    ensures NthUrl(u, j) != NthUrl(u, k)
  {
  }

  /** Appending `&page=n` to a URL with a query but no `?page=` still has no `?page=`. */
  lemma AppendKeepsNoQueryPage(u: string, n: nat)
    requires Contains(u, "?") && !Contains(u, "?page=")
    ensures Contains(Urls.PageUrl(u, n), "?") && !Contains(Urls.PageUrl(u, n), "?page=")
  {
    var r := Urls.PageUrl(u, n);
    var b := r[|u|..];
    assert r == u + b;
    assert b[0] == '&';
    forall i: nat
      ensures !OccursAt(b, "?page=", i)
    {
      if i + 6 <= |b| {
        assert b[i..i + 6][0] == b[i];
        if i >= 6 {
          assert b[i] == r[|u| + 6..][i - 6];
        } else if i > 0 {
          assert b[i] == r[|u| + 1..|u| + 6][i - 1];
        }
      }
    }
    ContainsIff(b, "?page=");
    ContainsAcrossSeam(u, b, "?page=");
    ContainsExtend(u, b, "?");
  }

  /** A URL with a page number and a query, but no `?page=`: the case the rewrite misses. */
  predicate Stuck(u: string, n: nat) {
    FindPage(u, 0).Some? && Contains(u, "?") && !Contains(u, "?page=") && PageNumber(u) == n
  }

  /**
   As written, a URL whose page number is not introduced by `?` (because the root already
   had a query string) is never rewritten: each step appends `&page=N+1` again, while the
   first `page=N` stays first and keeps being read.
   */
  lemma AsWrittenStepSticks(u: string, n: nat)
    requires Stuck(u, n)
    ensures NextPageUrlAsWritten(u) == Urls.PageUrl(u, n + 1)
    ensures Stuck(NextPageUrlAsWritten(u), n)
  {
    var r := NextPageUrlAsWritten(u);
    AppendKeepsNoQueryPage(u, n + 1);
    assert r == u + r[|u|..];
    assert r[|u|] == '&';
    AppendKeepsFirstMatch(u, r[|u|..]);
  }

  /** The URL after `k` steps as written. */
  function NthUrlAsWritten(u: string, k: nat): string {
    Iterate(NextPageUrlAsWritten, u, k)
  }

  /** `k` applications of `f`, starting from `x`. */
  function Iterate<T>(f: T -> T, x: T, k: nat): T {
    if k == 0 then x else Iterate(f, f(x), k - 1)
  }

  /** What every step preserves, every number of steps preserves. */
  lemma {:induction false} IterateKeeps<T>(f: T -> T, keeps: T -> bool, x: T, k: nat)
    requires keeps(x)
    requires forall y :: keeps(y) ==> keeps(f(y))
    ensures keeps(Iterate(f, x, k))
    decreases k
  {
    if k > 0 {
      IterateKeeps(f, keeps, f(x), k - 1);
    }
  }

  /** From such a URL on, the page number read, and so the one requested next, never moves. */
  lemma AsWrittenSticks(u: string, n: nat, k: nat)
    requires Stuck(u, n)
    ensures Stuck(NthUrlAsWritten(u, k), n)
    ensures NextNumber(NthUrlAsWritten(u, k)) == n + 1
  {
    forall v | Stuck(v, n)
      ensures Stuck(NextPageUrlAsWritten(v), n)
    {
      AsWrittenStepSticks(v, n);
    }
    IterateKeeps(NextPageUrlAsWritten, v => Stuck(v, n), u, k);
  }

  /**
   The concrete case: starting from a category URL with a query, `c?q`, the crawl goes to
   `c?q&page=1`, then `c?q&page=1&page=2`, then `…&page=2&page=2`, and so on: every step
   asks for page 2 again.
   */
  lemma QueryRootSticksAtPageTwo(k: nat)
    requires k >= 1
    ensures NextNumber(NthUrlAsWritten("c?q", k)) == 2
  {
    var u := "c?q";
    assert FindPage(u, 0).None?;
    assert !Contains(u, "?page=");
    assert Contains(u, "?") by {
      assert u[1..] == "?q";
      assert "?" <= u[1..];
    }
    var u1 := NextPageUrlAsWritten(u);
    assert u1 == Urls.PageUrl(u, 1);
    AppendedPageReads(u, 1);
    AppendKeepsNoQueryPage(u, 1);
    assert NthUrlAsWritten(u, k) == NthUrlAsWritten(u1, k - 1);
    AsWrittenSticks(u1, 1, k - 1);
  }
}

=== FILE: crop.dfy ===
/**
 The image-cropping pass (src/crop.js): for every site, its products are taken in batches of
 20; each product with an image asks the cropping service for a processed image unless the
 image map already holds a truthy entry for its normalised URL; answers are stored in the
 map, which is saved after every batch. The service call itself is not modelled: each
 product comes with the response it would get.
 */
module Crop {
  import opened Optional
  import opened Catalog
  import opened Urls
  import opened Batching

  const BatchSize: nat := 20

  /** What the request for one product produced: a thrown error, a body without `imgUrl`, or an `imgUrl` (possibly `null`). */
  datatype ImageResponse = RequestFailed | NoImage | Processed(imgUrl: Option<string>)

  /** A product together with the response its request would get. */
  datatype Entry = Entry(product: Product, response: ImageResponse)

  /** The persisted map from normalised source image URL to processed image URL. */
  type ImageMap = map<string, Option<string>>

  /** `imageMap[imageUrl]` is truthy. */
  predicate Cached(m: ImageMap, key: string) {
    key in m && Truthy(m[key])
  }

  /** The map key of a product with an image: its normalised image URL. */
  function Key(base: string, p: Product): string
    requires Truthy(p.imageUrl)
  {
    FixUrlText(base, p.imageUrl.value)
  }

  /** A request is made for `p`: it has an image, and the map as it stood when the batch began has no truthy entry for it. */
  predicate Requests(base: string, p: Product, start: ImageMap) {
    Truthy(p.imageUrl) && !Cached(start, Key(base, p))
  }

  /** The entry `e` writes under `key`. */
  predicate Writes(base: string, e: Entry, start: ImageMap, key: string) {
    Requests(base, e.product, start) && e.response.Processed? && Key(base, e.product) == key
  }

  /** The entry `e` writes `v` under `key`. */
  predicate Stores(base: string, e: Entry, start: ImageMap, key: string, v: Option<string>) {
    Writes(base, e, start, key) && e.response.imgUrl == v
  }

  /**
   One product's effect. All cache checks of a batch run before any response arrives, so
   the check is against `start`, the map at the beginning of the batch.
   */
  function Apply(base: string, e: Entry, start: ImageMap, m: ImageMap): (r: ImageMap)
    ensures !Truthy(e.product.imageUrl) ==> r == m
    ensures Truthy(e.product.imageUrl) && Cached(start, Key(base, e.product)) ==> r == m
    ensures !e.response.Processed? ==> r == m
    ensures Requests(base, e.product, start) && e.response.Processed? ==>
              r == m[Key(base, e.product) := e.response.imgUrl]
    ensures m.Keys <= r.Keys
    ensures forall k :: k in m && !Writes(base, e, start, k) ==> r[k] == m[k]
    ensures forall k :: k in r && (k !in m || r[k] != m[k]) ==> Stores(base, e, start, k, r[k])
  {
    if Requests(base, e.product, start) && e.response.Processed? then
      m[Key(base, e.product) := e.response.imgUrl]
    else m
  }

  /** The entries `batch[i..]` applied in order to `m`. */
  function ApplyFrom(base: string, batch: seq<Entry>, i: nat, start: ImageMap, m: ImageMap): (r: ImageMap)
    requires i <= |batch|
    ensures m.Keys <= r.Keys
    ensures forall k :: k in m && (forall j :: i <= j < |batch| ==> !Writes(base, batch[j], start, k)) ==>
              r[k] == m[k]
    ensures forall k :: k in r && (k !in m || r[k] != m[k]) ==>
              exists j :: i <= j < |batch| && Stores(base, batch[j], start, k, r[k])
    decreases |batch| - i
  {
    if i == |batch| then m
    else ApplyFrom(base, batch, i + 1, start, Apply(base, batch[i], start, m))
  }

  /** One batch: the map at its start, updated by each of its products' responses. */
  function ApplyBatch(base: string, batch: seq<Entry>, start: ImageMap): (r: ImageMap)
    ensures start.Keys <= r.Keys
    ensures forall k :: Cached(start, k) ==> r[k] == start[k]
    ensures forall k :: k in r && (k !in start || r[k] != start[k]) ==>
              exists j :: 0 <= j < |batch| && Stores(base, batch[j], start, k, r[k])
  {
    ApplyFrom(base, batch, 0, start, start)
  }

  /** The map after some batches, and the snapshot saved after each of them. */
  datatype Progress = Progress(current: ImageMap, saves: seq<ImageMap>)

  /**
   The batches of one site in order. `saveImageMap` at crop.js:61 is not awaited, so the
   snapshots below are what each call is handed; the order in which the writes reach the
   file, and whether they overlap, is not part of this model.
   */
  function ApplyBatches(base: string, batches: seq<seq<Entry>>, m: ImageMap): (r: Progress)
    ensures |r.saves| == |batches|
    ensures |batches| == 0 ==> r.current == m
    ensures |batches| > 0 ==> r.saves[|batches| - 1] == r.current
    ensures |batches| > 0 ==> r.saves[0] == ApplyBatch(base, batches[0], m)
    ensures m.Keys <= r.current.Keys
    ensures forall k :: Cached(m, k) ==> r.current[k] == m[k]
  {
    if |batches| == 0 then Progress(m, [])
    else
      var first := ApplyBatch(base, batches[0], m);
      var rest := ApplyBatches(base, batches[1..], first);
      Progress(rest.current, [first] + rest.saves)
  }

  /** Snapshot `j` is snapshot `j - 1` with batch `j` applied: the batches run strictly in order. */
  lemma {:induction false} ApplyBatchesSnapshots(base: string, batches: seq<seq<Entry>>, m: ImageMap)
    ensures var r := ApplyBatches(base, batches, m);
            forall j :: 0 < j < |r.saves| ==> r.saves[j] == ApplyBatch(base, batches[j], r.saves[j - 1])
    decreases |batches|
  {
    if |batches| > 0 {
      var first := ApplyBatch(base, batches[0], m);
      ApplyBatchesSnapshots(base, batches[1..], first);
      var r, rest := ApplyBatches(base, batches, m), ApplyBatches(base, batches[1..], first);
      assert r.saves == [first] + rest.saves;
      assert var q := ApplyBatches(base, batches[1..], first);
             forall j :: 0 < j < |q.saves| ==> q.saves[j] == ApplyBatch(base, batches[1..][j], q.saves[j - 1]);
      forall j | 1 < j < |r.saves|
        ensures r.saves[j] == ApplyBatch(base, batches[j], r.saves[j - 1])
      {
        var k := j - 1;
        assert r.saves[j] == rest.saves[k] && r.saves[j - 1] == rest.saves[k - 1];
        assert batches[1..][k] == batches[j];
        assert rest.saves[k] == ApplyBatch(base, batches[1..][k], rest.saves[k - 1]);
      }
      if |r.saves| > 1 {
        assert r.saves[1] == rest.saves[0] == ApplyBatch(base, batches[1..][0], first);
      }
    }
  }

  /** Keeping every truthy entry is transitive. */
  lemma CachedKept(a: ImageMap, b: ImageMap, c: ImageMap)
    requires a.Keys <= b.Keys && forall k :: Cached(a, k) ==> b[k] == a[k]
    requires b.Keys <= c.Keys && forall k :: Cached(b, k) ==> c[k] == b[k]
    ensures a.Keys <= c.Keys && forall k :: Cached(a, k) ==> c[k] == a[k]
  {
    forall k | Cached(a, k)
      ensures c[k] == a[k]
    {
      assert Cached(b, k);
    }
  }

  /** What loading a site's products produced. */
  datatype Load = LoadFailed | Loaded(entries: seq<Entry>)

  /** The end state of `main`: the map, every saved snapshot, and whether every site was processed. */
  datatype CropRun = CropRun(current: ImageMap, saves: seq<ImageMap>, completed: bool)

  /**
   One site of `processImages`: its products in batches of `BatchSize`, each batch applied
   and saved in turn. Only what the site loop relies on is stated here; `ApplyBatches` says more.
   */
  function ProcessSite(site: Site, entries: seq<Entry>, m: ImageMap): (r: Progress)
    ensures m.Keys <= r.current.Keys
    ensures forall k :: Cached(m, k) ==> r.current[k] == m[k]
    ensures |r.saves| > 0 ==> r.saves[|r.saves| - 1] == r.current
    ensures |r.saves| == 0 ==> r.current == m
    ensures |r.saves| == 0 <==> |entries| == 0
  {
    ApplyBatches(site.url, Chunks(entries, BatchSize), m)
  }

  /**
   `processImages` over the sites from index `i` on. There is no per-site `try`: a site
   without a db file or whose products cannot be loaded throws out to `main`, which logs
   and ends the pass, keeping what was already saved.
   */
  function ProcessImages(sites: seq<Site>, loads: seq<Load>, i: nat, m: ImageMap): (r: CropRun)
    requires |loads| == |sites| && i <= |sites|
    ensures m.Keys <= r.current.Keys
    ensures forall k :: Cached(m, k) ==> r.current[k] == m[k]
    ensures |r.saves| > 0 ==> r.saves[|r.saves| - 1] == r.current
    ensures |r.saves| == 0 ==> r.current == m
    ensures r.completed <==> forall j :: i <= j < |sites| ==> Truthy(sites[j].dbFile) && loads[j].Loaded?
    ensures i < |sites| && (!Truthy(sites[i].dbFile) || loads[i].LoadFailed?) ==> r == CropRun(m, [], false)
    decreases |sites| - i
  {
    if i == |sites| then CropRun(m, [], true)
    else if !Truthy(sites[i].dbFile) || loads[i].LoadFailed? then CropRun(m, [], false)
    else
      var p := ProcessSite(sites[i], loads[i].entries, m);
      var rest := ProcessImages(sites, loads, i + 1, p.current);
      CachedKept(m, p.current, rest.current);
      var saves := p.saves + rest.saves;
      assert |rest.saves| > 0 ==> saves[|saves| - 1] == rest.saves[|rest.saves| - 1];
      assert |rest.saves| == 0 ==> saves == p.saves;
      assert SiteLoads(sites, loads, i);
      CropRun(rest.current, saves, rest.completed)
  }

  /** Site `j` has a db file and its products load. */
  predicate SiteLoads(sites: seq<Site>, loads: seq<Load>, j: nat)
    requires |loads| == |sites| && j < |sites|
  {
    Truthy(sites[j].dbFile) && loads[j].Loaded?
  }

  /** What processing site `j` does to a map: the new map and the snapshots saved on the way. */
  type SiteEffect = (nat, ImageMap) -> Progress

  /** Sites `i … f - 1` processed one after another, the last one last. */
  function Fold(effect: SiteEffect, i: nat, f: nat, m: ImageMap): (r: Progress)
    requires i <= f
    ensures f == i ==> r == Progress(m, [])
    decreases f - i
  {
    if f == i then Progress(m, [])
    else
      var before := Fold(effect, i, f - 1, m);
      var p := effect(f - 1, before.current);
      Progress(p.current, before.saves + p.saves)
  }

  /** Splitting off the first site instead of the last. */
  lemma {:induction false} FoldFront(effect: SiteEffect, i: nat, f: nat, m: ImageMap)
    requires i < f
    ensures var p := effect(i, m);
            var rest := Fold(effect, i + 1, f, p.current);
            Fold(effect, i, f, m) == Progress(rest.current, p.saves + rest.saves)
    decreases f - i
  {
    var p := effect(i, m);
    if f == i + 1 {
      assert Fold(effect, i, i, m) == Progress(m, []);
      assert [] + p.saves == p.saves + [];
    } else {
      FoldFront(effect, i, f - 1, m);
      var rest' := Fold(effect, i + 1, f - 1, p.current);
      var last := effect(f - 1, rest'.current);
      assert Fold(effect, i, f - 1, m) == Progress(rest'.current, p.saves + rest'.saves);
      assert Fold(effect, i + 1, f, p.current) == Progress(last.current, rest'.saves + last.saves);
      assert (p.saves + rest'.saves) + last.saves == p.saves + (rest'.saves + last.saves);
    }
  }

  /** The batches of site `j`, when it loads. */
  function SiteEffectOf(sites: seq<Site>, loads: seq<Load>): SiteEffect {
    (j: nat, m: ImageMap) =>
      if j < |sites| && j < |loads| && loads[j].Loaded?
      then ProcessSite(sites[j], loads[j].entries, m)
      else Progress(m, [])
  }

  /**
   Sites `i … f - 1`, all of which load, processed one after another: the map after all of
   them, and their snapshots in site order.
   */
  function SitesApplied(sites: seq<Site>, loads: seq<Load>, i: nat, f: nat, m: ImageMap): (r: Progress)
    requires |loads| == |sites| && i <= f <= |sites|
    requires forall j :: i <= j < f ==> SiteLoads(sites, loads, j)
    ensures f == i ==> r == Progress(m, [])
  {
    Fold(SiteEffectOf(sites, loads), i, f, m)
  }

  /** Site `j` may be processed: it exists, has a db file, and its products load. */
  function SiteOkOf(sites: seq<Site>, loads: seq<Load>): nat -> bool {
    (j: nat) => j < |sites| && j < |loads| && Truthy(sites[j].dbFile) && loads[j].Loaded?
  }

  /** The loop of `processImages` from site `i` of `n`, for any per-site effect. */
  function RunSites(effect: SiteEffect, ok: nat -> bool, n: nat, i: nat, m: ImageMap): (r: CropRun)
    requires i <= n
    decreases n - i
  {
    if i == n then CropRun(m, [], true)
    else if !ok(i) then CropRun(m, [], false)
    else
      var p := effect(i, m);
      var rest := RunSites(effect, ok, n, i + 1, p.current);
      CropRun(rest.current, p.saves + rest.saves, rest.completed)
  }

  /** With site `f` the first that is not ok (or the end), the loop is the fold of sites `i … f - 1`. */
  lemma {:induction false} RunSitesIsFold(effect: SiteEffect, ok: nat -> bool, n: nat, i: nat, f: nat, m: ImageMap)
    requires i <= f <= n
    requires forall j :: i <= j < f ==> ok(j)
    requires f == n || !ok(f)
    ensures var r, s := RunSites(effect, ok, n, i, m), Fold(effect, i, f, m);
            r == CropRun(s.current, s.saves, f == n)
    decreases f - i
  {
    if i < f {
      assert ok(i);
      var p := effect(i, m);
      RunSitesIsFold(effect, ok, n, i + 1, f, p.current);
      FoldFront(effect, i, f, m);
    }
  }

  /** `processImages` is that loop, with the batches of each site as its effect. */
  lemma {:induction false} ProcessImagesIsRunSites(sites: seq<Site>, loads: seq<Load>, i: nat, m: ImageMap)
    requires |loads| == |sites| && i <= |sites|
    ensures ProcessImages(sites, loads, i, m) == RunSites(SiteEffectOf(sites, loads), SiteOkOf(sites, loads), |sites|, i, m)
    decreases |sites| - i
  {
    if i < |sites| && Truthy(sites[i].dbFile) && loads[i].Loaded? {
      var p := ProcessSite(sites[i], loads[i].entries, m);
      assert SiteEffectOf(sites, loads)(i, m) == p;
      assert SiteOkOf(sites, loads)(i);
      ProcessImagesIsRunSites(sites, loads, i + 1, p.current);
    } else if i < |sites| {
      assert !SiteOkOf(sites, loads)(i);
    }
  }

  /**
   With site `f` the first from `i` on that has no db file or does not load (or `f` the end),
   `processImages` leaves the map that processing sites `i … f - 1` in order gives, has saved
   exactly their snapshots in order, and completed exactly when no site failed.
   */
  lemma ProcessImagesAppliesSitesUpToFirstFailure(sites: seq<Site>, loads: seq<Load>, i: nat, f: nat, m: ImageMap)
    requires |loads| == |sites| && i <= f <= |sites|
    requires forall j :: i <= j < f ==> SiteLoads(sites, loads, j)
    requires f == |sites| || !SiteLoads(sites, loads, f)
    ensures var r, s := ProcessImages(sites, loads, i, m), SitesApplied(sites, loads, i, f, m);
            r.current == s.current && r.saves == s.saves && (r.completed <==> f == |sites|)
  {
    var ok := SiteOkOf(sites, loads);
    assert forall j :: i <= j < f ==> ok(j) by {
      forall j | i <= j < f ensures ok(j) { assert SiteLoads(sites, loads, j); }
    }
    assert f < |sites| ==> !ok(f);
    ProcessImagesIsRunSites(sites, loads, i, m);
    RunSitesIsFold(SiteEffectOf(sites, loads), ok, |sites|, i, f, m);
  }

  /**
   The batching loop `for (let i = 0; i < products.length; i += 20) products.slice(i, i + 20)`
   produces exactly the slices `Chunks` describes.
   */
  method Batches<T>(products: seq<T>) returns (batches: seq<seq<T>>)
    ensures batches == Chunks(products, BatchSize)
    ensures Flatten(batches) == products
  {
    ChunksShape(products, BatchSize);
    var all := Chunks(products, BatchSize);
    batches := [];
    var i := 0;
    while i < |products|
      invariant i == BatchSize * |batches|
      invariant |batches| <= |all|
      invariant batches == all[..|batches|]
    {
      var batch := products[i..Min(i + BatchSize, |products|)];
      assert batch == all[|batches|];
      batches := batches + [batch];
      i := i + BatchSize;
    }
    assert batches == all;
    ChunksCover(products, BatchSize);
  }
}

=== FILE: driesvannoten.dfy ===
/**
 The driesvannoten.com scraper (scrapers/driesvannoten.com.js): scroll to the bottom every
 tick until the page height has not changed for five ticks, wait for the images, then
 extract every product card, normalising the image URL to a root-relative `_0.jpg` path.
 */
module DriesVanNoten {
  import opened Optional
  import opened Strings
  import opened Catalog
  import opened Stabilize
  import Urls

  const MaxUnchanged: nat := 5

  // ---------------------------------------------------------------- scrolling

  /**
   The interval callback of `autoScroll` from tick `i`: a height equal to `lastHeight`
   counts as same, anything else resets the count and becomes the new `lastHeight`.
   `None` when the heights run out before the promise resolves.
   */
  function HeightLoop(heights: seq<int>, i: nat, lastHeight: int, same: nat): (r: Option<nat>)
    requires i <= |heights|
    ensures r.Some? ==> i <= r.value < |heights|
    decreases |heights| - i
  {
    if i == |heights| then None
    else if heights[i] == lastHeight then
      if same + 1 >= MaxUnchanged then Some(i) else HeightLoop(heights, i + 1, lastHeight, same + 1)
    else HeightLoop(heights, i + 1, heights[i], 0)
  }

  lemma {:induction false} HeightLoopFollowsDetector(heights: seq<int>, i: nat, same: nat)
    requires i <= |heights|
    requires same < MaxUnchanged
    ensures HeightLoop(heights, i, if i == 0 then 0 else heights[i - 1], same)
         == Detect(EqualsPrevious(heights), MaxUnchanged, i, same)
    decreases |heights| - i
  {
    var last := if i == 0 then 0 else heights[i - 1];
    if i < |heights| {
      if heights[i] == last {
        if same + 1 < MaxUnchanged {
          HeightLoopFollowsDetector(heights, i + 1, same + 1);
        }
      } else {
        HeightLoopFollowsDetector(heights, i + 1, 0);
      }
    }
  }

  /**
   Scrolling stops at tick `k` exactly when `k` ends the first run of five ticks each of
   which measured the same height as the tick before (the first tick is compared with 0);
   with no such run it never stops.
   */
  lemma HeightLoopIsDetector(heights: seq<int>)
    ensures forall k :: 0 <= k < |heights| ==>
              (HeightLoop(heights, 0, 0, 0) == Some(k) <==>
               WindowEndsAt(EqualsPrevious(heights), MaxUnchanged, k) &&
               NoWindowBefore(EqualsPrevious(heights), MaxUnchanged, k))
    ensures HeightLoop(heights, 0, 0, 0).None? <==> NoWindowBefore(EqualsPrevious(heights), MaxUnchanged, |heights|)
  {
    HeightLoopFollowsDetector(heights, 0, 0);
    DetectIsFirstWindow(EqualsPrevious(heights), MaxUnchanged);
  }

  // ---------------------------------------------------------------- image URL

  /** The attributes of the last slide's `img`. */
  datatype ImgAttrs = ImgAttrs(dataSrc: Option<string>, src: Option<string>, dataSrcset: Option<string>)

  /** `data-src || src || data-srcset?.split(' ')[0] || null`. */
  function ChosenImage(a: ImgAttrs): (r: Option<string>)
    ensures r.Some? ==> r.value != ""
    ensures Truthy(a.dataSrc) ==> r == a.dataSrc
    ensures !Truthy(a.dataSrc) && Truthy(a.src) ==> r == a.src
    ensures !Truthy(a.dataSrc) && !Truthy(a.src) ==>
              r == (if a.dataSrcset.Some? && FirstToken(a.dataSrcset.value) != "" then Some(FirstToken(a.dataSrcset.value)) else None)
  {
    if Truthy(a.dataSrc) then a.dataSrc
    else if Truthy(a.src) then a.src
    else if a.dataSrcset.Some? && FirstToken(a.dataSrcset.value) != "" then Some(FirstToken(a.dataSrcset.value))
    else None
  }

  /** Length of the maximal run of non-`/` characters from index `i`: what `[^\/]+` takes greedily. */
  function HostRun(s: string, i: nat): (n: nat)
    requires i <= |s|
    ensures i + n <= |s|
    ensures forall j :: i <= j < i + n ==> s[j] != '/'
    ensures i + n == |s| || s[i + n] == '/'
    decreases |s| - i
  {
    if i < |s| && s[i] != '/' then 1 + HostRun(s, i + 1) else 0
  }

  /** `u.replace(/^https?:\/\/[^\/]+/, '')`: drop a leading scheme and host, if there is one. */
  function StripOrigin(u: string): (r: string)
    ensures |r| <= |u| && r == u[|u| - |r|..]
  {
    if "https://" <= u && HostRun(u, 8) > 0 then u[8 + HostRun(u, 8)..]
    else if "http://" <= u && HostRun(u, 7) > 0 then u[7 + HostRun(u, 7)..]
    else u
  }

  /** On `scheme://host` followed by a path (or nothing), the host goes and the path stays. */
  lemma StripOriginOfAbsolute(host: string, path: string)
    requires |host| > 0 && '/' !in host
    requires path == "" || path[0] == '/'
    ensures StripOrigin("https://" + host + path) == path
  {
    var u := "https://" + host + path;
    assert "https://" <= u;
    forall j | 8 <= j < 8 + |host|
      ensures u[j] != '/'
    {
      assert u[j] == host[j - 8];
    }
    if path != "" {
      assert u[8 + |host|] == path[0];
    }
    HostRunUnique(u, 8, |host|);
    assert u[8 + |host|..] == path;
  }

  /** `HostRun` is the one length whose run is free of `/` and ends at a `/` or the end. */
  lemma {:induction false} HostRunUnique(s: string, i: nat, m: nat)
    requires i + m <= |s|
    requires forall j :: i <= j < i + m ==> s[j] != '/'
    requires i + m == |s| || s[i + m] == '/'
    ensures HostRun(s, i) == m
    decreases m
  {
    if m > 0 {
      HostRunUnique(s, i + 1, m - 1);
    }
  }

  /** `_<digits>.jpg` starts at index `p`; `len` is then the length of the match. */
  predicate JpgAt(s: string, p: nat) {
    p < |s| && s[p] == '_' && DigitRun(s, p + 1) > 0 && OccursAt(s, ".jpg", p + 1 + DigitRun(s, p + 1))
  }

  /** The leftmost match of `_\d+\.jpg` at or after `p`. */
  function FirstJpg(s: string, p: nat): (r: Option<nat>)
    ensures r.Some? ==> p <= r.value && JpgAt(s, r.value)
    ensures forall q :: p <= q && (r.None? || q < r.value) ==> !JpgAt(s, q)
    decreases |s| - p
  {
    if p >= |s| then None
    else if JpgAt(s, p) then Some(p)
    else FirstJpg(s, p + 1)
  }

  /** `.replace(/(_\d+)\.jpg/, '_0.jpg')`: the first `_<digits>.jpg` becomes `_0.jpg`. */
  function ReplaceJpg(s: string): (r: string)
    ensures FirstJpg(s, 0).None? ==> r == s
    ensures FirstJpg(s, 0).Some? ==> var p := FirstJpg(s, 0).value;
              p + 6 <= |r| && r[..p] == s[..p] && r[p..p + 6] == "_0.jpg" &&
              p + 5 + DigitRun(s, p + 1) <= |s| && r[p + 6..] == s[p + 5 + DigitRun(s, p + 1)..]
  {
    match FirstJpg(s, 0)
    case None => s
    case Some(p) => s[..p] + "_0.jpg" + s[p + 5 + DigitRun(s, p + 1)..]
  }

  /** Nothing before the first `_` can change, and neither can that `_` itself. */
  lemma ReplaceJpgKeepsHead(s: string, q: nat)
    requires 1 <= q <= |s|
    requires '_' !in s[..q - 1]
    ensures q <= |ReplaceJpg(s)| && ReplaceJpg(s)[..q] == s[..q]
  {
    if FirstJpg(s, 0).Some? {
      var p := FirstJpg(s, 0).value;
      var r := ReplaceJpg(s);
      assert s[p] == '_';
      assert q - 1 <= p by {
        forall t | 0 <= t < q - 1
          ensures s[t] != '_'
        {
          assert s[..q - 1][t] == s[t];
        }
      }
      assert r[p] == '_' by {
        assert r[p] == r[p..p + 6][0];
      }
      assert r[..p + 1] == s[..p + 1] by {
        assert r[..p + 1] == r[..p] + [r[p]];
        assert s[..p + 1] == s[..p] + [s[p]];
      }
      assert r[..q] == r[..p + 1][..q];
      assert s[..q] == s[..p + 1][..q];
    }
  }

  /** Without an `_` there is nothing for `ReplaceJpg` to rewrite. */
  lemma {:induction false} NoUnderscoreNoJpg(s: string, p: nat)
    requires '_' !in s
    ensures FirstJpg(s, p).None?
    decreases |s| - p
  {
    if p < |s| {
      assert s[p] in s;
      NoUnderscoreNoJpg(s, p + 1);
    }
  }

  /**
   Line 48 as written, on a non-empty image URL: protocol-relative gets `https:`,
   root-relative stays, anything else is stripped of scheme and host and prefixed with `/`;
   then the first `_<digits>.jpg` becomes `_0.jpg`.
   */
  function ImageUrlAsWritten(u: string): (r: string)
    ensures "//" <= u ==> r == ReplaceJpg("https:" + u)
    ensures "/" <= u && !("//" <= u) ==> r == ReplaceJpg(u)
    ensures !("/" <= u) ==> r == ReplaceJpg("/" + StripOrigin(u))
  {
    var pre := if "//" <= u then "https:" + u else if "/" <= u then u else "/" + StripOrigin(u);
    ReplaceJpg(pre)
  }

  /**
   The same rule with the evident intent: a stripped absolute URL that already begins
   with `/` is not given a second one.
   */
  function ImageUrl(u: string): (r: string)
    ensures "/" <= u ==> r == ImageUrlAsWritten(u)
    ensures !("/" <= u) ==> r == ReplaceJpg(SlashPrefix(StripOrigin(u)))
  {
    var pre := if "//" <= u then "https:" + u else if "/" <= u then u else SlashPrefix(StripOrigin(u));
    ReplaceJpg(pre)
  }

  /**
   As written, an absolute product image `https://host/path` turns into the
   protocol-relative `//path`: the host is gone and the first path segment will be read
   as the host.
   */
  lemma AbsoluteImageLosesHost(host: string, path: string)
    requires |host| > 0 && '/' !in host
    requires |path| > 0 && path[0] == '/' && '_' !in path
    ensures ImageUrlAsWritten("https://" + host + path) == "/" + path
    ensures "//" <= ImageUrlAsWritten("https://" + host + path)
  {
    var u := "https://" + host + path;
    assert !("/" <= u) by { assert u[0] == 'h'; }
    StripOriginOfAbsolute(host, path);
    SlashedPathKeepsJpg(path);
  }

  /** A path without `_` has no `_<digits>.jpg` to rewrite, with or without a leading `/`. */
  lemma SlashedPathKeepsJpg(path: string)
    requires '_' !in path
    ensures ReplaceJpg("/" + path) == "/" + path
  {
    var pre := "/" + path;
    assert '_' !in pre by {
      forall t | 0 <= t < |pre|
        ensures pre[t] != '_'
      {
        if t > 0 {
          assert pre[t] == path[t - 1];
        }
      }
    }
    NoUnderscoreNoJpg(pre, 0);
  }

  /**
   The concrete case: `https://d.com/a/b.jpg` comes out as `//a/b.jpg`, which the later
   `fixUrl` pass turns into `https://a/b.jpg`, filed under host `a`.
   */
  lemma {:induction false} AbsoluteImageExample(base: string)
    ensures Urls.FixUrlText(base, ImageUrlAsWritten("https://d.com/a/b.jpg")) == "https://a/b.jpg"
  {
    var host, path := "d.com", "/a/b.jpg";
    assert '/' !in host by {
      assert host == ['d', '.', 'c', 'o', 'm'];
    }
    assert '_' !in path by {
      assert path == ['/', 'a', '/', 'b', '.', 'j', 'p', 'g'];
    }
    ExampleSpelling();
    AbsoluteImageLosesHost(host, path);
    var r := "/" + path;
    assert ImageUrlAsWritten("https://d.com/a/b.jpg") == r;
    assert Urls.FixUrlText(base, r) == "https:" + r;
  }

  lemma ExampleSpelling()
    ensures "https://d.com/a/b.jpg" == "https://" + "d.com" + "/a/b.jpg"
    ensures "https:" + ("/" + "/a/b.jpg") == "https://a/b.jpg"
  {
  }

  /**
   With the corrected rule the same URL becomes the root-relative path, which `fixUrl`
   then resolves against the site's own base URL.
   */
  lemma {:induction false} AbsoluteImageKeepsPath(host: string, path: string, base: string)
    requires |host| > 0 && '/' !in host
    requires |path| > 1 && path[0] == '/' && path[1] != '/'
    ensures ImageUrl("https://" + host + path) == ReplaceJpg(path)
    ensures Urls.FixUrlText(base, ImageUrl("https://" + host + path)) == base + ReplaceJpg(path)
  {
    ImageUrlOfAbsolute(host, path);
    var r := ReplaceJpg(path);
    ReplaceJpgKeepsHead(path, 2);
    assert r[0] == r[..2][0] == path[0] && r[1] == r[..2][1] == path[1];
    RootPathJoinsBase(base, r);
  }

  /** An absolute `https://host/path` loses exactly its origin before the `.jpg` rewrite. */
  lemma ImageUrlOfAbsolute(host: string, path: string)
    requires |host| > 0 && '/' !in host
    requires |path| > 1 && path[0] == '/' && path[1] != '/'
    ensures ImageUrl("https://" + host + path) == ReplaceJpg(path)
  {
    var u := "https://" + host + path;
    assert !("/" <= u) by { assert u[0] == 'h'; }
    StripOriginOfAbsolute(host, path);
  }

  /** `fixUrl` puts the base URL in front of a root-relative path. */
  lemma RootPathJoinsBase(base: string, r: string)
    requires 2 <= |r| && r[0] == '/' && r[1] != '/'
    ensures Urls.FixUrlText(base, r) == base + r
  {
    assert "/" <= r && !("//" <= r);
  }

  /**
   Under the corrected rule every non-empty image URL ends up absolute (`https:`) or
   root-relative, so `fixUrl` always resolves it against the right host.
   */
  lemma ImageUrlRootedOrAbsolute(u: string)
    requires u != ""
    ensures "/" <= ImageUrl(u) || "https:" <= ImageUrl(u)
  {
    if "//" <= u {
      var pre := "https:" + u;
      assert pre[..5] == "https";
      ReplaceJpgKeepsHead(pre, 6);
      assert ImageUrl(u)[..6] == pre[..6];
    } else if "/" <= u {
      ReplaceJpgKeepsHead(u, 1);
    } else {
      ReplaceJpgKeepsHead(SlashPrefix(StripOrigin(u)), 1);
    }
  }

  // ---------------------------------------------------------------- extraction

  /**
   What one product card showed. Each read that may fail on its own (`.catch(() => null)`)
   is an `Option`; `image` is `None` when there is no slide, no `img`, or the read failed.
   */
  datatype Tile = Tile(
    title: Option<string>,
    link: Option<string>,
    image: Option<ImgAttrs>,
    price: Option<PriceMatch>,
    sku: Option<string>,
    gender: Option<string>)

  /**
   `extractProductInfo`; `None` in (and so out) when the price read throws, the one read
   without its own `catch`. `correct` selects the corrected image rule.
   */
  function Extract(tile: Option<Tile>, correct: bool): (r: Option<Product>)
    ensures r.Some? <==> tile.Some?
    ensures r.Some? ==> var t := tile.value; var p := r.value;
              && p.link == SlashPath(t.link)
              && p.title == t.title && p.sku == t.sku && p.gender == t.gender && p.id.None?
              && (p.imageUrl.Some? <==> t.image.Some? && ChosenImage(t.image.value).Some?)
              && (p.currency.Some? <==> t.price.Some?)
              && (p.currency == Some("USD") <==> t.price.Some? && t.price.value.symbol == '$')
  {
    match tile
    case None => None
    case Some(t) =>
      var chosen := if t.image.Some? then ChosenImage(t.image.value) else None;
      var image := if chosen.None? then None
                   else if correct then Some(ImageUrl(chosen.value)) else Some(ImageUrlAsWritten(chosen.value));
      var price := if t.price.Some? then Some(Price(t.price.value.amount)) else None;
      var currency := if t.price.Some? then Some(CurrencyOf(t.price.value)) else None;
      Some(Product(None, t.title, SlashPath(t.link), image, price, currency, t.sku, t.gender))
  }

  function ExtractAll(tiles: seq<Option<Tile>>, correct: bool): (r: seq<Product>)
    ensures |r| <= |tiles|
  {
    Somes(seq(|tiles|, i requires 0 <= i < |tiles| => Extract(tiles[i], correct)))
  }

  /** Every card that was read is kept: extraction never drops a card on its own. */
  lemma ExtractAllKeepsEveryCard(tiles: seq<Tile>, correct: bool)
    ensures |ExtractAll(seq(|tiles|, i requires 0 <= i < |tiles| => Some(tiles[i])), correct)| == |tiles|
  {
    var xs := seq(|tiles|, i requires 0 <= i < |tiles| => Some(tiles[i]));
    SomesAllPresent(seq(|xs|, i requires 0 <= i < |xs| => Extract(xs[i], correct)));
  }

  lemma {:induction false} SomesAllPresent<T>(xs: seq<Option<T>>)
    requires forall i :: 0 <= i < |xs| ==> xs[i].Some?
    ensures |Somes(xs)| == |xs|
  {
    if |xs| > 0 {
      SomesAppend(xs[..|xs| - 1], [xs[|xs| - 1]]);
      assert xs[..|xs| - 1] + [xs[|xs| - 1]] == xs;
      SomesAllPresent(xs[..|xs| - 1]);
    }
  }

  // ---------------------------------------------------------------- pages and run

  /**
   One root page: a navigation error, or the heights measured while scrolling, whether the
   images finished loading within the 30-second wait, and the cards.
   */
  datatype Attempt = NavFault | Loaded(heights: seq<int>, imagesReady: bool, tiles: seq<Option<Tile>>)

  /** `goto` then `index`: the image wait timing out throws; heights that never settle never return. */
  function Index(a: Attempt, correct: bool): (r: Outcome<seq<Product>>)
    ensures r.Done? <==> a.Loaded? && HeightLoop(a.heights, 0, 0, 0).Some? && a.imagesReady
    ensures r.Pending? <==> a.Loaded? && HeightLoop(a.heights, 0, 0, 0).None?
    ensures r.Done? ==> r.value == ExtractAll(a.tiles, correct)
  {
    match a
    case NavFault => Failed
    case Loaded(heights, ready, tiles) =>
      if HeightLoop(heights, 0, 0, 0).None? then Pending
      else if !ready then Failed
      else Done(ExtractAll(tiles, correct))
  }

  /** The outcome of each root page, in root order. */
  function Outcomes(attempts: seq<Attempt>, correct: bool): (r: seq<Outcome<seq<Product>>>)
    ensures |r| == |attempts|
    ensures forall i :: 0 <= i < |attempts| ==> r[i] == Index(attempts[i], correct)
  {
    seq(|attempts|, i requires 0 <= i < |attempts| => Index(attempts[i], correct))
  }

  /** `run`: the roots in order on one page, no retry; the first error ends the run before the write. */
  function Run(attempts: seq<Attempt>, correct: bool): (r: Outcome<seq<Product>>)
    ensures r.Done? <==> forall i :: 0 <= i < |attempts| ==> Index(attempts[i], correct).Done?
    ensures r.Failed? <==> exists i :: 0 <= i < |attempts| && Index(attempts[i], correct).Failed? &&
                                      forall j :: 0 <= j < i ==> Index(attempts[j], correct).Done?
    ensures r.Done? ==> r.value == Flatten(DoneValues(Outcomes(attempts, correct)))
  {
    RunRoots(Outcomes(attempts, correct))
  }

  /** The cards of each root page (none for a page that failed to load). */
  function Cards(attempts: seq<Attempt>): (r: seq<seq<Option<Tile>>>)
    ensures |r| == |attempts|
    ensures forall i :: 0 <= i < |attempts| ==> r[i] == if attempts[i].Loaded? then attempts[i].tiles else []
  {
    seq(|attempts|, i requires 0 <= i < |attempts| => if attempts[i].Loaded? then attempts[i].tiles else [])
  }

  /** A finished run holds at most one product per card seen. */
  lemma RunBoundedByCards(attempts: seq<Attempt>, correct: bool)
    ensures Run(attempts, correct).Done? ==> |Run(attempts, correct).value| <= SumLengths(Cards(attempts))
  {
    var outs := Outcomes(attempts, correct);
    var done := DoneValues(outs);
    var cards := Cards(attempts);
    forall i | 0 <= i < |attempts|
      ensures |done[i]| <= |cards[i]|
    {
      if outs[i].Done? {
        assert done[i] == ExtractAll(attempts[i].tiles, correct);
      }
    }
    SumLengthsMono(done, cards);
  }
}

=== FILE: embeddings.dfy ===
/**
 The indexing script py-scripts/generate_embeddings.py, without the embedding model and the
 vector store: how items are batched, which items end up stored with which image embedding
 and id, and which sites are processed. Fetching an image and embedding it are parameters.
 */
module Embeddings {
  import opened Optional
  import opened Strings
  import opened Catalog
  import opened Urls
  import opened Batching

  const BatchSize: nat := 32

  /** `item_hash`: a digest of the normalised link only (`sha256(json.dumps(...))`, passed in as `digest`). */
  function ItemHash(domain: string, digest: Option<string> -> string, item: Product): string
  {
    digest(FixUrl(domain, item.link))
  }

  /** Image URL, sku and every other field have no say in the id; relative and absolute links agree. */
  lemma ItemHashDependsOnLinkOnly(domain: string, digest: Option<string> -> string, a: Product, b: Product)
    requires !("/" <= domain)
    requires FixUrl(domain, a.link) == FixUrl(domain, FixUrl(domain, b.link))
    ensures ItemHash(domain, digest, a) == ItemHash(domain, digest, b)
  {
    FixUrlIdempotent(domain, b.link);
  }

  /** The arguments of one `collection.add` call. */
  datatype Add<E> = Add(embeddings: seq<E>, metadatas: seq<Product>, ids: seq<string>)

  /** The successfully loaded images of `items`, in order (`[img for img in images if img is not None]`). */
  function LoadedImages<I>(domain: string, fetch: Option<string> -> Option<I>, items: seq<Product>): (r: seq<I>)
    ensures |r| <= |items|
  {
    Somes(seq(|items|, i requires 0 <= i < |items| => fetch(FixUrl(domain, items[i].imageUrl))))
  }

  /**
   `process_items` as written: the embeddings of the loaded images are zipped with the
   items by position, so `valid_items` is the first `len(embeddings)` items, whichever
   images failed.
   */
  function ProcessItemsAsWritten<I, E>(domain: string, fetch: Option<string> -> Option<I>, embed: I -> E,
                                       digest: Option<string> -> string, items: seq<Product>): (r: Add<E>)
    ensures |r.metadatas| == |r.ids| == |r.embeddings| == |LoadedImages(domain, fetch, items)| <= |items|
    ensures r.metadatas == items[..|r.metadatas|]
    ensures forall k :: 0 <= k < |r.embeddings| ==> r.embeddings[k] == embed(LoadedImages(domain, fetch, items)[k])
    ensures forall k :: 0 <= k < |r.ids| ==> r.ids[k] == ItemHash(domain, digest, items[k])
  {
    var images := LoadedImages(domain, fetch, items);
    var embeddings := seq(|images|, k requires 0 <= k < |images| => embed(images[k]));
    var valid := items[..|embeddings|];
    Add(embeddings, valid, seq(|valid|, k requires 0 <= k < |valid| => ItemHash(domain, digest, valid[k])))
  }

  /**
   The misalignment, exhibited: two items, the first one's image fails to load. The first
   item is stored with the second item's embedding, and the second item is not stored.
   */
  lemma ProcessItemsAsWrittenMisaligns<I, E>(domain: string, fetch: Option<string> -> Option<I>, embed: I -> E,
                                             digest: Option<string> -> string, a: Product, b: Product, img: I)
    requires fetch(FixUrl(domain, a.imageUrl)) == None
    requires fetch(FixUrl(domain, b.imageUrl)) == Some(img)
    ensures ProcessItemsAsWritten(domain, fetch, embed, digest, [a, b]).metadatas == [a]
    ensures ProcessItemsAsWritten(domain, fetch, embed, digest, [a, b]).embeddings == [embed(img)]
  {
    var items := [a, b];
    var opts := seq(|items|, i requires 0 <= i < |items| => fetch(FixUrl(domain, items[i].imageUrl)));
    assert opts == [None] + [Some(img)];
    SomesAppend([None], [Some(img)]);
    assert Somes([Some(img)]) == [img];
  }

  /** The image of `item` loads. */
  predicate Loads<I>(domain: string, fetch: Option<string> -> Option<I>, item: Product) {
    fetch(FixUrl(domain, item.imageUrl)).Some?
  }

  /** An item whose image loaded, stored with the embedding of its own image. */
  datatype Stored<E> = Stored(item: Product, embedding: E, id: string)

  /** `s` is `item`, stored with the embedding of its own image and with its own id. */
  ghost predicate StoredFrom<I, E>(domain: string, fetch: Option<string> -> Option<I>, embed: I -> E,
                             digest: Option<string> -> string, s: Stored<E>, item: Product)
  {
    && s.item == item
    && fetch(FixUrl(domain, item.imageUrl)).Some?
    && s.embedding == embed(fetch(FixUrl(domain, item.imageUrl)).value)
    && s.id == ItemHash(domain, digest, item)
  }

  /**
   `process_items` as evidently intended: keep exactly the items whose image loaded, each
   paired with the embedding of that image and with its id.
   */
  function ProcessItems<I, E>(domain: string, fetch: Option<string> -> Option<I>, embed: I -> E,
                              digest: Option<string> -> string, items: seq<Product>): (r: seq<Stored<E>>)
    ensures |r| <= |items|
    ensures |items| == 1 ==> (r == [] <==> fetch(FixUrl(domain, items[0].imageUrl)).None?)
  {
    if |items| == 0 then []
    else
      var here := match fetch(FixUrl(domain, items[0].imageUrl))
        case None => []
        case Some(img) => [Stored(items[0], embed(img), ItemHash(domain, digest, items[0]))];
      here + ProcessItems(domain, fetch, embed, digest, items[1..])
  }

  ghost predicate AllStoredFrom<I, E>(domain: string, fetch: Option<string> -> Option<I>, embed: I -> E,
                                      digest: Option<string> -> string, r: seq<Stored<E>>, items: seq<Product>)
  {
    forall k :: 0 <= k < |r| ==> exists j :: 0 <= j < |items| && StoredFrom(domain, fetch, embed, digest, r[k], items[j])
  }

  /** Every stored entry is some input item with the embedding of its own image. */
  lemma {:induction false} ProcessItemsPairsOwnImage<I, E>(domain: string, fetch: Option<string> -> Option<I>, embed: I -> E,
                                                           digest: Option<string> -> string, items: seq<Product>)
    ensures AllStoredFrom(domain, fetch, embed, digest, ProcessItems(domain, fetch, embed, digest, items), items)
    decreases |items|
  {
    if |items| > 0 {
      var r := ProcessItems(domain, fetch, embed, digest, items);
      var rest := ProcessItems(domain, fetch, embed, digest, items[1..]);
      ProcessItemsPairsOwnImage(domain, fetch, embed, digest, items[1..]);
      var h := |r| - |rest|;
      forall k | 0 <= k < |r|
        ensures exists j :: 0 <= j < |items| && StoredFrom(domain, fetch, embed, digest, r[k], items[j])
      {
        if k < h {
          assert StoredFrom(domain, fetch, embed, digest, r[k], items[0]);
        } else {
          assert r[k] == rest[k - h];
          assert 0 <= k - h < |rest|;
          var j :| 0 <= j < |items[1..]| && StoredFrom(domain, fetch, embed, digest, rest[k - h], items[1..][j]);
          assert StoredFrom(domain, fetch, embed, digest, r[k], items[j + 1]);
        }
      }
    }
  }

  /** An item is stored exactly when its image loads; none is lost and the order is kept. */
  lemma {:induction false} ProcessItemsAppend<I, E>(domain: string, fetch: Option<string> -> Option<I>, embed: I -> E,
                                                    digest: Option<string> -> string, xs: seq<Product>, ys: seq<Product>)
    ensures ProcessItems(domain, fetch, embed, digest, xs + ys)
         == ProcessItems(domain, fetch, embed, digest, xs) + ProcessItems(domain, fetch, embed, digest, ys)
    decreases |xs|
  {
    if |xs| == 0 {
      assert xs + ys == ys;
    } else {
      assert (xs + ys)[1..] == xs[1..] + ys;
      assert (xs + ys)[0] == xs[0];
      ProcessItemsAppend(domain, fetch, embed, digest, xs[1..], ys);
    }
  }

  /** The `collection.add` arguments built from the stored items: ids and metadatas have equal length. */
  function ToAdd<E>(stored: seq<Stored<E>>): (r: Add<E>)
    ensures |r.embeddings| == |r.metadatas| == |r.ids| == |stored|
    ensures forall k :: 0 <= k < |stored| ==>
              r.metadatas[k] == stored[k].item && r.embeddings[k] == stored[k].embedding && r.ids[k] == stored[k].id
  {
    Add(seq(|stored|, k requires 0 <= k < |stored| => stored[k].embedding),
        seq(|stored|, k requires 0 <= k < |stored| => stored[k].item),
        seq(|stored|, k requires 0 <= k < |stored| => stored[k].id))
  }

  /**
   The batch loop of `run`: `while i*32 < len(data)`, slice `data[i*32:(i+1)*32]`, report
   `i*32 + len(batch)`. It yields `Chunks(data, 32)`, `ceil(n/32)` batches, and the reported
   count after batch `i` is `min((i+1)*32, n)`.
   */
  method RunBatches<T>(data: seq<T>) returns (batches: seq<seq<T>>, reported: seq<nat>)
    ensures batches == Chunks(data, BatchSize)
    ensures |batches| == (|data| + BatchSize - 1) / BatchSize
    ensures |reported| == |batches|
    ensures forall k :: 0 <= k < |reported| ==> reported[k] == Min((k + 1) * BatchSize, |data|)
  {
    ChunkCount(data, BatchSize);
    ChunkCountCeil(data, BatchSize);
    var all := Chunks(data, BatchSize);
    batches := [];
    reported := [];
    var i := 0;
    while i * BatchSize < |data|
      invariant i == |batches| == |reported|
      invariant i <= |all|
      invariant batches == all[..i]
      invariant forall k :: 0 <= k < i ==> reported[k] == Min((k + 1) * BatchSize, |data|)
    {
      ChunkAt(data, BatchSize, i);
      var batch := data[i * BatchSize..Min((i + 1) * BatchSize, |data|)];
      assert batch == all[i];
      batches := batches + [batch];
      reported := reported + [i * BatchSize + |batch|];
      i := i + 1;
    }
    assert i == |all|;
    assert batches == all;
  }

  /** When every image loads, each item is stored with its own image's embedding and id, in order. */
  lemma {:induction false} ProcessItemsEveryImageLoads<I, E>(domain: string, fetch: Option<string> -> Option<I>, embed: I -> E,
                                                             digest: Option<string> -> string, items: seq<Product>)
    requires forall i :: 0 <= i < |items| ==> Loads(domain, fetch, items[i])
    ensures |ProcessItems(domain, fetch, embed, digest, items)| == |items|
    ensures forall k :: 0 <= k < |items| ==>
              && Loads(domain, fetch, items[k])
              && ProcessItems(domain, fetch, embed, digest, items)[k]
                == Stored(items[k], embed(fetch(FixUrl(domain, items[k].imageUrl)).value), ItemHash(domain, digest, items[k]))
    decreases |items|
  {
    if |items| > 0 {
      var r := ProcessItems(domain, fetch, embed, digest, items);
      var rest := ProcessItems(domain, fetch, embed, digest, items[1..]);
      ProcessItemsEveryImageLoads(domain, fetch, embed, digest, items[1..]);
      assert Loads(domain, fetch, items[0]);
      assert r == [r[0]] + rest;
      forall k | 0 < k < |items|
        ensures Loads(domain, fetch, items[k])
        ensures r[k] == Stored(items[k], embed(fetch(FixUrl(domain, items[k].imageUrl)).value), ItemHash(domain, digest, items[k]))
      {
        assert r[k] == rest[k - 1];
        assert items[1..][k - 1] == items[k];
      }
    }
  }

  /**
   Where no image fails, the code as written and the intended rule store the same thing:
   the misalignment needs a failed image.
   */
  lemma AsWrittenIsIntendedWhenEveryImageLoads<I, E>(domain: string, fetch: Option<string> -> Option<I>, embed: I -> E,
                                                     digest: Option<string> -> string, items: seq<Product>)
    requires forall i :: 0 <= i < |items| ==> Loads(domain, fetch, items[i])
    ensures ProcessItemsAsWritten(domain, fetch, embed, digest, items) == ToAdd(ProcessItems(domain, fetch, embed, digest, items))
  {
    var opts := seq(|items|, i requires 0 <= i < |items| => fetch(FixUrl(domain, items[i].imageUrl)));
    SomesOfPresent(opts);
    ProcessItemsEveryImageLoads(domain, fetch, embed, digest, items);
    var w := ProcessItemsAsWritten(domain, fetch, embed, digest, items);
    var s := ToAdd(ProcessItems(domain, fetch, embed, digest, items));
    assert |w.metadatas| == |items|;
    assert w.metadatas == s.metadatas;
    assert w.embeddings == s.embeddings;
    assert w.ids == s.ids;
  }

  /**
   `run(name, domain, data)` as written: one `collection.add` per batch of 32, each built by
   `process_items` as written, so a batch stores its first `len(embeddings)` items.
   */
  function RunAsWritten<I, E>(domain: string, fetch: Option<string> -> Option<I>, embed: I -> E,
                              digest: Option<string> -> string, data: seq<Product>): (r: seq<Add<E>>)
    ensures |r| == |Chunks(data, BatchSize)|
    ensures forall k :: 0 <= k < |r| ==>
              && |r[k].metadatas| == |LoadedImages(domain, fetch, Chunks(data, BatchSize)[k])|
              && r[k].metadatas == Chunks(data, BatchSize)[k][..|r[k].metadatas|]
  {
    var batches := Chunks(data, BatchSize);
    seq(|batches|, k requires 0 <= k < |batches| => ProcessItemsAsWritten(domain, fetch, embed, digest, batches[k]))
  }

  /** When every image loads, each batch's `collection.add` as written is the intended one. */
  lemma RunAsWrittenIsIntendedWhenEveryImageLoads<I, E>(domain: string, fetch: Option<string> -> Option<I>, embed: I -> E,
                                                        digest: Option<string> -> string, data: seq<Product>)
    requires forall i :: 0 <= i < |data| ==> Loads(domain, fetch, data[i])
    ensures forall k :: 0 <= k < |Chunks(data, BatchSize)| ==>
              RunAsWritten(domain, fetch, embed, digest, data)[k] == ToAdd(Run(domain, fetch, embed, digest, data)[k])
  {
    var batches := Chunks(data, BatchSize);
    forall k | 0 <= k < |batches|
      ensures RunAsWritten(domain, fetch, embed, digest, data)[k] == ToAdd(Run(domain, fetch, embed, digest, data)[k])
    {
      ChunksShape(data, BatchSize);
      var lo := k * BatchSize;
      var hi := Min(lo + BatchSize, |data|);
      assert batches[k] == data[lo..hi];
      forall i | 0 <= i < |batches[k]|
        ensures Loads(domain, fetch, batches[k][i])
      {
        assert batches[k][i] == data[lo + i];
      }
      AsWrittenIsIntendedWhenEveryImageLoads(domain, fetch, embed, digest, batches[k]);
    }
  }

  /**
   `run(name, domain, data)` with the intended `process_items`: one `collection.add` per
   batch, each storing exactly the batch's items whose image loaded.
   */
  function Run<I, E>(domain: string, fetch: Option<string> -> Option<I>, embed: I -> E,
                     digest: Option<string> -> string, data: seq<Product>): (r: seq<seq<Stored<E>>>)
    ensures |r| == |Chunks(data, BatchSize)|
  {
    var batches := Chunks(data, BatchSize);
    seq(|batches|, k requires 0 <= k < |batches| => ProcessItems(domain, fetch, embed, digest, batches[k]))
  }

  /**
   With the intended `process_items`: over all batches, exactly the items whose image loads
   are stored, in order, as if processed in one go.
   */
  lemma RunStoresEveryLoadedItem<I, E>(domain: string, fetch: Option<string> -> Option<I>, embed: I -> E,
                                       digest: Option<string> -> string, data: seq<Product>)
    ensures Flatten(Run(domain, fetch, embed, digest, data)) == ProcessItems(domain, fetch, embed, digest, data)
  {
    ChunksCover(data, BatchSize);
    FlattenMap(domain, fetch, embed, digest, Chunks(data, BatchSize));
  }

  lemma {:induction false} FlattenMap<I, E>(domain: string, fetch: Option<string> -> Option<I>, embed: I -> E,
                                            digest: Option<string> -> string, batches: seq<seq<Product>>)
    ensures Flatten(seq(|batches|, k requires 0 <= k < |batches| => ProcessItems(domain, fetch, embed, digest, batches[k])))
         == ProcessItems(domain, fetch, embed, digest, Flatten(batches))
    decreases |batches|
  {
    var mapped := seq(|batches|, k requires 0 <= k < |batches| => ProcessItems(domain, fetch, embed, digest, batches[k]));
    if |batches| == 0 {
      assert Flatten(batches) == [];
    } else {
      var tail := seq(|batches| - 1, k requires 0 <= k < |batches| - 1 => ProcessItems(domain, fetch, embed, digest, batches[1..][k]));
      assert mapped[1..] == tail;
      FlattenMap(domain, fetch, embed, digest, batches[1..]);
      ProcessItemsAppend(domain, fetch, embed, digest, batches[0], Flatten(batches[1..]));
    }
  }

  /** One call `asyncio.run(run(name, domain, data))`: the site's name, URL and parsed catalog. */
  type Call = (string, string, seq<Product>)

  /** The call the loop makes for a site whose db file was read as `data`. */
  function CallOf(s: Site, dbFile: string, data: seq<Product>): (r: Call)
    ensures r.0 == s.name && r.1 == s.url && r.2 == data
  {
    (s.name, s.url, data)
  }

  /**
   What `process_sites` did: the `run` calls it made, in order, and whether the last one
   raised. Only the read of the db file is inside the `try`; the call to `run` is not, so
   an exception from it (a failing `collection.add`, say) leaves `process_sites`.
   */
  datatype SitesPass = SitesPass(calls: seq<Call>, raised: bool)

  /**
   `process_sites`: a site whose db file cannot be read is skipped; every other site gets
   one `run` call, and the first call that raises ends the loop. `finishes` says which
   calls return normally.
   */
  function ProcessSites(sites: seq<Site>, read: string -> Option<seq<Product>>, finishes: Call -> bool): (r: SitesPass)
    ensures |r.calls| <= |sites|
    ensures forall k :: 0 <= k < |r.calls| - 1 ==> finishes(r.calls[k])
    ensures r.raised <==> |r.calls| > 0 && !finishes(r.calls[|r.calls| - 1])
    decreases |sites|
  {
    if |sites| == 0 then SitesPass([], false)
    else
      var rest := ProcessSites(sites[1..], read, finishes);
      if Skipped(sites[0], read) then
        rest
      else
        var c := CallOf(sites[0], sites[0].dbFile.value, read(sites[0].dbFile.value).value);
        if !finishes(c) then SitesPass([c], true)
        else SitesPass([c] + rest.calls, rest.raised)
  }

  /**
   The calls are those of the readable sites in site order: all of them when no call
   raised, and up to the raising one when one did.
   */
  lemma {:induction false} ProcessSitesCallsReadableSites(sites: seq<Site>, read: string -> Option<seq<Product>>,
                                                         finishes: Call -> bool)
    ensures ProcessSites(sites, read, finishes).calls <= ForEachReadableSite(sites, read, CallOf)
    ensures !ProcessSites(sites, read, finishes).raised ==>
              ProcessSites(sites, read, finishes).calls == ForEachReadableSite(sites, read, CallOf)
    decreases |sites|
  {
    if |sites| > 0 {
      ProcessSitesCallsReadableSites(sites[1..], read, finishes);
      var r, rest := ProcessSites(sites, read, finishes), ProcessSites(sites[1..], read, finishes);
      var tail := ForEachReadableSite(sites[1..], read, CallOf);
      if !Skipped(sites[0], read) {
        var c := CallOf(sites[0], sites[0].dbFile.value, read(sites[0].dbFile.value).value);
        assert ForEachReadableSite(sites, read, CallOf) == [c] + tail;
        assert r.calls == [c] || r.calls == [c] + rest.calls;
        assert rest.calls == tail[..|rest.calls|];
      } else {
        assert ForEachReadableSite(sites, read, CallOf) == tail;
      }
    }
  }

  /** One site of the loop in front of the pass over the later sites. */
  function SiteStep(s: Site, read: string -> Option<seq<Product>>, finishes: Call -> bool, rest: SitesPass): (r: SitesPass)
    ensures Skipped(s, read) ==> r == rest
    ensures !Skipped(s, read) ==> |r.calls| > 0 && r.calls[0] == CallOf(s, s.dbFile.value, read(s.dbFile.value).value)
  {
    if Skipped(s, read) then rest
    else
      var c := CallOf(s, s.dbFile.value, read(s.dbFile.value).value);
      if !finishes(c) then SitesPass([c], true) else SitesPass([c] + rest.calls, rest.raised)
  }

  /** The first site, then the rest. */
  lemma ProcessSitesFront(sites: seq<Site>, read: string -> Option<seq<Product>>, finishes: Call -> bool)
    requires |sites| > 0
    ensures ProcessSites(sites, read, finishes) == SiteStep(sites[0], read, finishes, ProcessSites(sites[1..], read, finishes))
  {
  }

  /** Passes put one after the other, the second only when the first did not raise. */
  function Then(x: SitesPass, y: SitesPass): SitesPass {
    if x.raised then x else SitesPass(x.calls + y.calls, y.raised)
  }

  /** A step in front distributes over `Then`. */
  lemma SiteStepThen(s: Site, read: string -> Option<seq<Product>>, finishes: Call -> bool, x: SitesPass, y: SitesPass)
    ensures SiteStep(s, read, finishes, Then(x, y)) == Then(SiteStep(s, read, finishes, x), y)
  {
    if !Skipped(s, read) && !x.raised {
      var c := CallOf(s, s.dbFile.value, read(s.dbFile.value).value);
      assert [c] + (x.calls + y.calls) == ([c] + x.calls) + y.calls;
    }
  }

  /**
   The pass over `a + b` is the pass over `a`, then, unless a call in `a` raised, the pass
   over `b`: an unreadable db file skips only its own site, a raising `run` ends the loop.
   */
  lemma {:induction false} ProcessSitesAppend(a: seq<Site>, b: seq<Site>, read: string -> Option<seq<Product>>,
                                              finishes: Call -> bool)
    ensures ProcessSites(a + b, read, finishes) == Then(ProcessSites(a, read, finishes), ProcessSites(b, read, finishes))
    decreases |a|
  {
    if |a| == 0 {
      assert a + b == b;
    } else {
      var ab := a + b;
      assert ab[0] == a[0];
      assert ab[1..] == a[1..] + b;
      ProcessSitesAppend(a[1..], b, read, finishes);
      ProcessSitesFront(ab, read, finishes);
      ProcessSitesFront(a, read, finishes);
      SiteStepThen(a[0], read, finishes, ProcessSites(a[1..], read, finishes), ProcessSites(b, read, finishes));
    }
  }

  /** The name matches the requested one, ignoring (ASCII) case. */
  predicate NameMatches(site: Site, target: string) {
    Lower(site.name) == Lower(target)
  }

  /** `sites[i]` is the first site whose name matches. */
  predicate FirstMatch(sites: seq<Site>, target: string, i: nat)
    requires i < |sites|
  {
    NameMatches(sites[i], target) && forall j :: 0 <= j < i ==> !NameMatches(sites[j], target)
  }

  /** `process_single_site`: only the first site whose name matches, and nothing when none does. */
  function ProcessSingleSite(sites: seq<Site>, read: string -> Option<seq<Product>>, finishes: Call -> bool,
                             target: string): (r: SitesPass)
    ensures (forall i :: 0 <= i < |sites| ==> !NameMatches(sites[i], target)) ==> r == SitesPass([], false)
    ensures forall i :: 0 <= i < |sites| && FirstMatch(sites, target, i) ==> r == ProcessSites([sites[i]], read, finishes)
  {
    if |sites| == 0 then SitesPass([], false)
    else if NameMatches(sites[0], target) then ProcessSites([sites[0]], read, finishes)
    else
      var r := ProcessSingleSite(sites[1..], read, finishes, target);
      assert forall i :: 1 <= i < |sites| ==> sites[1..][i - 1] == sites[i];
      r
  }
}

=== FILE: fixdb.dfy ===
/**
 The `fixDb` repair pass (src/fixdb.js): for every site with a readable db file, normalise
 each record's link and imageUrl against the site URL and recompute its id from the
 normalised values; the db file is then overwritten with exactly the rewritten list.
 */
module FixDb {
  import opened Optional
  import opened Catalog
  import opened Urls

  /** The `{...item, id, link, imageUrl}` rewrite of one record. */
  function FixItem(base: string, hash: HashFn, item: Product): (r: Product)
    ensures r.link == FixUrl(base, item.link) && r.imageUrl == FixUrl(base, item.imageUrl)
    ensures r.id == Some(hash([r.link, r.imageUrl, item.sku]))
    ensures r.title == item.title && r.price == item.price && r.currency == item.currency
    ensures r.sku == item.sku && r.gender == item.gender
  {
    var link := FixUrl(base, item.link);
    var imageUrl := FixUrl(base, item.imageUrl);
    item.(id := Some(hash([link, imageUrl, item.sku])), link := link, imageUrl := imageUrl)
  }

  /** `dbData.map(...)`: same length, same order, each record rewritten on its own. */
  function FixAll(base: string, hash: HashFn, items: seq<Product>): (r: seq<Product>)
    ensures |r| == |items|
    ensures forall i :: 0 <= i < |items| ==> r[i] == FixItem(base, hash, items[i])
  {
    seq(|items|, i requires 0 <= i < |items| => FixItem(base, hash, items[i]))
  }

  /** Running the repair twice changes nothing more than running it once. */
  lemma FixItemIdempotent(base: string, hash: HashFn, item: Product)
    requires !("/" <= base)
    ensures FixItem(base, hash, FixItem(base, hash, item)) == FixItem(base, hash, item)
  {
    FixUrlIdempotent(base, item.link);
    FixUrlIdempotent(base, item.imageUrl);
  }

  lemma FixAllIdempotent(base: string, hash: HashFn, items: seq<Product>)
    requires !("/" <= base)
    ensures FixAll(base, hash, FixAll(base, hash, items)) == FixAll(base, hash, items)
  {
    forall i | 0 <= i < |items| {
      FixItemIdempotent(base, hash, items[i]);
    }
  }

  /**
   A record stored with relative URLs and the same record stored with the URLs already
   normalised receive the same id (and the same record) from the repair.
   */
  lemma SameIdForEquivalentForms(base: string, hash: HashFn, a: Product, b: Product)
    requires !("/" <= base)
    requires b.link == FixUrl(base, a.link) && b.imageUrl == FixUrl(base, a.imageUrl)
    requires b.sku == a.sku
    ensures FixItem(base, hash, b).id == FixItem(base, hash, a).id
  {
    FixUrlIdempotent(base, a.link);
    FixUrlIdempotent(base, a.imageUrl);
  }

  /** "The stored catalog becomes exactly this list." */
  datatype Write = Write(dbFile: string, items: seq<Product>)

  /** The whole pass: one write per site that has a readable db file, in site-index order. */
  function Run(sites: seq<Site>, read: string -> Option<seq<Product>>, hash: HashFn): (r: seq<Write>)
    ensures |r| <= |sites|
    ensures |sites| == 1 && Skipped(sites[0], read) ==> r == []
    ensures |sites| == 1 && !Skipped(sites[0], read) ==>
              var items := read(sites[0].dbFile.value).value;
              r == [Write(sites[0].dbFile.value, FixAll(sites[0].url, hash, items))]
  {
    ForEachReadableSite(sites, read, (s: Site, f: string, items: seq<Product>) => Write(f, FixAll(s.url, hash, items)))
  }

  /** An unreadable or missing db file skips that site only: the pass over `a + b` is the pass over `a`, then `b`. */
  lemma RunAppend(a: seq<Site>, b: seq<Site>, read: string -> Option<seq<Product>>, hash: HashFn)
    ensures Run(a + b, read, hash) == Run(a, read, hash) + Run(b, read, hash)
  {
    ForEachReadableSiteAppend(a, b, read, (s: Site, f: string, items: seq<Product>) => Write(f, FixAll(s.url, hash, items)));
  }
}

=== FILE: fixids.dfy ===
/**
 The `fixIds` repair pass (src/fixids.js): recompute every record's id from its stored,
 un-normalised link, imageUrl and sku, leaving every other field as it is.
 */
module FixIds {
  import opened Optional
  import opened Catalog
  import FixDb

  /** `{...item, id: hashFn(item.link, item.imageUrl, item.sku)}`. */
  function FixItem(hash: HashFn, item: Product): (r: Product)
    ensures r.id == Some(hash([item.link, item.imageUrl, item.sku]))
    ensures r.(id := item.id) == item
  {
    item.(id := Some(hash([item.link, item.imageUrl, item.sku])))
  }

  /** The three fields the id is computed from agree. */
  predicate SameKey(a: Product, b: Product) {
    a.link == b.link && a.imageUrl == b.imageUrl && a.sku == b.sku
  }

  /**
   Same length and order; only ids change; and ids are a function of
   `(link, imageUrl, sku)`: records that agree on those three get equal ids.
   */
  function FixAll(hash: HashFn, items: seq<Product>): (r: seq<Product>)
    ensures |r| == |items|
    ensures forall i :: 0 <= i < |items| ==> r[i].(id := items[i].id) == items[i]
    ensures forall i, j :: 0 <= i < |items| && 0 <= j < |items| && SameKey(items[i], items[j]) ==>
              r[i].id == r[j].id
  {
    seq(|items|, i requires 0 <= i < |items| => FixItem(hash, items[i]))
  }

  /** One write per site that has a readable db file, in site-index order. */
  function Run(sites: seq<Site>, read: string -> Option<seq<Product>>, hash: HashFn): (r: seq<FixDb.Write>)
    ensures |r| <= |sites|
    ensures |sites| == 1 && Skipped(sites[0], read) ==> r == []
    ensures |sites| == 1 && !Skipped(sites[0], read) ==>
              var items := read(sites[0].dbFile.value).value;
              r == [FixDb.Write(sites[0].dbFile.value, FixAll(hash, items))]
  {
    ForEachReadableSite(sites, read, (s: Site, f: string, items: seq<Product>) => FixDb.Write(f, FixAll(hash, items)))
  }

  /** A read failure on one site does not stop the others. */
  lemma RunAppend(a: seq<Site>, b: seq<Site>, read: string -> Option<seq<Product>>, hash: HashFn)
    ensures Run(a + b, read, hash) == Run(a, read, hash) + Run(b, read, hash)
  {
    ForEachReadableSiteAppend(a, b, read, (s: Site, f: string, items: seq<Product>) => FixDb.Write(f, FixAll(hash, items)));
  }

  /**
   After `fixDb`, `fixIds` assigns the same ids `fixDb` did: both hash the same triple once
   the URLs are normalised.
   */
  lemma AgreesWithFixDbAfterwards(base: string, hash: HashFn, item: Product)
    ensures FixItem(hash, FixDb.FixItem(base, hash, item)) == FixDb.FixItem(base, hash, item)
  {
  }
}

=== FILE: jilsander.dfy ===
/**
 The jilsander.com scraper (scrapers/scroll/jilsander.com.js): read every `.product-tile`
 on the page, click "View More" while the button is there and enabled, and finally resolve
 links and image URLs against the root URL's origin.
 */
module JilSander {
  import opened Optional
  import opened Strings
  import opened Catalog

  // ---------------------------------------------------------------- tiles

  /** The `.pdp-link .link a` anchor: its text and its `href` attribute. */
  datatype Anchor = Anchor(text: string, href: Option<string>)

  /**
   One `.product-tile` as the in-page mapping sees it. A missing element is `None`; for the
   `.tile-image` element the inner option is its `data-srcset` attribute. `tileId` is the
   tile's own `data-tile-id` attribute.
   */
  datatype Tile = Tile(
    anchor: Option<Anchor>,
    tileImage: Option<Option<string>>,
    priceValue: Option<string>,
    tileId: Option<string>)

  /** `querySelector(...)` gave `null` and the mapping dereferenced it: the whole `$$eval` throws. */
  predicate Throws(t: Tile) {
    t.anchor.None? || t.tileImage.None? || t.priceValue.None?
  }

  /** `imageSrcset ? imageSrcset.split(' ')[0] : null`. */
  function SrcsetImage(srcset: Option<string>): (r: Option<string>)
    ensures r.Some? <==> Truthy(srcset)
    ensures r.Some? ==> r.value <= srcset.value && ' ' !in r.value
    ensures r.Some? && |r.value| < |srcset.value| ==> srcset.value[|r.value|] == ' '
  {
    if Truthy(srcset) then Some(FirstToken(srcset.value)) else None
  }

  /** Lines 41-53: the record of one tile that does not throw. */
  function ExtractTile(t: Tile): (r: Product)
    requires !Throws(t)
    ensures r.id.None? && r.gender.None?
    ensures r.title == Some(t.anchor.value.text) && r.link == t.anchor.value.href
    ensures r.imageUrl == SrcsetImage(t.tileImage.value)
    ensures r.price == Some(Price(PriceChars(t.priceValue.value)))
    ensures r.currency.Some? <==> Contains(t.priceValue.value, "$")
    ensures r.currency.Some? ==> r.currency.value == "USD"
    ensures r.sku == t.tileId
  {
    var text := t.priceValue.value;
    Product(None, Some(t.anchor.value.text), t.anchor.value.href, SrcsetImage(t.tileImage.value),
            Some(Price(PriceChars(text))), if Contains(text, "$") then Some("USD") else None,
            t.tileId, None)
  }

  /** The record of a tile, with the all-`null` record standing in for one that throws. */
  function TileRecord(t: Tile): Product {
    if Throws(t) then Blank else ExtractTile(t)
  }

  /** The `$$eval` of one iteration: every tile's record, or nothing when any tile throws. */
  function ExtractPage(tiles: seq<Tile>): (r: Option<seq<Product>>)
    ensures r.Some? <==> forall i :: 0 <= i < |tiles| ==> !Throws(tiles[i])
    ensures r.Some? ==> |r.value| == |tiles|
  {
    if forall i :: 0 <= i < |tiles| ==> !Throws(tiles[i]) then Some(MapSeq(TileRecord, tiles)) else None
  }

  /** When the `$$eval` succeeds, record `i` is the record of tile `i`. */
  lemma ExtractPageRecords(tiles: seq<Tile>)
    requires ExtractPage(tiles).Some?
    ensures forall i :: 0 <= i < |tiles| ==> ExtractPage(tiles).value[i] == ExtractTile(tiles[i])
  {
  }

  /** Extraction is per tile, so a page that grows by `b` gives the old records followed by `b`'s. */
  lemma ExtractPageAppend(a: seq<Tile>, b: seq<Tile>)
    requires ExtractPage(a).Some? && ExtractPage(b).Some?
    ensures ExtractPage(a + b) == Some(ExtractPage(a).value + ExtractPage(b).value)
  {
    forall i | 0 <= i < |a + b|
      ensures !Throws((a + b)[i])
    {
      if i >= |a| {
        assert (a + b)[i] == b[i - |a|];
      }
    }
    MapSeqAppend(TileRecord, a, b);
  }

  // ---------------------------------------------------------------- the View More loop

  /**
   One pass of `while (hasMoreItems)`: the tiles on the page and whether `.js-jil-show-more`
   was present and enabled (and so clicked), or an error from the button's `evaluate` or
   from `waitForNetworkIdle` after the click.
   */
  datatype Pass = Fault | Pass(tiles: seq<Tile>, more: bool)

  /**
   What the `$$eval` of one pass gives for the tiles on the page: `ExtractPage` in the
   scraper. The loop is stated for any such function, since it only passes the records on.
   */
  type Eval = seq<Tile> -> Option<seq<Product>>

  /** Pass `i` completes without throwing. */
  predicate Clean(eval: Eval, passes: seq<Pass>, i: nat)
    requires i < |passes|
  {
    passes[i].Pass? && eval(passes[i].tiles).Some?
  }

  /**
   `products.push(...currentProducts)` on every pass from `i` on: nothing is de-duplicated,
   and the loop ends on the first pass without an enabled button. The loop has no cap;
   `Pending` means the observed passes ran out first.
   */
  function Loop(eval: Eval, passes: seq<Pass>, i: nat): (r: Outcome<seq<Product>>)
    requires i <= |passes|
    ensures i < |passes| && !Clean(eval, passes, i) ==> r.Failed?
    ensures i < |passes| && Clean(eval, passes, i) && !passes[i].more ==> r == Done(eval(passes[i].tiles).value)
    decreases |passes| - i
  {
    if i == |passes| then Pending
    else match passes[i]
      case Fault => Failed
      case Pass(tiles, more) =>
        match eval(tiles)
        case None => Failed
        case Some(ps) =>
          if !more then Done(ps)
          else match Loop(eval, passes, i + 1)
            case Done(rest) => Done(ps + rest)
            case Failed => Failed
            case Pending => Pending
  }

  /** What pass `j` adds when it completes; `[]` otherwise. */
  function PassProducts(eval: Eval, passes: seq<Pass>, j: nat): (r: seq<Product>)
    requires j < |passes|
    ensures Clean(eval, passes, j) ==> r == eval(passes[j].tiles).value
  {
    if Clean(eval, passes, j) then eval(passes[j].tiles).value else []
  }

  /** The tiles pass `j` saw; `[]` for a fault. */
  function PassTiles(passes: seq<Pass>, j: nat): (r: seq<Tile>)
    requires j < |passes|
    ensures passes[j].Pass? ==> r == passes[j].tiles
  {
    if passes[j].Pass? then passes[j].tiles else []
  }

  /** The button was there and enabled on pass `j`, so the loop goes on. */
  predicate Clicked(passes: seq<Pass>, j: nat)
    requires j < |passes|
  {
    passes[j].Pass? && passes[j].more
  }

  /** The records of passes `i`, …, `m - 1`, each pass's in full. */
  function Harvest(eval: Eval, passes: seq<Pass>, i: nat, m: nat): (r: seq<seq<Product>>)
    requires i <= m <= |passes|
    ensures |r| == m - i
    ensures forall j :: 0 <= j < m - i ==> r[j] == PassProducts(eval, passes, i + j)
  {
    seq(m - i, j requires 0 <= j < m - i => PassProducts(eval, passes, i + j))
  }

  /** The tiles of passes `i`, …, `m - 1`. */
  function TilesOf(passes: seq<Pass>, i: nat, m: nat): (r: seq<seq<Tile>>)
    requires i <= m <= |passes|
    ensures |r| == m - i
    ensures forall j :: 0 <= j < m - i ==> r[j] == PassTiles(passes, i + j)
  {
    seq(m - i, j requires 0 <= j < m - i => PassTiles(passes, i + j))
  }

  /**
   When pass `m` is the first from `i` on without the button, and no pass throws, the loop
   returns every pass's records concatenated, `m` included; so the result is exactly as long
   as all those passes' tile lists together.
   */
  lemma {:induction false} LoopKeepsEveryPass(passes: seq<Pass>, i: nat, m: nat)
    requires i <= m < |passes|
    requires forall j :: i <= j <= m ==> Clean(ExtractPage, passes, j)
    requires forall j :: i <= j < m ==> Clicked(passes, j)
    requires !Clicked(passes, m)
    ensures Loop(ExtractPage, passes, i) == Done(Flatten(Harvest(ExtractPage, passes, i, m + 1)))
    ensures |Loop(ExtractPage, passes, i).value| == SumLengths(TilesOf(passes, i, m + 1))
  {
    var h := Harvest(ExtractPage, passes, i, m + 1);
    var ts := TilesOf(passes, i, m + 1);
    LoopReturnsHarvest(ExtractPage, passes, i, m);
    forall j | 0 <= j < |h|
      ensures |h[j]| == |ts[j]|
    {
      assert Clean(ExtractPage, passes, i + j);
    }
    SumLengthsMatch(h, ts);
  }

  lemma {:induction false} LoopReturnsHarvest(eval: Eval, passes: seq<Pass>, i: nat, m: nat)
    requires i <= m < |passes|
    requires forall j :: i <= j <= m ==> Clean(eval, passes, j)
    requires forall j :: i <= j < m ==> Clicked(passes, j)
    requires !Clicked(passes, m)
    ensures Loop(eval, passes, i) == Done(Flatten(Harvest(eval, passes, i, m + 1)))
    decreases m - i, 1
  {
    if i < m {
      LoopHarvestStep(eval, passes, i, m);
    } else {
      LoopHarvestAtStop(eval, passes, m);
    }
  }

  /** A pass before the stop, given the harvest of the later passes. */
  lemma {:induction false} LoopHarvestStep(eval: Eval, passes: seq<Pass>, i: nat, m: nat)
    requires i < m < |passes|
    requires forall j :: i <= j <= m ==> Clean(eval, passes, j)
    requires forall j :: i <= j < m ==> Clicked(passes, j)
    requires !Clicked(passes, m)
    ensures Loop(eval, passes, i) == Done(Flatten(Harvest(eval, passes, i, m + 1)))
    decreases m - i, 0
  {
    LoopReturnsHarvest(eval, passes, i + 1, m);
    assert Clean(eval, passes, i) && Clicked(passes, i);
    LoopGoesOn(eval, passes, i, m);
  }

  /** The pass without the button returns its own records. */
  lemma LoopHarvestAtStop(eval: Eval, passes: seq<Pass>, m: nat)
    requires m < |passes| && Clean(eval, passes, m) && !Clicked(passes, m)
    ensures Loop(eval, passes, m) == Done(Flatten(Harvest(eval, passes, m, m + 1)))
  {
    assert Flatten(Harvest(eval, passes, m, m + 1)) == PassProducts(eval, passes, m);
  }

  /** The inductive step: a pass that clicks puts its records in front of the later passes'. */
  lemma LoopGoesOn(eval: Eval, passes: seq<Pass>, i: nat, m: nat)
    requires i < m < |passes| && Clean(eval, passes, i) && Clicked(passes, i)
    requires Loop(eval, passes, i + 1) == Done(Flatten(Harvest(eval, passes, i + 1, m + 1)))
    ensures Loop(eval, passes, i) == Done(Flatten(Harvest(eval, passes, i, m + 1)))
  {
    LoopClicks(eval, passes, i);
    FlattenHarvestFront(eval, passes, i, m + 1);
  }

  /** A clean pass that clicks puts its records in front of whatever the later passes return. */
  lemma LoopClicks(eval: Eval, passes: seq<Pass>, i: nat)
    requires i + 1 < |passes| && Clean(eval, passes, i) && Clicked(passes, i)
    requires Loop(eval, passes, i + 1).Done?
    ensures Loop(eval, passes, i) == Done(PassProducts(eval, passes, i) + Loop(eval, passes, i + 1).value)
  {
  }

  lemma FlattenHarvestFront(eval: Eval, passes: seq<Pass>, i: nat, m: nat)
    requires i < m <= |passes|
    ensures Flatten(Harvest(eval, passes, i, m)) == PassProducts(eval, passes, i) + Flatten(Harvest(eval, passes, i + 1, m))
  {
    var h := Harvest(eval, passes, i, m);
    assert h[1..] == Harvest(eval, passes, i + 1, m);
  }

  /** Each pass yields as many records as it saw tiles, so the totals agree. */
  lemma {:induction false} SumLengthsMatch(h: seq<seq<Product>>, ts: seq<seq<Tile>>)
    requires |h| == |ts|
    requires forall j :: 0 <= j < |h| ==> |h[j]| == |ts[j]|
    ensures SumLengths(h) == SumLengths(ts)
  {
    if |h| > 0 {
      SumLengthsMatch(h[1..], ts[1..]);
    }
  }

  /**
   No de-duplication: when "View More" appends tiles `b` to tiles `a`, the second pass
   re-reads `a`, and their records come out twice.
   */
  lemma ViewMoreRepeatsEarlierTiles(a: seq<Tile>, b: seq<Tile>)
    requires ExtractPage(a).Some? && ExtractPage(b).Some?
    ensures Loop(ExtractPage, [Pass(a, true), Pass(a + b, false)], 0)
         == Done(ExtractPage(a).value + (ExtractPage(a).value + ExtractPage(b).value))
  {
    ExtractPageAppend(a, b);
  }

  // ---------------------------------------------------------------- origin resolution

  /**
   Lines 75-79. `resolve(v, base)` stands for `new URL(v, base).href` (a `null` link is
   resolved as the text "null"); the `URL` class is not part of this model. Only the link
   and the image change; a falsy image becomes `null`.
   */
  function Resolve(ps: seq<Product>, base: string, resolve: (Option<string>, string) -> string): (r: seq<Product>)
    ensures |r| == |ps|
    ensures forall i :: 0 <= i < |ps| ==> r[i].link == Some(resolve(ps[i].link, base))
    ensures forall i :: 0 <= i < |ps| ==> (r[i].imageUrl.Some? <==> Truthy(ps[i].imageUrl))
    ensures forall i :: 0 <= i < |ps| && Truthy(ps[i].imageUrl) ==> r[i].imageUrl == Some(resolve(ps[i].imageUrl, base))
    ensures forall i :: 0 <= i < |ps| ==> r[i].(link := ps[i].link, imageUrl := ps[i].imageUrl) == ps[i]
  {
    seq(|ps|, i requires 0 <= i < |ps| =>
      ps[i].(link := Some(resolve(ps[i].link, base)),
             imageUrl := if Truthy(ps[i].imageUrl) then Some(resolve(ps[i].imageUrl, base)) else None))
  }

  /** Resolution is per record, so it distributes over the concatenation of passes. */
  lemma ResolveAppend(a: seq<Product>, b: seq<Product>, base: string, resolve: (Option<string>, string) -> string)
    ensures Resolve(a + b, base, resolve) == Resolve(a, base, resolve) + Resolve(b, base, resolve)
  {
    var l := Resolve(a + b, base, resolve);
    var r := Resolve(a, base, resolve) + Resolve(b, base, resolve);
    forall i | 0 <= i < |l|
      ensures l[i] == r[i]
    {
      if i < |a| {
        assert (a + b)[i] == a[i];
      } else {
        assert (a + b)[i] == b[i - |a|];
      }
    }
  }

  /**
   `index`: the loop, then resolution against `origin(url)`, the root's `new URL(url).origin`.
   An error anywhere propagates to `run`.
   */
  function Index(root: string, passes: seq<Pass>, origin: string -> string,
                 resolve: (Option<string>, string) -> string): (r: Outcome<seq<Product>>)
    ensures r.Done? <==> Loop(ExtractPage, passes, 0).Done?
    ensures r.Failed? <==> Loop(ExtractPage, passes, 0).Failed?
    ensures r.Done? ==> |r.value| == |Loop(ExtractPage, passes, 0).value|
    ensures Loop(ExtractPage, passes, 0).Done? ==> r == Done(Resolve(Loop(ExtractPage, passes, 0).value, origin(root), resolve))
  {
    match Loop(ExtractPage, passes, 0)
    case Done(ps) => Done(Resolve(ps, origin(root), resolve))
    case Failed => Failed
    case Pending => Pending
  }

  /**
   With pass `m` the first without an enabled button and every pass up to it readable,
   `index` returns the records of passes `0 … m` in pass order, each resolved against the
   root's origin.
   */
  lemma {:induction false} IndexResolvesEveryPass(root: string, passes: seq<Pass>, m: nat, origin: string -> string,
                                                  resolve: (Option<string>, string) -> string)
    requires m < |passes|
    requires forall j :: 0 <= j <= m ==> Clean(ExtractPage, passes, j)
    requires forall j :: 0 <= j < m ==> Clicked(passes, j)
    requires !Clicked(passes, m)
    ensures Loop(ExtractPage, passes, 0) == Done(Flatten(Harvest(ExtractPage, passes, 0, m + 1)))
    ensures Index(root, passes, origin, resolve)
         == Done(Resolve(Flatten(Harvest(ExtractPage, passes, 0, m + 1)), origin(root), resolve))
  {
    LoopKeepsEveryPass(passes, 0, m);
  }

  /** The outcome of `index` for each root, in root order. */
  function Outcomes(roots: seq<string>, passes: seq<seq<Pass>>, origin: string -> string,
                    resolve: (Option<string>, string) -> string): (r: seq<Outcome<seq<Product>>>)
    requires |passes| == |roots|
    ensures |r| == |roots|
    ensures forall i :: 0 <= i < |roots| ==> r[i] == Index(roots[i], passes[i], origin, resolve)
  {
    seq(|roots|, i requires 0 <= i < |roots| => Index(roots[i], passes[i], origin, resolve))
  }

  /**
   `run`: roots one after the other; the first `index` that throws reaches the outer
   `catch`, and then nothing is written.
   */
  function Run(roots: seq<string>, passes: seq<seq<Pass>>, origin: string -> string,
               resolve: (Option<string>, string) -> string): (r: Outcome<seq<Product>>)
    requires |passes| == |roots|
    ensures r.Done? <==> forall i :: 0 <= i < |roots| ==> Index(roots[i], passes[i], origin, resolve).Done?
    ensures r.Failed? <==> exists i :: 0 <= i < |roots| && Index(roots[i], passes[i], origin, resolve).Failed? &&
                                      forall j :: 0 <= j < i ==> Index(roots[j], passes[j], origin, resolve).Done?
    ensures r.Done? ==> r.value == Flatten(DoneValues(Outcomes(roots, passes, origin, resolve)))
  {
    RunRoots(Outcomes(roots, passes, origin, resolve))
  }
}

=== FILE: optional.dfy ===
/** The JavaScript/Python `null` of a record field, as an explicit optional value. */
module Optional {

  datatype Option<+T> = None | Some(value: T)
}

=== FILE: stabilize.dfy ===
/**
 The "stop after K consecutive unchanged samples" rule of the infinite-scroll scrapers.
 Each scraper keeps its own counter; this module gives the reference: a run-length
 counter over per-sample "stale" flags, and the window property it decides.
 */
module Stabilize {
  import opened Optional

  /** How a scroll loop ended: settled at a sample, an error at a sample, or still scrolling. */
  datatype Scroll = Settled(at: nat) | Faulted(at: nat) | Unsettled

  /** The `k` samples ending at index `end` are all stale. */
  predicate WindowEndsAt(stale: seq<bool>, k: nat, end: nat)
    requires end < |stale|
  {
    k <= end + 1 && forall j :: end + 1 - k <= j <= end ==> stale[j]
  }

  /** No stale window of length `k` ends before index `n`. */
  predicate NoWindowBefore(stale: seq<bool>, k: nat, n: nat) {
    forall e :: 0 <= e < n && e < |stale| ==> !WindowEndsAt(stale, k, e)
  }

  /** `run` is the number of consecutive stale samples immediately before index `i`. */
  predicate TrailingRun(stale: seq<bool>, i: nat, run: nat)
    requires i <= |stale|
  {
    && run <= i
    && (forall j :: i - run <= j < i ==> stale[j])
    && (run < i ==> !stale[i - run - 1])
  }

  /**
   The counter: reset on a fresh sample, incremented on a stale one, and the loop stops
   at the sample that brings it to `k`. The result is the index of that sample.
   */
  function Detect(stale: seq<bool>, k: nat, i: nat, run: nat): (r: Option<nat>)
    requires 1 <= k && i <= |stale|
    ensures r.Some? ==> i <= r.value < |stale|
    decreases |stale| - i
  {
    if i == |stale| then None
    else if stale[i] then
      if run + 1 >= k then Some(i) else Detect(stale, k, i + 1, run + 1)
    else Detect(stale, k, i + 1, 0)
  }

  /** At index `i` with the counter equal to the trailing run, a window ends exactly when the counter reaches `k`. */
  lemma WindowAtCounter(stale: seq<bool>, k: nat, i: nat, run: nat)
    requires 1 <= k && i < |stale| && TrailingRun(stale, i, run) && run < k
    ensures WindowEndsAt(stale, k, i) <==> stale[i] && run + 1 >= k
  {
    if run + 1 < k <= i + 1 {
      assert !stale[i - run - 1];
    }
  }

  lemma {:induction false} DetectFindsFirstWindow(stale: seq<bool>, k: nat, i: nat, run: nat)
    requires 1 <= k && i <= |stale|
    requires TrailingRun(stale, i, run) && run < k
    requires NoWindowBefore(stale, k, i)
    ensures Detect(stale, k, i, run).Some? ==>
              var e := Detect(stale, k, i, run).value;
              WindowEndsAt(stale, k, e) && NoWindowBefore(stale, k, e)
    ensures Detect(stale, k, i, run).None? ==> NoWindowBefore(stale, k, |stale|)
    decreases |stale| - i
  {
    if i < |stale| {
      WindowAtCounter(stale, k, i, run);
      if stale[i] && run + 1 >= k {
      } else if stale[i] {
        DetectFindsFirstWindow(stale, k, i + 1, run + 1);
      } else {
        DetectFindsFirstWindow(stale, k, i + 1, 0);
      }
    }
  }

  /**
   Started with an empty counter, the detector stops at index `e` exactly when `e` ends the
   first window of `k` stale samples, and runs out exactly when there is no such window.
   */
  lemma DetectIsFirstWindow(stale: seq<bool>, k: nat)
    requires 1 <= k
    ensures forall e :: 0 <= e < |stale| ==>
              (Detect(stale, k, 0, 0) == Some(e) <==> WindowEndsAt(stale, k, e) && NoWindowBefore(stale, k, e))
    ensures Detect(stale, k, 0, 0).None? <==> NoWindowBefore(stale, k, |stale|)
  {
    DetectFindsFirstWindow(stale, k, 0, 0);
  }

  /** The stale flags of "equal to the previous sample", the first sample compared with 0. */
  function EqualsPrevious(samples: seq<int>): (stale: seq<bool>)
    ensures |stale| == |samples|
    ensures forall j :: 0 < j < |samples| ==> (stale[j] <==> samples[j] == samples[j - 1])
    ensures |samples| > 0 ==> (stale[0] <==> samples[0] == 0)
  {
    seq(|samples|, j requires 0 <= j < |samples| => samples[j] == (if j == 0 then 0 else samples[j - 1]))
  }
}

=== FILE: strings.dfy ===
/**
 The handful of string operations the crawler relies on (`includes`, `split(' ')[0]`,
 `lower()`, decimal printing and `parseInt`), written out over `seq<char>`.
 */
module Strings {

  /** `part` occurs in `s` starting at index `i`. */
  predicate OccursAt(s: string, part: string, i: nat) {
    i + |part| <= |s| && s[i..i + |part|] == part
  }

  /** JavaScript's `s.includes(part)` and Python's `part in s`. */
  predicate Contains(s: string, part: string)
    decreases |s|
  {
    part <= s || (|s| > 0 && Contains(s[1..], part))
  }

  /** An occurrence at a known index is an occurrence. */
  lemma {:induction false} OccursAtContains(s: string, part: string, i: nat)
    requires OccursAt(s, part, i)
    ensures Contains(s, part)
    decreases i
  {
    if i == 0 {
      assert s[..|part|] == part;
    } else {
      assert s[1..][i - 1..i - 1 + |part|] == s[i..i + |part|];
      OccursAtContains(s[1..], part, i - 1);
    }
  }

  /** `Contains` holds exactly when some index carries an occurrence. */
  lemma {:induction false} ContainsIff(s: string, part: string)
    ensures Contains(s, part) <==> exists i: nat :: OccursAt(s, part, i)
    decreases |s|
  {
    if part <= s {
      assert OccursAt(s, part, 0);
    } else if |s| > 0 && Contains(s[1..], part) {
      ContainsIff(s[1..], part);
      var i: nat :| OccursAt(s[1..], part, i);
      assert s[1..][i..i + |part|] == s[i + 1..i + 1 + |part|];
      assert OccursAt(s, part, i + 1);
    }
    forall i: nat | OccursAt(s, part, i)
      ensures Contains(s, part)
    {
      OccursAtContains(s, part, i);
    }
  }

  /**
   An occurrence of `part` in `a + b` lies inside `a` or inside `b` when the first
   character of `b` does not occur in `part` at all (no occurrence can straddle the seam).
   */
  lemma ContainsAcrossSeam(a: string, b: string, part: string)
    requires |b| > 0 && b[0] !in part
    requires !Contains(a, part) && !Contains(b, part)
    ensures !Contains(a + b, part)
  {
    ContainsIff(a, part);
    ContainsIff(b, part);
    ContainsIff(a + b, part);
    forall i: nat
      ensures !OccursAt(a + b, part, i)
    {
      if i + |part| <= |a| {
        assert (a + b)[i..i + |part|] == a[i..i + |part|];
        assert !OccursAt(a, part, i);
      } else if |a| <= i && i + |part| <= |a + b| {
        assert (a + b)[i..i + |part|] == b[i - |a|..i - |a| + |part|];
        assert !OccursAt(b, part, i - |a|);
      } else if i + |part| <= |a + b| {
        assert (a + b)[i..i + |part|][|a| - i] == b[0];
        assert part[|a| - i] in part;
      }
    }
  }

  /** JavaScript's `s.split(' ')[0]`: the longest prefix without a space. */
  function FirstToken(s: string): (r: string)
    ensures r <= s
    ensures ' ' !in r
    ensures |r| < |s| ==> s[|r|] == ' '
  {
    if |s| == 0 || s[0] == ' ' then "" else [s[0]] + FirstToken(s[1..])
  }

  /** ASCII case folding; the non-ASCII part of Python's `str.lower` is not modelled. */
  function LowerChar(c: char): (r: char)
    ensures 'A' <= c <= 'Z' ==> 'a' <= r <= 'z'
    ensures !('A' <= c <= 'Z') ==> r == c
  {
    if 'A' <= c <= 'Z' then (c as int - 'A' as int + 'a' as int) as char else c
  }

  function Lower(s: string): (r: string)
    ensures |r| == |s|
    ensures forall i :: 0 <= i < |s| ==> r[i] == LowerChar(s[i])
  {
    if |s| == 0 then "" else [LowerChar(s[0])] + Lower(s[1..])
  }

  predicate IsDigit(c: char) {
    '0' <= c <= '9'
  }

  predicate AllDigits(s: string) {
    forall i :: 0 <= i < |s| ==> IsDigit(s[i])
  }

  function DigitChar(d: nat): (c: char)
    requires d < 10
    ensures IsDigit(c)
  {
    ('0' as int + d) as char
  }

  /** `parseInt` of a run of decimal digits. */
  function ParseDigits(ds: string): nat
    requires AllDigits(ds)
  {
    if |ds| == 0 then 0
    else ParseDigits(ds[..|ds| - 1]) * 10 + (ds[|ds| - 1] as int - '0' as int)
  }

  /** The decimal text of `n` (template literal `${n}` for a natural number). */
  function ShowNat(n: nat): (r: string)
    ensures |r| > 0 && AllDigits(r)
  {
    if n < 10 then [DigitChar(n)] else ShowNat(n / 10) + [DigitChar(n % 10)]
  }

  /** Printing then parsing a page number gives the number back. */
  lemma {:induction false} ParseShowNat(n: nat)
    ensures ParseDigits(ShowNat(n)) == n
  {
    if n >= 10 {
      var s := ShowNat(n / 10) + [DigitChar(n % 10)];
      assert s[..|s| - 1] == ShowNat(n / 10);
      ParseShowNat(n / 10);
    }
  }

  /** Length of the maximal run of digits starting at index `i` (what `\d+` matches greedily). */
  function DigitRun(s: string, i: nat): (n: nat)
    requires i <= |s|
    ensures i + n <= |s|
    ensures forall j :: i <= j < i + n ==> IsDigit(s[j])
    ensures AllDigits(s[i..i + n])
    ensures i + n == |s| || !IsDigit(s[i + n])
    decreases |s| - i
  {
    if i < |s| && IsDigit(s[i]) then
      var m := DigitRun(s, i + 1);
      assert forall j :: i <= j < i + 1 + m ==> s[i..i + 1 + m][j - i] == s[j];
      1 + m
    else 0
  }

  /** `DigitRun` is the one length whose run is all digits and is followed by a non-digit or the end. */
  lemma {:induction false} DigitRunUnique(s: string, i: nat, m: nat)
    requires i + m <= |s|
    requires forall j :: i <= j < i + m ==> IsDigit(s[j])
    requires i + m == |s| || !IsDigit(s[i + m])
    ensures DigitRun(s, i) == m
    decreases m
  {
    if m > 0 {
      DigitRunUnique(s, i + 1, m - 1);
    }
  }

  /** An occurrence survives appending. */
  lemma ContainsExtend(a: string, b: string, part: string)
    requires Contains(a, part)
    ensures Contains(a + b, part)
  {
    ContainsIff(a, part);
    var i: nat :| OccursAt(a, part, i);
    assert (a + b)[i..i + |part|] == a[i..i + |part|];
    OccursAtContains(a + b, part, i);
  }
}

=== FILE: urls.dfy ===
/**
 URL normalisation shared by the repair scripts (`fixUrl` in src/fixdb.js and src/crop.js,
 `fix_url` in py-scripts/generate_embeddings.py) and the `?page=n` builder of the paginated scrapers.
 */
module Urls {
  import opened Optional
  import opened Strings

  /**
   The three-way rule on a non-null URL: protocol-relative `//x` becomes `https://x`, a
   root-relative `/p` is prefixed with the site's base URL, anything else is left alone.
   The `//` test comes first, so `//x` is never treated as a root-relative path.
   */
  function FixUrlText(base: string, url: string): (r: string)
    ensures "//" <= url ==> r == "https:" + url
    ensures "/" <= url && !("//" <= url) ==> r == base + url
    ensures !("/" <= url) ==> r == url
  {
    if "//" <= url then "https:" + url
    else if "/" <= url then base + url
    else url
  }

  /** The null-guarded variant: `null` stays `null`. */
  function FixUrl(base: string, url: Option<string>): (r: Option<string>)
    ensures r.None? <==> url.None?
    ensures url.Some? ==> r == Some(FixUrlText(base, url.value))
  {
    match url
    case None => None
    case Some(u) => Some(FixUrlText(base, u))
  }

  /** A normalised URL never starts with `/` unless the base does (or the base is empty). */
  lemma FixUrlTextLeavesNoRootPath(base: string, url: string)
    requires !("/" <= base)
    ensures "/" <= FixUrlText(base, url) ==> base == "" && "/" <= url && !("//" <= url)
  {
    var r := FixUrlText(base, url);
    if "//" <= url {
      assert r[0] == 'h';
    } else if "/" <= url && base != "" {
      assert r[0] == base[0];
    }
  }

  /**
   Normalising twice is normalising once, provided the base URL does not itself start with
   `/` (with base `/a`, `/p` would become `/a/p` and then `/a/a/p`).
   */
  lemma FixUrlTextIdempotent(base: string, url: string)
    requires !("/" <= base)
    ensures FixUrlText(base, FixUrlText(base, url)) == FixUrlText(base, url)
  {
    FixUrlTextLeavesNoRootPath(base, url);
    var r := FixUrlText(base, url);
    if "/" <= r {
      assert base + url == url;
    }
  }

  lemma FixUrlIdempotent(base: string, url: Option<string>)
    requires !("/" <= base)
    ensures FixUrl(base, FixUrl(base, url)) == FixUrl(base, url)
  {
    if url.Some? {
      FixUrlTextIdempotent(base, url.value);
    }
  }

  /**
   The relative and the absolute spelling of one address normalise to the same string:
   `/p` and `base/p`, and `//h/p` and `https://h/p`.
   */
  lemma FixUrlTextForms(base: string, path: string, rest: string)
    requires !("/" <= base)
    requires "/" <= path && !("//" <= path)
    ensures FixUrlText(base, path) == FixUrlText(base, base + path)
    ensures FixUrlText(base, "//" + rest) == FixUrlText(base, "https://" + rest)
  {
    FixUrlTextIdempotent(base, path);
    assert "https:" + ("//" + rest) == "https://" + rest;
    assert ("https://" + rest)[0] == 'h';
  }

  /** An absolute `https:` URL is left as it is. */
  lemma FixUrlTextKeepsHttps(base: string, url: string)
    requires "https:" <= url
    ensures FixUrlText(base, url) == url
  {
    assert url[0] == "https:"[0] == 'h';
  }

  /** `${base}${base.includes('?') ? '&' : '?'}page=${n}`. */
  function PageUrl(base: string, n: nat): (r: string)
    ensures base <= r && |r| > |base| + 6
    ensures r[|base|] == (if Contains(base, "?") then '&' else '?')
    ensures r[|base| + 1..|base| + 6] == "page="
    ensures AllDigits(r[|base| + 6..]) && ParseDigits(r[|base| + 6..]) == n
  {
    var r := base + [if Contains(base, "?") then '&' else '?'] + "page=" + ShowNat(n);
    assert r[|base| + 6..] == ShowNat(n);
    ParseShowNat(n);
    r
  }

  /** Distinct page numbers give distinct page URLs: no page is requested under two numbers. */
  lemma PageUrlInjective(base: string, m: nat, n: nat)
    requires PageUrl(base, m) == PageUrl(base, n)
    ensures m == n
  {
  }
}

=== FILE: zara.dfy ===
/**
 The zara.com helpers (scrapers/scroll/zara.com.js): scroll until the scroll position stops
 moving, then extract every product tile, dropping the ones whose extraction throws.
 */
module Zara {
  import opened Optional
  import opened Strings
  import opened Catalog
  import opened Stabilize

  /** One pass of the scroll loop: the `window.scrollY` it read, or an error it threw. */
  datatype Sample = Pos(y: int) | Fault

  /** The `while (true)` loop of `scrollToBottom` from pass `i`: stop when the position repeats. */
  function ScrollToBottom(samples: seq<Sample>, i: nat, prevScrollPosition: int): (r: Scroll)
    requires i <= |samples|
    ensures r.Settled? || r.Faulted? ==> i <= r.at < |samples|
    ensures r.Faulted? ==> samples[r.at].Fault?
    ensures r.Settled? && r.at == i ==> samples[i] == Pos(prevScrollPosition)
    ensures r.Settled? && r.at > i ==> samples[r.at - 1].Pos? && samples[r.at] == samples[r.at - 1]
    decreases |samples| - i
  {
    if i == |samples| then Unsettled
    else match samples[i]
      case Fault => Faulted(i)
      case Pos(y) => if y == prevScrollPosition then Settled(i) else ScrollToBottom(samples, i + 1, y)
  }

  /** The positions read before the first error. */
  function PositionsBeforeFault(samples: seq<Sample>): (ys: seq<int>)
    ensures |ys| <= |samples|
    ensures forall j :: 0 <= j < |ys| ==> samples[j] == Pos(ys[j])
    ensures |ys| < |samples| ==> samples[|ys|].Fault?
  {
    if |samples| == 0 || samples[0].Fault? then []
    else [samples[0].y] + PositionsBeforeFault(samples[1..])
  }

  lemma {:induction false} ScrollFollowsDetector(samples: seq<Sample>, ys: seq<int>, i: nat)
    requires ys == PositionsBeforeFault(samples)
    requires i <= |ys|
    ensures var d := Detect(EqualsPrevious(ys), 1, i, 0);
            ScrollToBottom(samples, i, if i == 0 then 0 else ys[i - 1]) ==
              if d.Some? then Settled(d.value)
              else if |ys| < |samples| then Faulted(|ys|)
              else Unsettled
    decreases |samples| - i
  {
    if i < |ys| && ys[i] != (if i == 0 then 0 else ys[i - 1]) {
      ScrollFollowsDetector(samples, ys, i + 1);
    }
  }

  /**
   The loop stops at pass `k` exactly when `k` is the first pass whose position equals the
   one before it (the first pass is compared with 0), provided no error came first; an
   error stops it unless a repeat came first; otherwise it keeps scrolling.
   */
  lemma {:induction false} ScrollToBottomIsFirstRepeat(samples: seq<Sample>)
    ensures var ys := PositionsBeforeFault(samples);
            && (forall k :: 0 <= k < |ys| ==>
                  (ScrollToBottom(samples, 0, 0) == Settled(k) <==>
                   WindowEndsAt(EqualsPrevious(ys), 1, k) && NoWindowBefore(EqualsPrevious(ys), 1, k)))
            && (ScrollToBottom(samples, 0, 0).Faulted? <==>
                   |ys| < |samples| && NoWindowBefore(EqualsPrevious(ys), 1, |ys|))
  {
    var ys := PositionsBeforeFault(samples);
    ScrollFollowsDetector(samples, ys, 0);
    DetectIsFirstWindow(EqualsPrevious(ys), 1);
  }

  /** A page that keeps moving never reaches "the bottom": there is no iteration cap. */
  lemma MovingPageNeverSettles(ys: seq<int>)
    requires |ys| > 0 ==> ys[0] != 0
    requires forall j :: 0 < j < |ys| ==> ys[j] != ys[j - 1]
    ensures ScrollToBottom(seq(|ys|, j requires 0 <= j < |ys| => Pos(ys[j])), 0, 0) == Unsettled
  {
    var samples := seq(|ys|, j requires 0 <= j < |ys| => Pos(ys[j]));
    MovingFrom(samples, ys, 0);
  }

  lemma {:induction false} MovingFrom(samples: seq<Sample>, ys: seq<int>, i: nat)
    requires |samples| == |ys| && forall j :: 0 <= j < |ys| ==> samples[j] == Pos(ys[j])
    requires |ys| > 0 ==> ys[0] != 0
    requires forall j :: 0 < j < |ys| ==> ys[j] != ys[j - 1]
    requires i <= |ys|
    ensures ScrollToBottom(samples, i, if i == 0 then 0 else ys[i - 1]) == Unsettled
    decreases |ys| - i
  {
    if i < |ys| {
      MovingFrom(samples, ys, i + 1);
    }
  }

  /**
   What one product tile showed. The reads that throw when their element is missing are
   `Option`s, `None` meaning the read threw; `sku` is the attribute value, possibly `null`.
   */
  datatype Tile = Tile(
    title: Option<string>,
    href: Option<string>,
    src: Option<string>,
    priceText: Option<string>,
    sku: Option<string>)

  /** All reads that can throw succeeded. */
  predicate Complete(t: Tile) {
    t.title.Some? && t.href.Some? && t.src.Some? && t.priceText.Some?
  }

  /**
   `extractProduct`: `null` as soon as one read throws; otherwise the link's hash as id,
   the price's digits, currency `USD`, and the gender the caller passed.
   */
  function ExtractProduct(t: Tile, gender: Option<string>, hash: HashFn): (r: Option<Product>)
    ensures r.Some? <==> Complete(t)
    ensures r.Some? ==> var p := r.value;
              && p.id == Some(hash([t.href]))
              && p.link == t.href && p.imageUrl == t.src && p.title == t.title
              && p.price == Some(Price(PriceChars(t.priceText.value)))
              && p.currency == Some("USD") && p.sku == t.sku && p.gender == gender
  {
    if !Complete(t) then None
    else Some(Product(Some(hash([t.href])), t.title, t.href, t.src,
                      Some(Price(PriceChars(t.priceText.value))), Some("USD"), t.sku, gender))
  }

  /** Two tiles with the same link get the same id, whatever else differs. */
  lemma SameLinkSameId(a: Tile, b: Tile, ga: Option<string>, gb: Option<string>, hash: HashFn)
    requires Complete(a) && Complete(b) && a.href == b.href
    ensures ExtractProduct(a, ga, hash).value.id == ExtractProduct(b, gb, hash).value.id
  {
  }

  /** What one `extractProductFn` call settles to: a record or `null`, or a rejection. */
  datatype Extracted = Resolved(product: Option<Product>) | Rejected

  /** The `extractProductFn` the caller passes: one tile and the caller's gender in. */
  type Extractor = (Tile, Option<string>) -> Extracted

  /** Some extractor call rejects, and with it `Promise.all`. */
  predicate AnyRejects(tiles: seq<Tile>, gender: Option<string>, extract: Extractor) {
    exists i :: 0 <= i < |tiles| && extract(tiles[i], gender).Rejected?
  }

  /** The settled values of the extractor calls, in tile order (a rejection counts as `null`). */
  function Results(tiles: seq<Tile>, gender: Option<string>, extract: Extractor): (r: seq<Option<Product>>)
    ensures |r| == |tiles|
    ensures forall i :: 0 <= i < |tiles| && extract(tiles[i], gender).Resolved? ==> r[i] == extract(tiles[i], gender).product
  {
    seq(|tiles|, i requires 0 <= i < |tiles| =>
      match extract(tiles[i], gender)
      case Resolved(p) => p
      case Rejected => None)
  }

  /**
   `collectProducts`: scroll to the bottom, then call the caller's extractor on every tile
   under `Promise.all` and drop the `null`s. An error while scrolling or a rejecting
   extractor throws; a position that never repeats never returns.
   */
  function CollectProducts(samples: seq<Sample>, tiles: seq<Tile>, gender: Option<string>, extract: Extractor): (r: Outcome<seq<Product>>)
    ensures r.Done? <==> ScrollToBottom(samples, 0, 0).Settled? && !AnyRejects(tiles, gender, extract)
    ensures r.Failed? <==> ScrollToBottom(samples, 0, 0).Faulted? ||
                           (ScrollToBottom(samples, 0, 0).Settled? && AnyRejects(tiles, gender, extract))
    ensures r.Done? ==> |r.value| <= |tiles|
    ensures r.Done? ==> forall j :: 0 <= j < |r.value| ==>
              exists i :: 0 <= i < |tiles| && extract(tiles[i], gender) == Resolved(Some(r.value[j]))
    ensures r.Done? ==> forall i :: 0 <= i < |tiles| && extract(tiles[i], gender).product.Some? ==>
              extract(tiles[i], gender).product.value in r.value
    ensures r.Done? ==> r.value == Somes(Results(tiles, gender, extract))
  {
    match ScrollToBottom(samples, 0, 0)
    case Settled(_) =>
      if AnyRejects(tiles, gender, extract) then Failed
      else
        var xs := Results(tiles, gender, extract);
        var ps := Somes(xs);
        assert forall j :: 0 <= j < |ps| ==> Some(ps[j]) in xs;
        assert forall i :: 0 <= i < |tiles| ==> extract(tiles[i], gender) == Resolved(xs[i]);
        Done(ps)
    case Faulted(_) => Failed
    case Unsettled => Pending
  }

  /** This file's own `extractProduct` as an extractor: it never rejects. */
  function OwnExtractor(hash: HashFn): Extractor {
    (t: Tile, g: Option<string>) => Resolved(ExtractProduct(t, g, hash))
  }

  /**
   With this file's `extractProduct`, a scroll that settles gives exactly the complete
   tiles' records, in tile order.
   */
  lemma CollectedAreTheCompleteTiles(samples: seq<Sample>, tiles: seq<Tile>, gender: Option<string>, hash: HashFn)
    requires ScrollToBottom(samples, 0, 0).Settled?
    ensures var r := CollectProducts(samples, tiles, gender, OwnExtractor(hash));
            && r.Done?
            && |r.value| == |CompleteTiles(tiles)|
            && forall j :: 0 <= j < |r.value| ==> r.value[j] == ExtractProduct(CompleteTiles(tiles)[j], gender, hash).value
  {
    var xs := Results(tiles, gender, OwnExtractor(hash));
    assert xs == seq(|tiles|, i requires 0 <= i < |tiles| => ExtractProduct(tiles[i], gender, hash));
    ExtractedAreTheCompleteTiles(tiles, gender, hash);
  }

  /** Exactly the complete tiles give records, in tile order. */
  lemma {:induction false} ExtractedAreTheCompleteTiles(tiles: seq<Tile>, gender: Option<string>, hash: HashFn)
    ensures var ps := Somes(seq(|tiles|, i requires 0 <= i < |tiles| => ExtractProduct(tiles[i], gender, hash)));
            |ps| == |CompleteTiles(tiles)| &&
            forall j :: 0 <= j < |ps| ==> ps[j] == ExtractProduct(CompleteTiles(tiles)[j], gender, hash).value
  {
    if |tiles| > 0 {
      var init := tiles[..|tiles| - 1];
      var last := tiles[|tiles| - 1];
      ExtractedAreTheCompleteTiles(init, gender, hash);
      var xs := seq(|tiles|, i requires 0 <= i < |tiles| => ExtractProduct(tiles[i], gender, hash));
      var xsInit := seq(|init|, i requires 0 <= i < |init| => ExtractProduct(init[i], gender, hash));
      assert xs == xsInit + [ExtractProduct(last, gender, hash)];
      SomesAppend(xsInit, [ExtractProduct(last, gender, hash)]);
      assert tiles == init + [last];
    }
  }

  /** The tiles whose every throwing read succeeded, in order. */
  function CompleteTiles(tiles: seq<Tile>): (r: seq<Tile>)
    ensures |r| <= |tiles|
    ensures forall j :: 0 <= j < |r| ==> Complete(r[j])
  {
    if |tiles| == 0 then []
    else CompleteTiles(tiles[..|tiles| - 1]) + (if Complete(tiles[|tiles| - 1]) then [tiles[|tiles| - 1]] else [])
  }
}
